=== FILE: README.md ===
# LVM2 logical-volume manipulation and report options, in Dafny

This project models two parts of the LVM2 tools.

**Allocating, resizing and removing logical volumes.** A volume group (VG) owns physical
volumes (PVs) divided into physical extents. It keeps three counters:

- `pe_allocated`, the extents of each PV reserved by some segment;
- `free_count`, the extents of the group not yet given to any logical volume (LV);
- `lv_count`, the number of LVs.

An LV is a chain of stripe segments. A segment covers `len` logical extents starting at
logical extent `le`. It is spread over `stripes` areas, one per PV. Each stripe reserves
`len / stripes` extents of its PV.

Allocation draws from a free-area map. The map holds, per PV, a list of free areas, and
each area has a start and a count. There are three policies:

- **striped**: in rounds; each round takes the head area of as many maps as there are
  stripes, at most one per map, biggest first. Biggest first is the corrected order: the
  comparator as written sorts smallest first (see Findings). The maps are built one per PV,
  so no segment has two stripes on one PV;
- **contiguous**: the head area of each PV in turn;
- **simple**: every area of every PV in turn.

`lv_create`, `lv_extend`, `lv_reduce` and `lv_remove` keep the counters consistent with
the segments. `_generate_lv_name` picks `lvol<N>` with N one above the highest number
already used.

**The report command's option handling.** `_get_final_report_type` checks which kinds of
fields a report asks for and folds them into the one object type the report walks. The
option-group loop of `_get_report_options` edits the comma-separated field list:

- a `+` group appends fields;
- a `-` group deletes fields through `_del_option_from_list`;
- a `#` group collects fields to compact;
- any other group replaces the list.

## How it is modelled

- **Volume groups are objects.** `LvManip.VolumeGroup` is a class whose fields are the
  counters and the LV list. Its methods update them in place.
- **Logical volumes are objects.** `LvAlloc.LogicalVolume` is a class with `leCount`,
  `size` and `segments`.
- **Segments and free-area maps are values.** They are datatypes in `Segments` and
  `PvMap`.
- **The group's main invariant is `Valid()`:**
  - every LV's chain covers its extents 0 .. `le_count - 1` in order;
  - each PV's `pe_allocated` equals what all chains reserve on it;
  - nothing is over-allocated;
  - `free_count` plus all allocated extents is every extent of the group.
- **Methods are proved against specification functions.** Examples:
  - `Charged`/`Uncharged` for `_get_extents`/`_put_extents`;
  - `Trim` for the loop of `lv_reduce`;
  - `SortByCount` for `qsort`;
  - `DelOption` for `_del_option_from_list`;
  - `ApplyGroups` for the option loop.
- **Report-type flags are a set.** `_get_final_report_type` becomes a function on a set of
  flags.

The free-area map (built by `create_pv_maps`) is a parameter, not computed. A PV is an
index into the group's counter arrays.

## Model

| member | source | states |
|---|---|---|
| LvManip.VolumeGroup.GetExtents | lib/metadata/lv_manip.c:18-28 | every stripe of the segment charges its own PV with `len / stripes` extents, and no other counter moves |
| LvManip.VolumeGroup.PutExtents | lib/metadata/lv_manip.c:30-42 | every stripe gives `len / stripes` back to its PV; the requires is the source's assertion that each counter holds at least what is given back |
| Segments.PutUndoesGet | lib/metadata/lv_manip.c:18-42 | putting back a segment's extents right after getting them restores every PV counter |
| Segments.ChargedSum | lib/metadata/lv_manip.c:18-28 | getting a segment's extents raises the sum of all PV counters by the width times the stripe count |
| Segments.UnchargedSum | lib/metadata/lv_manip.c:30-42 | putting a segment's extents back lowers the sum of all PV counters by the width times the stripe count |
| Segments.ChargedStep | lib/metadata/lv_manip.c:23-27 | one more iteration of the get loop raises only the current stripe's PV counter, by the width |
| Segments.UnchargedStep | lib/metadata/lv_manip.c:35-41 | one more iteration of the put loop lowers only the current stripe's PV counter, by the width |
| Segments.AllChargedSum | lib/metadata/lv_manip.c:315-321 | charging all new segments raises the total of the PV counters by their total length, matching what leaves `free_count` |
| Segments.AllChargedPrepend | lib/metadata/lv_manip.c:320-321 | charging the new segments from the tail back is charging the older ones, then the newest |
| Segments.ChainConcat | lib/metadata/lv_manip.c:86-87 | two segment chains joined end to end form one chain exactly when the second starts where the first ends |
| Segments.WidthTimesStripes | lib/metadata/lv_manip.c:76 | a segment whose length is a multiple of its stripes reserves exactly its length across its stripes |
| Segments.UsageConcat | lib/metadata/lv_manip.c:320-321 | what two chains reserve on a PV together is the sum of what each reserves |
| Segments.TotalLenConcat | lib/metadata/lv_manip.c:87 | the length of two chains joined is the sum of their lengths |
| PvMap.ConsumeArea | lib/metadata/lv_manip.c:83 | consume_pv_area takes `n` extents off the front of an area, or unlinks the area when it is used up, lowering the map's free total by `n` |
| PvMap.Consume | lib/metadata/lv_manip.c:194 | consuming from one PV's map leaves every other PV's map as it was |
| PvMap.ConsumeTotal | lib/metadata/lv_manip.c:194 | consuming `n` extents lowers the consumed PV's free total by `n` and no other PV's |
| PvMap.ConsumeOk | lib/metadata/lv_manip.c:83 | the map stays well formed (non-empty areas, PV indices in range) after consuming |
| PvMap.AreasSplit | lib/metadata/lv_manip.c:257-262 | an area list's free total is the part before an area, the area, and the part after it |
| LvAlloc.LogicalVolume.constructor | lib/metadata/lv_manip.c:407-417 | a new LV carries its name, status, extent count and size, with an empty segment list |
| LvAlloc.ExtendByOne | lib/metadata/lv_manip.c:86-87 | one more segment taken from the map keeps the new segments a chain and keeps map total plus reservation unchanged per PV |
| LvAlloc.AppendOne | lib/metadata/lv_manip.c:192-195 | a segment added where the chain ends extends the chain and its reservation by that segment |
| LvAlloc.AllocLinearArea | lib/metadata/lv_manip.c:168-197 | the LV gains exactly the segment LinearSegment cuts from the area at `index` (one stripe at the area's start, as long as the smaller of the area and the remaining need), and exactly those extents leave the map |
| LvAlloc.LinearSegment | lib/metadata/lv_manip.c:173-189 | corrected: the segment starts at `index`, never overruns the area or the LV, and is either the whole area or reaches the LV's end |
| LvAlloc.LinearPlan | lib/metadata/lv_manip.c:215-230 | a linear policy appends at most one segment per place it offers |
| LvAlloc.Heads | lib/metadata/lv_manip.c:215-222 | `_alloc_contiguous` offers at most one area per map: the head of each map that has one |
| LvAlloc.LinearPlanLen | lib/metadata/lv_manip.c:168-197 | the segments of a linear plan cover the smaller of the need and what the offered places hold |
| LvAlloc.LinearPlanPlaces | lib/metadata/lv_manip.c:168-197 | segment `k` of a plan is one stripe at the start of place `k`; every segment but the last takes its place whole |
| LvAlloc.PlanStep | lib/metadata/lv_manip.c:224-230 | offering the next place appends its segment; the plan ends there when that completes the LV, else goes on with the places after it |
| LvAlloc.HeadsStep | lib/metadata/lv_manip.c:215-222 | the head areas from map `i` on are map `i`'s head, when it has one, then those of the later maps |
| LvAlloc.AllAreasStep | lib/metadata/lv_manip.c:254-258 | the areas from map `i` on are map `i`'s areas in list order, then those of the later maps |
| LvAlloc.AreasOfTotal | lib/metadata/lv_manip.c:257-258 | one map's areas, offered in list order, hold that map's free total |
| LvAlloc.AllAreasTotal | lib/metadata/lv_manip.c:254-258 | the areas `_alloc_simple` walks hold every free extent of the maps |
| LvAlloc.TakeHead | lib/metadata/lv_manip.c:221-224 | allocating from the head area of a map appends the next segment of the plan, and unlinks the area unless the LV completes on it |
| LvAlloc.LinearWidthAsWrittenOverruns | lib/metadata/lv_manip.c:174-177 | the length as written fits both the area and the LV only when the two are equal; otherwise it overruns one of them |
| LvAlloc.LinearWidthAsWritten | lib/metadata/lv_manip.c:174-177 | as written: the length is the larger of the area and the remaining need |
| LvAlloc.AllocContiguous | lib/metadata/lv_manip.c:208-241 | the new segments are the plan over the maps' head areas in map order, so segment `k` lies at the start of the head area of the `k`-th map that has one; success exactly when those head areas hold the remaining need; on failure every map that had an area has lost its head area; the extents only move from map to segments |
| LvAlloc.WalkHeads | lib/metadata/lv_manip.c:215-231 | the loop appends the plan over the head areas, stopping once the LV completes; when it stops short every map that had an area has lost its head |
| LvAlloc.FillSimple | lib/metadata/lv_manip.c:254-263 | the walk appends the plan over every area of every map, map by map and each map's in list order, leaving both loops once the LV completes; when it stops short every map is empty |
| LvAlloc.FillFromMap | lib/metadata/lv_manip.c:257-262 | the walk over one map's areas follows the plan and leaves the other maps alone; `done` (the goto) exactly when the LV completes, else this map is emptied and the plan goes on with the next maps |
| LvAlloc.AllocSimple | lib/metadata/lv_manip.c:247-274 | corrected: the new segments are the plan over all areas in walk order; success exactly when the maps together hold the remaining need; on failure every free area has been used |
| LvAlloc.AllocSimpleAsWritten | lib/metadata/lv_manip.c:265-273 | as written: the same walk appends segments, yet the result is failure on every input |
| LvAlloc.HeadCandsFacts | lib/metadata/lv_manip.c:127-136 | the candidates of the first `n` maps: one per map that has an area, each that map's head area, in increasing map order |
| LvAlloc.HeadCandsComplete | lib/metadata/lv_manip.c:127-136 | no map with a free area is missing from the candidates |
| LvAlloc.CollectHeads | lib/metadata/lv_manip.c:127-136 | the round's areas array holds the head area of every map that has one, each once, in map order |
| LvAlloc.RoundOrder | lib/metadata/lv_manip.c:127-142 | the round order holds one candidate per map with a free area, each the head area of its map; among areas of equal size map order decides, which `qsort` does not promise (see Left out) |
| LvAlloc.RoundOrderSorted | lib/metadata/lv_manip.c:141-142 | corrected order: the round order is biggest first, and no two candidates come from one map |
| LvAlloc.RoundOrderComplete | lib/metadata/lv_manip.c:127-142 | sorting loses no candidate: every map with a free area offers its head area to the round |
| LvAlloc.TakeOneStripe | lib/metadata/lv_manip.c:79-84 | placing one more stripe on a candidate's head area keeps the loop invariant of the stripe loop |
| LvAlloc.StripeTotals | lib/metadata/lv_manip.c:83 | after one more stripe, map total plus reservation per PV is still the starting map total |
| LvAlloc.RoundTaken | lib/metadata/lv_manip.c:79-84 | the stripe loop over the first `s` candidates takes what its loop invariant describes |
| LvAlloc.RoundHead | lib/metadata/lv_manip.c:80-83 | when its turn comes, the next candidate still finds its head area unchanged in the map |
| LvAlloc.RoundStep | lib/metadata/lv_manip.c:79-84 | one more pass of the stripe loop adds the stripe at candidate `s`'s head area and consumes the width from it |
| LvAlloc.RoundNext | lib/metadata/lv_manip.c:79-84 | the stripe loop can always take its next stripe: the head area is there and holds the width, and taking it is the next step of the round |
| LvAlloc.TakeStripes | lib/metadata/lv_manip.c:79-84 | the stripes built are the round's, stripe `t` at the start of candidate `t`'s head area (RoundAreas), and the map left is the round's, each chosen head area less the width (RoundRest) |
| LvAlloc.RoundAreasAt | lib/metadata/lv_manip.c:80-82 | a round's first `s` stripes are `s` stripes, stripe `t` at the start of candidate `t`'s head area, on that map's PV |
| LvAlloc.RoundRestKeepsPvs | lib/metadata/lv_manip.c:83 | consuming keeps one map per map, each on its own PV |
| LvAlloc.AllocStripeArea | lib/metadata/lv_manip.c:57-89 | given that the width fits every chosen area: one segment at `index` of StripeWidth times `stripes` extents, whose stripes are the round's (RoundAreas), and the map left is the round's (RoundRest); `index` advances by the segment's length, within the LV |
| LvAlloc.StripedSegmentOk | lib/metadata/lv_manip.c:74-87 | the striped segment is well formed and reserves on each PV exactly what left the map |
| LvAlloc.RoundShape | lib/metadata/lv_manip.c:74-87 | a round that goes ahead appends one segment at `at` with `stripes` stripes, a positive multiple of the stripes long and within the LV |
| LvAlloc.RoundKeeps | lib/metadata/lv_manip.c:74-87 | a round that goes ahead appends a well-formed segment and moves exactly its extents from the map onto it |
| LvAlloc.RoundGivesUp | lib/metadata/lv_manip.c:138-139 | a round gives up exactly when fewer maps than stripes have a free area or fewer extents than stripes are still wanted |
| LvAlloc.RoundDecides | lib/metadata/lv_manip.c:125-148 | the guard decides the round; when it goes ahead the width fits every chosen area and the round's segment is the one `_alloc_stripe_area` builds |
| LvAlloc.RoundCandidates | lib/metadata/lv_manip.c:127-142 | the collected and sorted candidates are the round order: one head area per map that has one, on distinct maps, biggest first |
| LvAlloc.RoundTakesBiggest | lib/metadata/lv_manip.c:141-142 | with the corrected order a round takes the biggest head areas: a map left out has no head area bigger than any chosen one |
| LvAlloc.StripedRound | lib/metadata/lv_manip.c:125-148 | one pass of the loop is the round StripedRoundOf describes: it gives up exactly when the round does and then changes nothing, or appends the round's segment (stripe `t` at candidate `t`'s head area, each StripeWidth wide), advances by its length and leaves the round's map |
| LvAlloc.RoundAhead | lib/metadata/lv_manip.c:141-147 | a round its guard lets go ahead appends the round's segment, advances by its length and leaves the round's map |
| LvAlloc.AheadIsRound | lib/metadata/lv_manip.c:141-147 | the segment and map `_alloc_stripe_area` leaves, over the sorted candidates, are those of the round |
| LvAlloc.StripedPlan | lib/metadata/lv_manip.c:125-148 | the segments the rounds append until one gives up; over maps on distinct PVs no segment has two stripes on one PV |
| LvAlloc.StripedPlanStep | lib/metadata/lv_manip.c:125-148 | the plan is empty when the first round gives up, else that round's segment, within the LV, followed by the plan over what it leaves |
| LvAlloc.StripedPlanDone | lib/metadata/lv_manip.c:125 | nothing is left to stripe once the LV is complete |
| LvAlloc.StripedPlanExample | lib/metadata/lv_manip.c:125-148 | head areas of 10, 7 and 5 extents, 3 stripes, 30 wanted: one 15-extent segment with a 5-wide stripe at the start of each area, then the rounds stop short and the allocation fails |
| LvAlloc.ExampleFirstRound | lib/metadata/lv_manip.c:57-89 | the first round of that example: width 5, one stripe at the start of each area |
| LvAlloc.ExampleOrder | lib/metadata/lv_manip.c:141-142 | the example's head areas in round order, biggest first |
| LvAlloc.ExampleSecondRound | lib/metadata/lv_manip.c:138-139 | after the first round of the example only two maps have space, so the next round gives up |
| LvAlloc.RoundPvsDistinct | lib/metadata/lv_manip.c:127-136 | over maps on distinct PVs, a round's segment has its stripes on distinct PVs, and the map it leaves is still one map per PV |
| LvAlloc.ConsDistinctPvs | lib/metadata/lv_manip.c:86 | a segment with its stripes on distinct PVs, put in front of segments that all have theirs so, keeps every segment so |
| LvAlloc.AllocStriped | lib/metadata/lv_manip.c:105-158 | the segments appended are exactly the plan of the rounds (StripedPlan), a chain taken from the map; success exactly when that plan covers the LV (StripedFits), which needs the wanted count to be a multiple of the stripes; on failure fewer maps than stripes still have space or fewer extents than stripes are still wanted; too few maps with space at the start fails with no segment added |
| LvAlloc.StripedStep | lib/metadata/lv_manip.c:125-148 | a round that goes ahead keeps the loop invariant and moves its segment from the plan onto the LV |
| LvAlloc.RoundExtends | lib/metadata/lv_manip.c:86-87 | a round's segment extends the chain by a positive multiple of the stripes, taken from the map |
| LvAlloc.PlanAdvance | lib/metadata/lv_manip.c:86-87 | appending a round's segment moves it from the plan onto the LV |
| LvAlloc.StripedExit | lib/metadata/lv_manip.c:125-157 | once the LV is complete or a round gives up, the segments appended are the whole plan; success exactly when the plan fits; a failure is for want of maps with space or of extents for a round |
| LvAlloc.AllocateWithPolicy | lib/metadata/lv_manip.c:300-313 | striped above one stripe, else contiguous or simple as the status flag says, and no flag means failure; the segments appended are exactly the policy's plan (PolicyPlan), a chain taken from the map; success exactly when the plan covers the need (PolicyFits); striped over maps on distinct PVs, no segment has two stripes on one PV; any failure is explained by `GaveUp` |
| AreaSort.CompArea | lib/metadata/lv_manip.c:91-103 | negative, zero or positive exactly as the left area holds fewer, as many or more extents than the right |
| AreaSort.PrecedesOrder | lib/metadata/lv_manip.c:91-103 | the comparator's order is total and transitive, so sorting by it is well defined |
| AreaSort.InsertAdds | lib/metadata/lv_manip.c:142 | one insertion step adds exactly that candidate to the array |
| AreaSort.InsertSorted | lib/metadata/lv_manip.c:142 | inserting into a sorted array keeps it sorted |
| AreaSort.PrependSorted | lib/metadata/lv_manip.c:142 | a candidate that precedes the head of a sorted array can go in front of it |
| AreaSort.PrependAfterInsert | lib/metadata/lv_manip.c:142 | the head of a sorted array stays in front of the rest after an insertion into the rest |
| AreaSort.SortByCount | lib/metadata/lv_manip.c:142 | the qsort of the areas array, as an insertion sort by size: it keeps the length, and `SortSorted` proves the result ordered by size and a permutation of the input |
| AreaSort.SortSorted | lib/metadata/lv_manip.c:142 | the areas array after qsort is ordered by area size and is a permutation of the array before |
| AreaSort.PrependDistinct | lib/metadata/lv_manip.c:127-136 | a candidate from a map not yet among the candidates can join them |
| AreaSort.InsertKeepsDistinct | lib/metadata/lv_manip.c:142 | inserting a candidate from a new map keeps every candidate on its own map |
| AreaSort.SortKeepsDistinct | lib/metadata/lv_manip.c:127-142 | sorting keeps the candidates on distinct maps (one candidate per map); with one map per PV, as `Fits` requires, that is one per PV |
| AreaSort.SortedHeads | lib/metadata/lv_manip.c:134-142 | after sorting, every candidate is still the head area of its map |
| AreaSort.PerArea | lib/metadata/lv_manip.c:60-67 | the width is the smaller of the even share `remaining / stripes` and the capping area: it exceeds neither, and equals one of them |
| AreaSort.PerAreaFits | lib/metadata/lv_manip.c:60-76 | the width times the stripes, the segment length, never exceeds what is still wanted |
| AreaSort.WidthFitsChosenAreas | lib/metadata/lv_manip.c:62-67 | with the areas biggest first, no chosen area is asked for more than it holds |
| AreaSort.AscendingOrderOverconsumes | lib/metadata/lv_manip.c:91-103 | as written, qsort puts the smallest first, and areas of 10 and 3 with 20 wanted ask the 3-extent area for 10 |
| AreaSort.StripedRoundKeepsRemainder | lib/metadata/lv_manip.c:125-148 | as written, a round never changes the wanted count modulo the stripes, so a wanted count that is not a multiple never reaches 0, and the width drops to 0 once fewer than `stripes` remain |
| AreaSort.AddRoundMod | lib/metadata/lv_manip.c:87 | advancing by whole rounds keeps the allocated count a multiple of the stripes |
| LvManip.SectorsGrow | lib/metadata/lv_manip.c:476 | adding `extents * extent_size` to the size is the size of the grown extent count |
| LvManip.SizeOf | lib/metadata/lv_manip.c:462 | `le_count * extent_size` is the LV's size counted extent by extent |
| LvManip.ChargeFits | lib/metadata/lv_manip.c:315-321 | segments taken from a map of truly free areas fit under every PV's extent count, and their total fits in `free_count` |
| LvManip.VolumeGroup.ChargeSegments | lib/metadata/lv_manip.c:318-321 | the loop over the new segments leaves the PV counters charged with exactly those segments |
| LvManip.VolumeGroup.Allocate | lib/metadata/lv_manip.c:279-332 | on success the LV's chain is extended from `allocated` to its end by exactly the policy's plan, exactly those segments are charged, and `free_count` drops by the same count; success exactly when the plan covers the need (PolicyFits); striped segments never have two stripes on one PV, the map being one per PV; any failure is one `GaveUp` names, and then the segments and all counters are as before |
| LvManip.VolumeGroup.ChargeNew | lib/metadata/lv_manip.c:315-321 | charging the new segments keeps the accounting, charges exactly them, and lowers `free_count` by their total length |
| LvManip.VolumeGroup.GenerateLvName | lib/metadata/lv_manip.c:334-355 | the generated name is no LV's name and parses back to one above the highest `lvol` number; there is no name exactly when it does not fit the 32-byte buffer |
| LvNames.ScanInt | lib/metadata/lv_manip.c:344 | the `%d` conversion succeeds exactly when, after blanks and an optional sign, a digit follows |
| LvNames.ParseLvol | lib/metadata/lv_manip.c:344 | a name yields a number only when it starts with `lvol` and has more after it |
| LvNames.SkipSpaces | lib/metadata/lv_manip.c:344 | the blanks `%d` skips come off the front only, and what is left starts with no blank |
| LvNames.DigitRun | lib/metadata/lv_manip.c:344 | the digits `%d` reads are the longest run of digits at the front |
| LvNames.ScanUnsigned | lib/metadata/lv_manip.c:344 | a number is read exactly when the text starts with a digit |
| LvNames.Decimal | lib/metadata/lv_manip.c:351 | `%d` prints a non-negative number as a non-empty run of digits |
| LvNames.DigitChar | lib/metadata/lv_manip.c:351 | each printed digit is the character for its value |
| LvNames.LvolIndices | lib/metadata/lv_manip.c:341-349 | the scan parses every LV's name, in list order |
| LvNames.MaxIndex | lib/metadata/lv_manip.c:339-349 | `high` starts at -1 and never goes below it |
| LvNames.MaxIndexStep | lib/metadata/lv_manip.c:347-348 | one more LV raises `high` to its number exactly when that number is higher, else leaves it |
| LvNames.MaxIndexBound | lib/metadata/lv_manip.c:339-349 | no LV's number exceeds `high`, and `high` is -1 or some LV's number |
| LvNames.DecimalValue | lib/metadata/lv_manip.c:351 | reading back the digits `%d` printed gives the number |
| LvNames.DigitRunAll | lib/metadata/lv_manip.c:344 | a text of digits only is read in full |
| LvNames.ScanDigits | lib/metadata/lv_manip.c:344 | `%d` reads a run of digits as the number it spells |
| LvNames.LvolName | lib/metadata/lv_manip.c:351 | `snprintf("lvol%d")`: `lvol` followed by digits only; `ParseLvolName` proves it parses back to its number and `GeneratedNameFresh` that max+1 names no LV |
| LvNames.ParseLvolName | lib/metadata/lv_manip.c:344-351 | a printed `lvol<N>` name parses back to N |
| LvNames.GeneratedNameFresh | lib/metadata/lv_manip.c:339-351 | the name one above the highest number is taken by no LV |
| LvNames.AboveAllNotTaken | lib/metadata/lv_manip.c:339-351 | a name whose number is above every LV's number is no LV's name |
| LvManip.VolumeGroup.LvCreate | lib/metadata/lv_manip.c:357-434 | zero extents, too few free extents and a full group are refused exactly when their checks fail, in that order, and no name exactly when none is given and the generated one does not fit; past those checks creation succeeds exactly when the policy's plan covers the extents (PolicyFits), and a failed allocation is one `GaveUp` names; on success the new LV is appended with the asked extent count and size, its chain is exactly the policy's plan, exactly its extents are charged, and it is named as asked or freshly; on any failure the group is unchanged |
| LvManip.VolumeGroup.NameAndCreate | lib/metadata/lv_manip.c:388-427 | after the checks, no name exactly when none can be made; otherwise the LV is created, with the policy's plan as its chain, exactly when that plan covers the extents, or allocation fails for a reason `GaveUp` names |
| LvManip.VolumeGroup.ChooseName | lib/metadata/lv_manip.c:388-392 | the given name is kept; otherwise a fresh `lvol` name; none exactly when no name is given and the generated one does not fit |
| LvManip.VolumeGroup.CreateNamed | lib/metadata/lv_manip.c:396-427 | the LV gets the chosen name, is allocated in full by the policy's plan and added, exactly when that plan covers the extents; otherwise allocation fails for a reason `GaveUp` names and nothing changes |
| LvManip.VolumeGroup.AddLv | lib/metadata/lv_manip.c:424-425 | the new LV is counted and appended at the end of the group's list, and the group is valid again |
| LvManip.VolumeGroup.GrowLv | lib/metadata/lv_manip.c:472-485 | on success the extent count and size grow by `extents`, the chain is extended to the new end by exactly the policy's plan, and exactly the new segments are charged; success exactly when that plan covers `extents`; a failure is one `GaveUp` names and leaves extent count, size, chain and counters as before |
| LvManip.VolumeGroup.LvExtend | lib/metadata/lv_manip.c:467-486 | the LV grows by `extents` at its end by the policy's plan, keeping its old segments, and `free_count` drops by `extents`, exactly when that plan covers `extents`; otherwise, for a reason `GaveUp` names, nothing changes; the group stays valid |
| LvManip.ExtendedLvOk | lib/metadata/lv_manip.c:475-478 | a chain extended where it ended still covers the LV's grown extent count |
| LvManip.ExtendUsage | lib/metadata/lv_manip.c:320-321 | charging the segments appended to one LV keeps each PV counter equal to what all chains reserve |
| LvManip.VolumeGroup.TrimLast | lib/metadata/lv_manip.c:442-459 | one pass of the reduce loop leaves the same end result to reach, keeps the chain well formed and strictly shortens the work; the extents it cuts leave the counters |
| LvManip.VolumeGroup.DropLastSegment | lib/metadata/lv_manip.c:447-451 | a last segment that fits in the cut is put back and unlinked; the counters drop by its length |
| LvManip.VolumeGroup.ShrinkLastSegment | lib/metadata/lv_manip.c:452-458 | a last segment longer than the cut is put back, shortened by the cut and got again; the counters drop by the cut |
| LvManip.VolumeGroup.TrimSegments | lib/metadata/lv_manip.c:442-459 | the chain becomes the trimmed chain, and the counters drop by exactly what the cut segments reserved |
| LvManip.VolumeGroup.LvReduce | lib/metadata/lv_manip.c:436-465 | corrected: the chain is trimmed by `extents`, the extent count drops by `extents`, the size is recomputed from it, and `free_count` grows by `extents`; the group stays valid |
| LvManip.VolumeGroup.LvReduceAsWritten | lib/metadata/lv_manip.c:436-465 | as written: `free_count` is left alone, so any real cut breaks the group's accounting |
| LvManip.DropLastKeepsChain | lib/metadata/lv_manip.c:447-451 | dropping a last segment that fits is Trim's first step, and what is left to cut stays aligned |
| LvManip.ShrinkKeepsChain | lib/metadata/lv_manip.c:452-458 | shortening the last segment by the rest of the cut is what Trim does and keeps the chain |
| LvManip.ShrunkWellFormed | lib/metadata/lv_manip.c:455 | shortening by a multiple of the stripes keeps the segment well formed |
| LvManip.TrimNothing | lib/metadata/lv_manip.c:443 | the loop stops with nothing to cut or no segment left, and then the chain is final |
| Chains.TrimKeepsChain | lib/metadata/lv_manip.c:442-459 | reducing keeps a contiguous, well-formed chain, exactly `extents` shorter |
| Chains.ShrinkLastKeepsChain | lib/metadata/lv_manip.c:452-457 | shrinking the last segment by a stripe-aligned count keeps the chain contiguous and well formed, exactly that much shorter |
| Chains.Trim | lib/metadata/lv_manip.c:442-459 | reducing never leaves more segments than before |
| Chains.TrimUndoesAppend | lib/metadata/lv_manip.c:436-486 | reducing by exactly what an extension appended gives back the old chain |
| Chains.TrimUsage | lib/metadata/lv_manip.c:442-459 | reducing never raises what a chain reserves on any PV |
| Chains.ShrinkUsage | lib/metadata/lv_manip.c:455 | shortening a segment never raises what it reserves on any PV |
| Chains.ModSub | lib/metadata/lv_manip.c:449 | cutting a stripe-aligned count from a stripe-aligned length leaves it aligned |
| Chains.LvsUsageConcat | lib/metadata/lv_manip.c:424-425 | what a list of LVs reserves splits over two halves of the list |
| Chains.LvsUsageUpdate | lib/metadata/lv_manip.c:442-459 | replacing one LV's chain changes the group's reservation by the difference of the two chains |
| Chains.LvsUsageRemove | lib/metadata/lv_manip.c:496-499 | removing one LV lowers the group's reservation by exactly that LV's chain |
| LvManip.VolumeGroup.PutSegments | lib/metadata/lv_manip.c:492-494 | the loop of lv_remove gives back exactly what the LV's chain reserves on each PV, and their total |
| LvManip.GaveBackStep | lib/metadata/lv_manip.c:493-494 | one more segment given back adds its reservation to what has been given back |
| LvManip.GaveBackNext | lib/metadata/lv_manip.c:493-494 | putting back segment `i` extends the loop invariant from the first `i` segments to the first `i + 1` |
| LvManip.UsagePrefix | lib/metadata/lv_manip.c:493-494 | the first segments of a chain reserve no more than the whole chain |
| LvManip.VolumeGroup.LvRemove | lib/metadata/lv_manip.c:488-502 | the LV leaves the list with the others kept in order; `lv_count` drops by one; `free_count` grows by its extent count; every PV gets back what its chain reserved; the group stays valid |
| LvManip.VolumeGroup.DropLv | lib/metadata/lv_manip.c:496-499 | the LV is uncounted and unlinked, the others keep their order, and the group is valid again |
| LvManip.RemoveKeepsRest | lib/metadata/lv_manip.c:499 | unlinking one LV keeps the others in order and no longer holds it |
| ReportType.Implied | tools/reporter.c:432-436 | only LVS and PVS are ever added: LVS exactly when given or SEGS is, PVS exactly when given or PVSEGS is |
| ReportType.GetFinalReportType | tools/reporter.c:420-457 | device info is needed exactly for the info flags and segment status exactly for the status flags, judged on the flags as given |
| ReportType.FailsExactlyOnMix | tools/reporter.c:432-441 | the only failure is LV or segment fields mixed with PV, label or PV-segment fields when the arguments are not PVs |
| ReportType.FinalTypeChoice | tools/reporter.c:443-455 | on success the type becomes PVSEGS, PVS, SEGS or LVS in that priority, by what the flags ask for; flags that ask for none pass unchanged |
| ReportType.PvArgumentsNeverFail | tools/reporter.c:437-441 | with PVs as arguments every combination of flags is accepted |
| ReportType.FinalTypeIsStable | tools/reporter.c:420-457 | normalising the final type again accepts it and leaves it as it is |
| ReportOptions.FirstComma | tools/reporter.c:721 | the split point is the first comma, or the end when there is none |
| ReportOptions.Split | tools/reporter.c:721 | splitting gives only non-empty field names without commas |
| ReportOptions.FirstCommaAt | tools/reporter.c:768 | in a joined list the first comma ends the first field |
| ReportOptions.SplitJoin | tools/reporter.c:721-768 | splitting the joined field list gives the list back |
| ReportOptions.SplitIsNormal | tools/reporter.c:721-768 | joining and splitting again changes nothing |
| ReportOptions.StripPrefix | tools/reporter.c:683-694 | stripping the known prefix never lengthens a name |
| ReportOptions.StripPrefixRemoves | tools/reporter.c:683-694 | stripping removes nothing, the known prefix, or the prefix and one `_`; it removes something only when the name starts with the prefix, and then it always does |
| ReportOptions.LastMatch | tools/reporter.c:674-699 | the walk from the tail finds a matching item with no matching item after it, or reports that none matches |
| ReportOptions.DelOption | tools/reporter.c:666-700 | deleting removes at most one field |
| ReportOptions.DelOptionRemovesOne | tools/reporter.c:666-700 | exactly one item goes when some item matches and none otherwise; the one removed is the last match; the rest keep their order |
| ReportOptions.ExactNameIsRemoved | tools/reporter.c:677-681 | a field named exactly is removed whenever the list holds it |
| ReportOptions.DeletesAt | tools/reporter.c:695-697 | the item deleted is the last one that matches |
| ReportOptions.DeletesNothing | tools/reporter.c:674-700 | with no matching item the list is unchanged |
| ReportOptions.DelOptionFromList | tools/reporter.c:666-700 | corrected: the walk from the tail unlinks the last item that matches the name, exactly or with the prefix stripped from both |
| ReportOptions.CumulativeStripDeletesWrongOption | tools/reporter.c:684-697 | as written, deleting `lv_lv_name` from `lv_name,lv_size` under prefix `lv_` removes `lv_name`; corrected, the list is kept |
| ReportOptions.DelOptionAsWritten | tools/reporter.c:666-700 | as written the walk still unlinks at most one field |
| ReportOptions.DelOptionsShrinks | tools/reporter.c:749-752 | a `-` group removes at most one field per item and never adds one |
| ReportOptions.DelOptions | tools/reporter.c:749-752 | a `-` group never lengthens the field list |
| ReportOptions.DeleteAll | tools/reporter.c:749-752 | the `-` branch deletes each of the group's items from the field list in turn |
| ReportOptions.InvalidExactlyOnEmptyGroup | tools/reporter.c:726-766 | the loop fails exactly when some set group is empty |
| ReportOptions.ApplyGroup | tools/reporter.c:737-765 | only a `#` group changes the compact list, and a `#` group leaves the field list alone and starts or extends the compact list |
| ReportOptions.ApplyGroups | tools/reporter.c:726-766 | the loop fails only when some set group is empty |
| ReportOptions.ReplaceForgetsEarlier | tools/reporter.c:760-764 | a group not starting with `+`, `-` or `#` replaces the field list and keeps the compact list |
| ReportOptions.CompactOnlyFromHashGroups | tools/reporter.c:753-757 | only `#` groups touch the compact list |
| ReportOptions.AddThenDelete | tools/reporter.c:747-752 | adding a field with `+` and deleting it with `-` gives the lists back |
| ReportOptions.ReportArgs.GetReportOptions | tools/reporter.c:721-777 | an empty group gives an invalid-command-line status and changes nothing; otherwise the edited field list is joined back into `options`, and the compact list, when a `#` group was seen, into `fields_to_compact` |

## Left out

- `create_pv_maps`, `consume_pv_area` and the pv_map module are not part of this model. The free-area map is a parameter. Consuming is modelled from its use here: take from the front of an area, and unlink the area when it empties.
- The free-area list of each PV is said to hold its biggest area first (lib/metadata/lv_manip.c:221). `MapOk` does not assume that order, and the model does not restore it after a partial consume; `_alloc_contiguous` is modelled as taking each map's head area, whatever its size.
- LvAlloc.AllocStriped: `qsort` is not stable and promises no order among head areas of equal size; the model sorts by insertion, so such candidates keep map order. The exact striped plan, and for some maps whether striping succeeds at all, are proved for that map-order tie-breaking only. Example: maps pv0 {5, 5}, pv1 {5}, pv2 {5} with 2 stripes and 20 extents wanted fill in two rounds, but listed as pv1, pv2, pv0 the second round finds only pv0 with space and gives up. The same holds for what is built on it when stripes > 1: `AllocateWithPolicy`, `VolumeGroup.Allocate`, `LvCreate`, `NameAndCreate`, `CreateNamed`, `GrowLv` and `LvExtend`.
- 32-bit counters: `uint32_t` arithmetic, wrap-around and overflow are not modelled. All counts are unbounded naturals.
- `stripe_size` is accepted by the allocation functions but never stored or used by the code here, so the model drops it.
- Failure of memory allocation (`pool_create`, `pool_zalloc`, `dbg_malloc`, `pool_strdup`) and all logging are left out.
- LvAlloc.AllocStriped: an allocation that cannot complete with whole rounds fails in the model, where as written it loops forever (see Findings).
- LvManip.VolumeGroup.LvReduce: requires `extents <= le_count` and a cut that leaves every partly cut segment a multiple of its stripes. The source checks neither and relies on its callers.
- LvManip.VolumeGroup.LvCreate: the caller's free-area map must hold only extents not already allocated (`Fits`), as `create_pv_maps` guarantees.
- The VG's ghost `chains` field mirrors each LV's segment list so the invariant can speak of it. The source has no such field.
- PVs are indices into the group's counter arrays. LVs are distinct objects in the group's list. Aliasing between PV structures is not modelled.
- New LVs are appended at the tail of the VG list, as `list_add` does; new segments likewise at the tail of the LV's segment list.
- LvManip.VolumeGroup.constructor: building a VG is not part of the source here. It gives the group with every extent free.
- `str_to_str_list`, `str_list_to_str` and `report_get_field_prefix` are not part of this model. Splitting drops empty pieces, as with repeated delimiters ignored. The field prefix is a parameter of length at least one; an empty prefix would make the source's `prefix_len--` wrap.
- ReportOptions.StripPrefix: its ensures only bounds the length; what is stripped is stated by `StripPrefixRemoves`.
- LvAlloc.AllocSimpleAsWritten: states only that segments are appended and the result is failure, not the full map accounting of `AllocSimple`.
- The memory-pool failures of `_get_report_options` (`ECMD_FAILED`) are left out. An options group that is not set is `None` and skipped.
- The rest of reporter.c (the report objects, field selection, output) is outside the model.

## Findings

| source | as written | input that shows it | evidently intended | confidence | as-written member | corrected member |
|---|---|---|---|---|---|---|
| lib/metadata/lv_manip.c:174-177 | the segment length is the larger of the area and the LV's remaining need | an area of 3 extents with 10 still needed gives a 10-extent segment on a 3-extent area | the smaller of the two | high, not executed | LvAlloc.LinearWidthAsWrittenOverruns | LvAlloc.AllocLinearArea |
| lib/metadata/lv_manip.c:273 | `_alloc_simple` returns 0 on success too | any LV the walk completes is reported as a failure and its segments are discarded | return 1 when the LV is complete | high, not executed | LvAlloc.AllocSimpleAsWritten | LvAlloc.AllocSimple |
| lib/metadata/lv_manip.c:461-462 | `lv_reduce` never adds the cut extents back to the VG's `free_count` | reducing any LV by one extent leaves `free_count` plus allocated one short of the group's extents | `free_count += extents` | high, not executed | LvManip.VolumeGroup.LvReduceAsWritten | LvManip.VolumeGroup.LvReduce |
| lib/metadata/lv_manip.c:125-148 | the striped loop runs until allocated equals `le_count`, but each round advances by a multiple of the stripes | 2 stripes, 5 extents wanted: after 4 the width is 0 and the loop never ends | stop when less than one extent per stripe is left | medium, not executed | AreaSort.StripedRoundKeepsRemainder | LvAlloc.StripedRound |
| lib/metadata/lv_manip.c:91-103 | the comparator sorts the areas smallest first, though the comment says to allocate from the biggest | head areas of 10 and 3 extents, 2 stripes, 20 wanted: the width is 10 and the 3-extent area is asked for 10 | sort biggest first, so the capping area is the smallest chosen | high, not executed | AreaSort.AscendingOrderOverconsumes | AreaSort.WidthFitsChosenAreas |
| tools/reporter.c:684-689 | the cursor into the name to delete is not reset between list items, so its prefix is stripped once per item visited | deleting `lv_lv_name` from `lv_name,lv_size` under prefix `lv_` removes `lv_name` | strip the name's prefix once | medium, not executed | ReportOptions.CumulativeStripDeletesWrongOption | ReportOptions.DelOptionFromList |

=== FILE: area_sort.dfy ===
/**
 * One striping round: the head area of every PV that still has one, ordered
 * by size with qsort and the comparator _comp_area, and the width every
 * stripe of the new segment gets.
 */
module AreaSort {
  import opened PvMap
  import opened Segments

  /** The head area of map `mi`, offered to a striping round. */
  datatype Candidate = Candidate(mi: nat, area: Area)

  /** `c` offers the area at the head of its map. */
  predicate IsHead(pvms: seq<PvAreas>, c: Candidate)
  {
    c.mi < |pvms| && pvms[c.mi].areas != [] && c.area == pvms[c.mi].areas[0]
  }

  /** _comp_area: negative, zero or positive as `l` is smaller than, as large as or larger than `r`. */
  function CompArea(l: Area, r: Area): (c: int)
    ensures c < 0 <==> l.count < r.count
    ensures c == 0 <==> l.count == r.count
    ensures c > 0 <==> l.count > r.count
  {
    if l.count < r.count then -1
    else if l.count > r.count then 1
    else 0
  }

  /** `x` may stand before `y`: by ascending size as qsort orders with _comp_area, or by descending size. */
  predicate Precedes(x: Candidate, y: Candidate, biggestFirst: bool)
  {
    if biggestFirst then CompArea(y.area, x.area) <= 0 else CompArea(x.area, y.area) <= 0
  }

  ghost predicate SortedBy(s: seq<Candidate>, biggestFirst: bool)
  {
    forall i, j :: 0 <= i < j < |s| ==> Precedes(s[i], s[j], biggestFirst)
  }

  /** No two candidates come from the same map: at most one area per PV per round. */
  ghost predicate DistinctMaps(s: seq<Candidate>)
  {
    forall i, j :: 0 <= i < j < |s| ==> s[i].mi != s[j].mi
  }

  /** Precedes is a total preorder on candidates. */
  lemma PrecedesOrder(x: Candidate, y: Candidate, z: Candidate, biggestFirst: bool)
    ensures Precedes(x, y, biggestFirst) || Precedes(y, x, biggestFirst)
    ensures Precedes(x, y, biggestFirst) && Precedes(y, z, biggestFirst) ==> Precedes(x, z, biggestFirst)
  {
  }

  /** One step of the sort: `x` goes in front of the first candidate it may precede. */
  function Insert(x: Candidate, s: seq<Candidate>, biggestFirst: bool): seq<Candidate>
  {
    if s == [] then [x]
    else if Precedes(x, s[0], biggestFirst) then [x] + s
    else [s[0]] + Insert(x, s[1..], biggestFirst)
  }

  /** Inserting adds exactly that candidate to the array. */
  lemma {:induction false} InsertAdds(x: Candidate, s: seq<Candidate>, biggestFirst: bool)
    ensures multiset(Insert(x, s, biggestFirst)) == multiset(s) + multiset{x}
  {
    if s != [] && !Precedes(x, s[0], biggestFirst) {
      InsertAdds(x, s[1..], biggestFirst);
      assert s == [s[0]] + s[1..];
    }
  }

  /** Inserting makes the array one longer. */
  lemma {:induction false} InsertLength(x: Candidate, s: seq<Candidate>, biggestFirst: bool)
    ensures |Insert(x, s, biggestFirst)| == |s| + 1
  {
    if s != [] && !Precedes(x, s[0], biggestFirst) {
      InsertLength(x, s[1..], biggestFirst);
    }
  }

  /** Inserting into a sorted array keeps it sorted. */
  lemma {:induction false} InsertSorted(x: Candidate, s: seq<Candidate>, biggestFirst: bool)
    requires SortedBy(s, biggestFirst)
    ensures SortedBy(Insert(x, s, biggestFirst), biggestFirst)
  {
    if s == [] {
    } else if Precedes(x, s[0], biggestFirst) {
      PrependSorted(x, s, biggestFirst);
    } else {
      var rest := Insert(x, s[1..], biggestFirst);
      InsertSorted(x, s[1..], biggestFirst);
      InsertAdds(x, s[1..], biggestFirst);
      PrecedesOrder(x, s[0], x, biggestFirst);
      PrependAfterInsert(x, s, rest, biggestFirst);
    }
  }

  lemma PrependSorted(x: Candidate, s: seq<Candidate>, biggestFirst: bool)
    requires SortedBy(s, biggestFirst) && s != [] && Precedes(x, s[0], biggestFirst)
    ensures SortedBy([x] + s, biggestFirst)
  {
    var r := [x] + s;
    forall i, j | 0 <= i < j < |r| ensures Precedes(r[i], r[j], biggestFirst) {
      if i == 0 && j > 1 {
        PrecedesOrder(x, s[0], s[j - 1], biggestFirst);
      }
    }
  }

  lemma PrependAfterInsert(x: Candidate, s: seq<Candidate>, rest: seq<Candidate>, biggestFirst: bool)
    requires SortedBy(s, biggestFirst) && s != [] && Precedes(s[0], x, biggestFirst)
    requires SortedBy(rest, biggestFirst) && multiset(rest) == multiset(s[1..]) + multiset{x}
    ensures SortedBy([s[0]] + rest, biggestFirst)
  {
    var r := [s[0]] + rest;
    forall i, j | 0 <= i < j < |r| ensures Precedes(r[i], r[j], biggestFirst) {
      if i == 0 {
        var y := r[j];
        assert y in multiset(rest);
        if y != x {
          assert y in s[1..];
          var k :| 0 <= k < |s[1..]| && s[1..][k] == y;
          assert Precedes(s[0], s[k + 1], biggestFirst);
        }
      } else {
        assert r[i] == rest[i - 1] && r[j] == rest[j - 1];
      }
    }
  }

  /** The areas array after qsort, as an insertion sort by area size. */
  function SortByCount(s: seq<Candidate>, biggestFirst: bool): (r: seq<Candidate>)
    ensures |r| == |s|
  {
    if s == [] then []
    else
      InsertLength(s[0], SortByCount(s[1..], biggestFirst), biggestFirst);
      Insert(s[0], SortByCount(s[1..], biggestFirst), biggestFirst)
  }

  /** The areas array after qsort is a permutation of `s`, ordered by size. */
  lemma {:induction false} SortSorted(s: seq<Candidate>, biggestFirst: bool)
    ensures SortedBy(SortByCount(s, biggestFirst), biggestFirst)
    ensures multiset(SortByCount(s, biggestFirst)) == multiset(s)
  {
    if s != [] {
      SortSorted(s[1..], biggestFirst);
      InsertSorted(s[0], SortByCount(s[1..], biggestFirst), biggestFirst);
      InsertAdds(s[0], SortByCount(s[1..], biggestFirst), biggestFirst);
      assert s == [s[0]] + s[1..];
    }
  }

  lemma PrependDistinct(h: Candidate, rest: seq<Candidate>)
    requires DistinctMaps(rest)
    requires forall y :: y in rest ==> y.mi != h.mi
    ensures DistinctMaps([h] + rest)
  {
    var r := [h] + rest;
    forall i, j | 0 <= i < j < |r| ensures r[i].mi != r[j].mi {
      if i == 0 { assert r[j] in rest; } else { assert r[i] == rest[i - 1] && r[j] == rest[j - 1]; }
    }
  }

  lemma {:induction false} InsertKeepsDistinct(x: Candidate, s: seq<Candidate>, biggestFirst: bool)
    requires DistinctMaps(s)
    requires forall y :: y in s ==> y.mi != x.mi
    ensures DistinctMaps(Insert(x, s, biggestFirst))
  {
    if s == [] {
    } else if Precedes(x, s[0], biggestFirst) {
      PrependDistinct(x, s);
    } else {
      var tail := s[1..];
      var rest := Insert(x, tail, biggestFirst);
      assert DistinctMaps(tail);
      InsertAdds(x, tail, biggestFirst);
      InsertKeepsDistinct(x, tail, biggestFirst);
      forall y | y in rest ensures y.mi != s[0].mi {
        assert y in multiset(rest);
        if y != x { assert y in tail; }
      }
      PrependDistinct(s[0], rest);
    }
  }

  /** Sorting keeps the candidates of a round on distinct maps. */
  lemma {:induction false} SortKeepsDistinct(s: seq<Candidate>, biggestFirst: bool)
    requires DistinctMaps(s)
    ensures DistinctMaps(SortByCount(s, biggestFirst))
  {
    if s != [] {
      var tail := s[1..];
      var sortedTail := SortByCount(tail, biggestFirst);
      SortSorted(tail, biggestFirst);
      SortKeepsDistinct(tail, biggestFirst);
      forall y | y in sortedTail ensures y.mi != s[0].mi {
        assert y in multiset(sortedTail);
        assert y in tail;
      }
      InsertKeepsDistinct(s[0], sortedTail, biggestFirst);
    }
  }

  /** The per-stripe width of _alloc_stripe_area: the even share of what is left, capped by `smallest`. */
  function PerArea(remaining: nat, stripes: nat, smallest: nat): (w: nat)
    requires stripes >= 1
    ensures w <= smallest && w <= remaining / stripes
    ensures w == smallest || w == remaining / stripes
  {
    if smallest < remaining / stripes then smallest else remaining / stripes
  }

  /** The stripes of one width never cover more than what is still wanted. */
  lemma PerAreaFits(remaining: nat, stripes: nat, smallest: nat)
    requires stripes >= 1
    ensures PerArea(remaining, stripes, smallest) * stripes <= remaining
  {
    var q := remaining / stripes;
    MulMono(stripes, PerArea(remaining, stripes, smallest), q);
    assert stripes * q <= remaining;
  }

  /** The width of a round over `sorted`, capped by the area in position `stripes - 1`. */
  function StripeWidth(sorted: seq<Candidate>, stripes: nat, remaining: nat): nat
    requires 1 <= stripes <= |sorted|
  {
    PerArea(remaining, stripes, sorted[stripes - 1].area.count)
  }

  /**
   * Ordered biggest first, the capping area is the smallest of the chosen
   * ones, so no chosen area is asked for more than it holds.
   */
  lemma WidthFitsChosenAreas(sorted: seq<Candidate>, stripes: nat, remaining: nat)
    requires 1 <= stripes <= |sorted| && SortedBy(sorted, true)
    ensures forall s :: 0 <= s < stripes ==> StripeWidth(sorted, stripes, remaining) <= sorted[s].area.count
  {
    forall s | 0 <= s < stripes
      ensures StripeWidth(sorted, stripes, remaining) <= sorted[s].area.count
    {
      if s < stripes - 1 {
        assert Precedes(sorted[s], sorted[stripes - 1], true);
      }
    }
  }

  /**
   * As written, the areas are sorted smallest first, so the capping area is the
   * largest chosen one: with head areas of 10 and 3 extents, two stripes and 20
   * extents still needed, the width is 10 and the 3-extent area is asked for 10.
   */
  lemma AscendingOrderOverconsumes()
    ensures var sorted := SortByCount([Candidate(0, Area(0, 10)), Candidate(1, Area(0, 3))], false);
            |sorted| == 2 && StripeWidth(sorted, 2, 20) > sorted[0].area.count
  {
    var c0, c1 := Candidate(0, Area(0, 10)), Candidate(1, Area(0, 3));
    assert [c0, c1][1..] == [c1];
    assert SortByCount([c1], false) == [c1] by {
      assert [c1][1..] == [];
    }
    assert Insert(c0, [c1], false) == [c1, c0] by {
      assert [c1][1..] == [];
      assert Insert(c0, [], false) == [c0];
    }
    assert SortByCount([c0, c1], false) == [c1, c0];
  }

  lemma ModUnique(a: nat, s: nat, q: nat, m: nat)
    requires s >= 1 && m < s && a == s * q + m
    ensures a % s == m
  {
    var q', m' := a / s, a % s;
    assert a == s * q' + m';
    var d: int := q - q';
    assert s * d == m' - m by {
      assert s * d == s * q - s * q';
    }
  }

  /**
   * As written, the striped loop only ever advances by a multiple of the stripe
   * count: when the extents still needed are not a multiple of it, no round ever
   * makes them 0, and once fewer than `stripes` remain the width is 0 and the
   * round changes nothing, so `allocated != le_count` stays true forever.
   */
  lemma StripedRoundKeepsRemainder(remaining: nat, stripes: nat, smallest: nat)
    requires stripes >= 1 && remaining % stripes != 0
    ensures var w := PerArea(remaining, stripes, smallest);
            (remaining - w * stripes) % stripes == remaining % stripes
            && remaining - w * stripes != 0
    ensures remaining < stripes ==> PerArea(remaining, stripes, smallest) == 0
  {
    var w := PerArea(remaining, stripes, smallest);
    var q, m := remaining / stripes, remaining % stripes;
    assert remaining == stripes * q + m;
    assert w <= q;
    assert remaining - w * stripes == stripes * (q - w) + m by {
      assert stripes * q - w * stripes == stripes * (q - w);
    }
    ModUnique(remaining - w * stripes, stripes, q - w, m);
  }

  /** Sorting only reorders the candidates: each still offers the head of its map. */
  lemma SortedHeads(pvms: seq<PvAreas>, cands: seq<Candidate>, biggestFirst: bool)
    requires forall k :: 0 <= k < |cands| ==> IsHead(pvms, cands[k])
    ensures forall k :: 0 <= k < |SortByCount(cands, biggestFirst)| ==> IsHead(pvms, SortByCount(cands, biggestFirst)[k])
  {
    var sorted := SortByCount(cands, biggestFirst);
    SortSorted(cands, biggestFirst);
    forall k | 0 <= k < |sorted| ensures IsHead(pvms, sorted[k]) {
      assert sorted[k] in multiset(cands);
      var j :| 0 <= j < |cands| && cands[j] == sorted[k];
    }
  }

  lemma MulDivCancel(w: nat, s: nat)
    requires s >= 1
    ensures (w * s) / s == w && (w * s) % s == 0
  {
    var a := w * s;
    ModUnique(a, s, w, 0);
    var q := a / s;
    assert s * q == s * w;
    var d: int := q - w;
    assert s * d == 0;
  }

  /** Advancing by whole rounds keeps what was allocated a multiple of the stripe count. */
  lemma AddRoundMod(a: nat, w: nat, s: nat)
    requires s >= 1 && a % s == 0
    ensures (a + w * s) % s == 0
  {
    var q := a / s;
    assert a + w * s == s * (q + w) + 0;
    ModUnique(a + w * s, s, q + w, 0);
  }

  lemma ModSum(a: nat, b: nat, s: nat)
    requires s >= 1 && a % s == 0 && b % s == 0
    ensures (a + b) % s == 0
  {
    var qa, qb := a / s, b / s;
    assert a + b == s * (qa + qb) + 0;
    ModUnique(a + b, s, qa + qb, 0);
  }

  /** Advancing by a multiple of `s` from a multiple of `s` past `from` stays a multiple past `from`. */
  lemma ModStep(from: nat, at: nat, len: nat, at': nat, s: nat)
    requires s >= 1 && from <= at && at' == at + len && (at - from) % s == 0 && len % s == 0
    ensures (at' - from) % s == 0
  {
    ModSum(at - from, len, s);
    assert at' - from == (at - from) + len;
  }

  lemma DivZero(a: nat, s: nat)
    requires s >= 1
    ensures a / s == 0 <==> a < s
  {
    var q, r := a / s, a % s;
    assert a == s * q + r;
    if q >= 1 {
      assert s * q >= s;
    }
  }
}

=== FILE: lv_alloc.dfy ===
/**
 * A logical volume and the allocation policies of lib/metadata/lv_manip.c
 * that append segments to it: linear areas (contiguous and simple policies)
 * and striped rounds. Each policy works on a scratch free-area map and hands
 * back what is left of it; the per-PV counters are charged by the caller.
 */
module LvAlloc {
  import opened Segments
  import opened PvMap
  import opened AreaSort

  /** The status bits the allocator looks at; every other bit is carried along unread. */
  datatype StatusFlag = SimpleAlloc | ContiguousAlloc | OtherStatus(bit: nat)

  class LogicalVolume {
    const name: string
    const status: set<StatusFlag>
    var leCount: nat
    var size: nat
    var segments: seq<Segment>

    constructor (name: string, status: set<StatusFlag>, extents: nat, size: nat)
      ensures this.name == name && this.status == status
      ensures leCount == extents && this.size == size && segments == []
    {
      this.name := name;
      this.status := status;
      leCount := extents;
      this.size := size;
      segments := [];
    }
  }

  /**
   * The segments appended after `before` cover the logical extents
   * [from, to) in order, each well formed over `pvCount` PVs.
   */
  ghost predicate Appended(before: seq<Segment>, after: seq<Segment>, from: nat, to: nat, pvCount: nat)
  {
    && |before| <= |after| && after[..|before|] == before
    && from <= to
    && ChainFrom(after[|before|..], from)
    && TotalLen(after[|before|..]) == to - from
    && AllWellFormed(after[|before|..], pvCount)
  }

  ghost predicate AllStripes(segs: seq<Segment>, stripes: nat)
  {
    forall i :: 0 <= i < |segs| ==> segs[i].stripes == stripes
  }

  /** What `added` reserves on each PV is exactly what went out of the map. */
  ghost predicate Conserves(added: seq<Segment>, pvms: seq<PvAreas>, pvms': seq<PvAreas>)
  {
    forall p :: Usage(added, p) + MapTotal(pvms', p) == MapTotal(pvms, p)
  }

  /**
   * What an allocation policy keeps while it works: the segments it appended
   * to `start` cover [from, to) with `stripes` stripes each, and took from
   * the map `pvms` exactly what `cur` no longer holds.
   */
  ghost predicate Extended(start: seq<Segment>, segs: seq<Segment>, from: nat, to: nat, stripes: nat,
                           pvCount: nat, pvms: seq<PvAreas>, cur: seq<PvAreas>)
  {
    && Appended(start, segs, from, to, pvCount)
    && AllStripes(segs[|start|..], stripes)
    && Conserves(segs[|start|..], pvms, cur)
    && MapOk(cur, pvCount)
  }

  /** Appending one more segment, taken from the map, keeps the chain and the conservation. */
  lemma ExtendByOne(start: seq<Segment>, segs: seq<Segment>, seg: Segment, from: nat, to: nat,
                    stripes: nat, pvCount: nat, pvms: seq<PvAreas>, mid: seq<PvAreas>, next: seq<PvAreas>)
    requires Extended(start, segs, from, to, stripes, pvCount, pvms, mid)
    requires seg.le == to && seg.stripes == stripes && WellFormed(seg, pvCount) && MapOk(next, pvCount)
    requires forall p :: SegUsage(seg, p) + MapTotal(next, p) == MapTotal(mid, p)
    ensures Extended(start, segs + [seg], from, to + seg.len, stripes, pvCount, pvms, next)
  {
    var added := segs[|start|..];
    var added' := added + [seg];
    assert (segs + [seg])[|start|..] == added';
    assert (segs + [seg])[..|start|] == start;
    AppendOne(added, seg, from, to, pvCount);
    assert AllStripes(added', stripes);
    assert Conserves(added', pvms, next) by {
      forall p ensures Usage(added', p) + MapTotal(next, p) == MapTotal(pvms, p) {
        assert Usage(added', p) == Usage(added, p) + SegUsage(seg, p);
      }
    }
  }

  /** One more segment at the end of a chain covering [from, to) covers [from, to + its length). */
  lemma AppendOne(added: seq<Segment>, seg: Segment, from: nat, to: nat, pvCount: nat)
    requires ChainFrom(added, from) && TotalLen(added) == to - from && from <= to && AllWellFormed(added, pvCount)
    requires seg.le == to && WellFormed(seg, pvCount)
    ensures var added' := added + [seg];
      && added'[..|added|] == added
      && ChainFrom(added', from) && TotalLen(added') == to + seg.len - from && AllWellFormed(added', pvCount)
      && forall p :: Usage(added', p) == Usage(added, p) + SegUsage(seg, p)
  {
    var added' := added + [seg];
    assert added'[..|added|] == added;
    assert AllWellFormed(added', pvCount) by {
      forall i | 0 <= i < |added'| ensures WellFormed(added'[i], pvCount) {
        if i < |added| {
          assert added'[i] == added[i];
        }
      }
    }
  }

  /** A free area together with the PV it lies on: one place a linear policy may allocate from. */
  datatype Placed = Placed(pv: nat, area: Area)

  function Min(a: nat, b: nat): nat
  {
    if a < b then a else b
  }

  /** The free extents of `places` together. */
  function PlacedTotal(places: seq<Placed>): nat
  {
    if places == [] then 0 else places[0].area.count + PlacedTotal(places[1..])
  }

  /** The areas of one map as places, in list order. */
  function AreasOf(pv: nat, areas: seq<Area>): seq<Placed>
  {
    if areas == [] then [] else [Placed(pv, areas[0])] + AreasOf(pv, areas[1..])
  }

  /** What _alloc_simple offers, in its order: every area of every map, map by map, each map's in list order. */
  function AllAreas(pvms: seq<PvAreas>): seq<Placed>
  {
    if pvms == [] then [] else AreasOf(pvms[0].pv, pvms[0].areas) + AllAreas(pvms[1..])
  }

  /** What _alloc_contiguous offers, in its order: the head area of each map that has one. */
  function Heads(pvms: seq<PvAreas>): (r: seq<Placed>)
    ensures |r| <= |pvms|
  {
    if pvms == [] then []
    else (if pvms[0].areas == [] then [] else [Placed(pvms[0].pv, pvms[0].areas[0])]) + Heads(pvms[1..])
  }

  /** The free extents of all maps together. */
  function FreeTotal(pvms: seq<PvAreas>): nat
  {
    if pvms == [] then 0 else AreasTotal(pvms[0].areas) + FreeTotal(pvms[1..])
  }

  lemma {:induction false} PlacedTotalConcat(a: seq<Placed>, b: seq<Placed>)
    ensures PlacedTotal(a + b) == PlacedTotal(a) + PlacedTotal(b)
  {
    if a == [] {
      assert a + b == b;
    } else {
      assert (a + b)[1..] == a[1..] + b;
      PlacedTotalConcat(a[1..], b);
    }
  }

  lemma {:induction false} AreasOfTotal(pv: nat, areas: seq<Area>)
    ensures PlacedTotal(AreasOf(pv, areas)) == AreasTotal(areas)
  {
    if areas != [] {
      AreasOfTotal(pv, areas[1..]);
      assert [areas[0]] + areas[1..] == areas;
      AreasConcat([areas[0]], areas[1..]);
      assert AreasTotal([areas[0]]) == areas[0].count by {
        assert [areas[0]][..0] == [];
      }
    }
  }

  /** The places _alloc_simple offers hold all the free extents of the maps. */
  lemma {:induction false} AllAreasTotal(pvms: seq<PvAreas>)
    ensures PlacedTotal(AllAreas(pvms)) == FreeTotal(pvms)
  {
    if pvms != [] {
      AllAreasTotal(pvms[1..]);
      AreasOfTotal(pvms[0].pv, pvms[0].areas);
      PlacedTotalConcat(AreasOf(pvms[0].pv, pvms[0].areas), AllAreas(pvms[1..]));
    }
  }

  /** The head areas from map `i` on: that of map `i` when it has one, then those after it. */
  lemma HeadsStep(pvms: seq<PvAreas>, i: nat)
    requires i < |pvms|
    ensures pvms[i].areas == [] ==> Heads(pvms[i..]) == Heads(pvms[i + 1..])
    ensures pvms[i].areas != [] ==> Heads(pvms[i..]) == [Placed(pvms[i].pv, pvms[i].areas[0])] + Heads(pvms[i + 1..])
  {
    assert pvms[i..][0] == pvms[i] && pvms[i..][1..] == pvms[i + 1..];
  }

  /** All areas from map `i` on: those of map `i`, then those after it. */
  lemma AllAreasStep(pvms: seq<PvAreas>, i: nat)
    requires i < |pvms|
    ensures AllAreas(pvms[i..]) == AreasOf(pvms[i].pv, pvms[i].areas) + AllAreas(pvms[i + 1..])
  {
    assert pvms[i..][0] == pvms[i] && pvms[i..][1..] == pvms[i + 1..];
  }

  /**
   * The segment the corrected _alloc_linear_area cuts from `place` at
   * logical extent `at` of an LV that ends at `end`: one stripe, at the
   * start of the area, as long as the area or as the need, whichever is
   * smaller.
   */
  function LinearSegment(place: Placed, at: nat, end: nat): (seg: Segment)
    requires at <= end
    ensures seg.le == at && seg.len <= place.area.count && at + seg.len <= end
    ensures seg.len == place.area.count || at + seg.len == end
  {
    Segment(at, Min(place.area.count, end - at), 1, [StripeArea(place.pv, place.area.start)])
  }

  /**
   * The segments a linear policy appends when it offers `places` one after
   * the other from logical extent `at`: one per place, up to the one that
   * completes the LV.
   */
  function LinearPlan(places: seq<Placed>, at: nat, end: nat): (r: seq<Segment>)
    requires at <= end
    ensures |r| <= |places|
  {
    if places == [] then []
    else
      var seg := LinearSegment(places[0], at, end);
      if at + seg.len == end then [seg] else [seg] + LinearPlan(places[1..], at + seg.len, end)
  }

  /** A linear plan covers as much of the need as the places hold, and no more. */
  lemma {:induction false} LinearPlanLen(places: seq<Placed>, at: nat, end: nat)
    requires at <= end
    ensures TotalLen(LinearPlan(places, at, end)) == Min(end - at, PlacedTotal(places))
  {
    if places != [] {
      var seg := LinearSegment(places[0], at, end);
      assert PlacedTotal(places) == seg.len + (places[0].area.count - seg.len) + PlacedTotal(places[1..]);
      assert TotalLen([seg]) == seg.len by {
        assert [seg][..0] == [];
      }
      if at + seg.len != end {
        var more := LinearPlan(places[1..], at + seg.len, end);
        assert LinearPlan(places, at, end) == [seg] + more;
        LinearPlanLen(places[1..], at + seg.len, end);
        TotalLenConcat([seg], more);
      } else {
        assert LinearPlan(places, at, end) == [seg];
      }
    }
  }

  /**
   * Segment `k` of a linear plan is one stripe at the start of place `k`;
   * every segment but the last takes its place whole.
   */
  lemma {:induction false} LinearPlanPlaces(places: seq<Placed>, at: nat, end: nat)
    requires at <= end
    ensures var plan := LinearPlan(places, at, end);
            && (forall k :: 0 <= k < |plan| ==>
                  plan[k].stripes == 1 && plan[k].areas == [StripeArea(places[k].pv, places[k].area.start)])
            && (forall k :: 0 <= k < |plan| - 1 ==> plan[k].len == places[k].area.count)
  {
    if places != [] {
      var seg := LinearSegment(places[0], at, end);
      if at + seg.len != end {
        var more := LinearPlan(places[1..], at + seg.len, end);
        LinearPlanPlaces(places[1..], at + seg.len, end);
        var plan := [seg] + more;
        forall k | 1 <= k < |plan|
          ensures plan[k] == more[k - 1] && places[k] == places[1..][k - 1]
        {
        }
      }
    }
  }

  /**
   * Offering the next place: its segment follows what was appended so far,
   * and the plan either ends there or goes on with the places after it.
   */
  lemma PlanStep(added: seq<Segment>, places: seq<Placed>, at: nat, end: nat, goal: seq<Segment>)
    requires places != [] && at <= end && added + LinearPlan(places, at, end) == goal
    ensures var seg := LinearSegment(places[0], at, end);
            if at + seg.len == end then added + [seg] == goal
            else (added + [seg]) + LinearPlan(places[1..], at + seg.len, end) == goal
  {
    var seg := LinearSegment(places[0], at, end);
    if at + seg.len != end {
      var more := LinearPlan(places[1..], at + seg.len, end);
      assert added + ([seg] + more) == (added + [seg]) + more;
    }
  }

  /**
   * _alloc_linear_area, corrected: a one-stripe segment at `index` on the PV
   * of map `mi`, as long as area `ai` or as what the LV still needs,
   * whichever is smaller; that many extents leave the area.
   */
  method AllocLinearArea(lv: LogicalVolume, index: nat, pvms: seq<PvAreas>, mi: nat, ai: nat, ghost pvCount: nat)
    returns (index': nat, pvms': seq<PvAreas>)
    requires index <= lv.leCount && MapOk(pvms, pvCount)
    requires mi < |pvms| && ai < |pvms[mi].areas|
    modifies lv`segments
    ensures index <= index' <= lv.leCount
    ensures index' - index <= pvms[mi].areas[ai].count
    ensures index' - index == pvms[mi].areas[ai].count || index' == lv.leCount
    ensures lv.segments == old(lv.segments) + [LinearSegment(Placed(pvms[mi].pv, pvms[mi].areas[ai]), index, lv.leCount)]
    ensures index' == index + LinearSegment(Placed(pvms[mi].pv, pvms[mi].areas[ai]), index, lv.leCount).len
    ensures pvms' == Consume(pvms, mi, ai, index' - index)
    ensures WellFormed(lv.segments[|lv.segments| - 1], pvCount) && MapOk(pvms', pvCount)
    ensures forall p :: SegUsage(lv.segments[|lv.segments| - 1], p) + MapTotal(pvms', p) == MapTotal(pvms, p)
  {
    var area := pvms[mi].areas[ai];
    var count := area.count;
    var remaining := lv.leCount - index;
    if remaining < count {
      count := remaining;
    }
    var stripe := StripeArea(pvms[mi].pv, area.start);
    var seg := Segment(index, count, 1, [stripe]);
    lv.segments := lv.segments + [seg];
    pvms' := Consume(pvms, mi, ai, count);
    index' := index + count;
    assert [stripe][..0] == [];
    assert Width(seg) == count;
    forall p ensures SegUsage(seg, p) + MapTotal(pvms', p) == MapTotal(pvms, p) {
      assert CountPv([stripe], p) == if stripe.pv == p then 1 else 0;
      ConsumeTotal(pvms, mi, ai, count, p);
    }
    ConsumeOk(pvms, mi, ai, count, pvCount);
  }

  /** The length _alloc_linear_area gives a segment as written: the larger of the area and the need. */
  function LinearWidthAsWritten(areaCount: nat, remaining: nat): (w: nat)
    ensures areaCount <= w && remaining <= w && (w == areaCount || w == remaining)
  {
    if areaCount < remaining then remaining else areaCount
  }

  /**
   * As written, the length fits both the area and the LV only when the two
   * are equal: otherwise it overruns the area (consuming extents it does not
   * hold) or the LV (allocating past its last logical extent).
   */
  lemma LinearWidthAsWrittenOverruns(areaCount: nat, remaining: nat)
    ensures var w := LinearWidthAsWritten(areaCount, remaining);
            && (w <= areaCount && w <= remaining <==> areaCount == remaining)
            && (areaCount < remaining ==> w > areaCount)
            && (remaining < areaCount ==> w > remaining)
    ensures LinearWidthAsWritten(3, 10) == 10 && LinearWidthAsWritten(10, 3) == 10
  {
  }

  /**
   * One call of _alloc_linear_area on the head area of map `i`, as one step
   * of a linear plan: the area is the next place offered, `later` the places
   * after it, and `goal` the segment list once the whole plan is appended.
   */
  method TakeHead(lv: LogicalVolume, cur: seq<PvAreas>, i: nat, at: nat, ghost later: seq<Placed>, ghost goal: seq<Segment>,
                  ghost start: seq<Segment>, ghost from: nat, ghost pvms: seq<PvAreas>, ghost pvCount: nat)
    returns (at': nat, cur': seq<PvAreas>)
    requires i < |cur| && cur[i].areas != [] && from <= at <= lv.leCount
    requires Extended(start, lv.segments, from, at, 1, pvCount, pvms, cur)
    requires lv.segments + LinearPlan([Placed(cur[i].pv, cur[i].areas[0])] + later, at, lv.leCount) == goal
    modifies lv`segments
    ensures at <= at' <= lv.leCount && |cur'| == |cur| && |lv.segments| == |old(lv.segments)| + 1
    ensures Extended(start, lv.segments, from, at', 1, pvCount, pvms, cur')
    ensures at' < lv.leCount ==> cur' == cur[i := PvAreas(cur[i].pv, cur[i].areas[1..])]
    ensures forall j :: 0 <= j < |cur| && j != i ==> cur'[j] == cur[j]
    ensures cur'[i + 1..] == cur[i + 1..]
    ensures at' == lv.leCount ==> lv.segments == goal
    ensures at' < lv.leCount ==> lv.segments + LinearPlan(later, at', lv.leCount) == goal
  {
    ghost var segs := lv.segments;
    ghost var place := Placed(cur[i].pv, cur[i].areas[0]);
    assert ([place] + later)[1..] == later;
    PlanStep(segs, [place] + later, at, lv.leCount, goal);
    at', cur' := AllocLinearArea(lv, at, cur, i, 0, pvCount);
    ExtendByOne(start, segs, lv.segments[|lv.segments| - 1], from, at, 1, pvCount, pvms, cur, cur');
    assert cur[i].areas[..0] + cur[i].areas[1..] == cur[i].areas[1..];
  }

  /**
   * The loop of _alloc_contiguous: the head area of each map in turn, until
   * the LV is complete. When it stops short, every map that had an area has
   * lost its head area.
   */
  method WalkHeads(lv: LogicalVolume, pvms: seq<PvAreas>, filled: nat, ghost pvCount: nat)
    returns (filled': nat, pvms': seq<PvAreas>)
    requires filled <= lv.leCount && MapOk(pvms, pvCount)
    modifies lv`segments
    ensures filled <= filled' <= lv.leCount && |pvms'| == |pvms|
    ensures Extended(old(lv.segments), lv.segments, filled, filled', 1, pvCount, pvms, pvms')
    ensures lv.segments == old(lv.segments) + LinearPlan(Heads(pvms), filled, lv.leCount)
    ensures filled' < lv.leCount ==> forall i :: 0 <= i < |pvms| && pvms[i].areas != [] ==> pvms'[i].areas == pvms[i].areas[1..]
  {
    ghost var start := lv.segments;
    ghost var goal := start + LinearPlan(Heads(pvms), filled, lv.leCount);
    pvms' := pvms;
    filled' := filled;
    assert lv.segments[|start|..] == [];
    assert pvms[0..] == pvms;
    var i := 0;
    while i < |pvms|
      invariant 0 <= i <= |pvms| && |pvms'| == |pvms|
      invariant filled <= filled' <= lv.leCount
      invariant Extended(start, lv.segments, filled, filled', 1, pvCount, pvms, pvms')
      invariant pvms'[i..] == pvms[i..]
      invariant lv.segments + LinearPlan(Heads(pvms[i..]), filled', lv.leCount) == goal
      invariant forall j :: 0 <= j < i && pvms[j].areas != [] ==> pvms'[j].areas == pvms[j].areas[1..]
    {
      HeadsStep(pvms, i);
      assert pvms'[i] == pvms'[i..][0] && pvms'[i + 1..] == pvms'[i..][1..];
      if pvms'[i].areas != [] {
        filled', pvms' := TakeHead(lv, pvms', i, filled', Heads(pvms[i + 1..]), goal, start, filled, pvms, pvCount);
        if filled' == lv.leCount {
          break;
        }
      }
      i := i + 1;
    }
  }

  /**
   * _alloc_contiguous: the head area of each map in turn, until the LV is
   * complete; it fails when the maps run out first, that is when their head
   * areas together hold less than the LV still needs.
   */
  method AllocContiguous(lv: LogicalVolume, pvms: seq<PvAreas>, filled: nat, ghost pvCount: nat)
    returns (ok: bool, filled': nat, pvms': seq<PvAreas>)
    requires filled <= lv.leCount && MapOk(pvms, pvCount)
    modifies lv`segments
    ensures filled <= filled' <= lv.leCount && |pvms'| == |pvms|
    ensures Extended(old(lv.segments), lv.segments, filled, filled', 1, pvCount, pvms, pvms')
    ensures |lv.segments| - |old(lv.segments)| <= |pvms|
    ensures lv.segments == old(lv.segments) + LinearPlan(Heads(pvms), filled, lv.leCount)
    ensures ok <==> filled' == lv.leCount
    ensures ok <==> lv.leCount - filled <= PlacedTotal(Heads(pvms))
    ensures !ok ==> forall i :: 0 <= i < |pvms| && pvms[i].areas != [] ==> pvms'[i].areas == pvms[i].areas[1..]
  {
    filled', pvms' := WalkHeads(lv, pvms, filled, pvCount);
    ok := filled' == lv.leCount;
    LinearPlanLen(Heads(pvms), filled, lv.leCount);
  }

  /**
   * The walk of _alloc_simple: every area of every map in list order, each
   * taken whole, until the LV is complete (the goto out of both loops).
   * When it stops short, every area of every map has been used up.
   */
  method FillSimple(lv: LogicalVolume, pvms: seq<PvAreas>, filled: nat, ghost pvCount: nat)
    returns (filled': nat, pvms': seq<PvAreas>)
    requires filled <= lv.leCount && MapOk(pvms, pvCount)
    modifies lv`segments
    ensures filled <= filled' <= lv.leCount && |pvms'| == |pvms|
    ensures Extended(old(lv.segments), lv.segments, filled, filled', 1, pvCount, pvms, pvms')
    ensures lv.segments == old(lv.segments) + LinearPlan(AllAreas(pvms), filled, lv.leCount)
    ensures filled' < lv.leCount ==> forall i :: 0 <= i < |pvms'| ==> pvms'[i].areas == []
  {
    ghost var start := lv.segments;
    ghost var goal := start + LinearPlan(AllAreas(pvms), filled, lv.leCount);
    pvms' := pvms;
    filled' := filled;
    assert lv.segments[|start|..] == [];
    assert pvms[0..] == pvms;
    var i := 0;
    while i < |pvms|
      invariant 0 <= i <= |pvms| && |pvms'| == |pvms|
      invariant filled <= filled' <= lv.leCount
      invariant Extended(start, lv.segments, filled, filled', 1, pvCount, pvms, pvms')
      invariant forall j :: 0 <= j < i ==> pvms'[j].areas == []
      invariant pvms'[i..] == pvms[i..]
      invariant lv.segments + LinearPlan(AllAreas(pvms[i..]), filled', lv.leCount) == goal
    {
      AllAreasStep(pvms, i);
      assert pvms'[i] == pvms'[i..][0] && pvms'[i + 1..] == pvms'[i..][1..];
      var done;
      done, filled', pvms' := FillFromMap(lv, pvms', i, filled', AllAreas(pvms[i + 1..]), goal, start, filled, pvms, pvCount);
      if done {
        break;
      }
      i := i + 1;
    }
  }

  /**
   * The inner loop of _alloc_simple: every area of map `i` in list order,
   * each taken whole, until the LV is complete (`done`, the goto); when it
   * is not, map `i` is left with no area and the plan goes on with `later`.
   */
  method FillFromMap(lv: LogicalVolume, cur: seq<PvAreas>, i: nat, at: nat, ghost later: seq<Placed>, ghost goal: seq<Segment>,
                     ghost start: seq<Segment>, ghost from: nat, ghost pvms: seq<PvAreas>, ghost pvCount: nat)
    returns (done: bool, at': nat, cur': seq<PvAreas>)
    requires i < |cur| && from <= at <= lv.leCount
    requires Extended(start, lv.segments, from, at, 1, pvCount, pvms, cur)
    requires lv.segments + LinearPlan(AreasOf(cur[i].pv, cur[i].areas) + later, at, lv.leCount) == goal
    modifies lv`segments
    ensures at <= at' <= lv.leCount && |cur'| == |cur|
    ensures Extended(start, lv.segments, from, at', 1, pvCount, pvms, cur')
    ensures forall j :: 0 <= j < |cur| && j != i ==> cur'[j] == cur[j]
    ensures cur'[i + 1..] == cur[i + 1..]
    ensures done ==> at' == lv.leCount && lv.segments == goal
    ensures !done ==> cur'[i].areas == [] && lv.segments + LinearPlan(later, at', lv.leCount) == goal
  {
    at', cur' := at, cur;
    var areas := cur[i].areas;
    ghost var pv := cur[i].pv;
    assert areas[0..] == areas;
    done := false;
    var k := 0;
    while k < |areas|
      invariant 0 <= k <= |areas| && |cur'| == |cur| && !done
      invariant cur'[i] == PvAreas(pv, areas[k..])
      invariant at <= at' <= lv.leCount
      invariant Extended(start, lv.segments, from, at', 1, pvCount, pvms, cur')
      invariant forall j :: 0 <= j < |cur| && j != i ==> cur'[j] == cur[j]
      invariant cur'[i + 1..] == cur[i + 1..]
      invariant lv.segments + LinearPlan(AreasOf(pv, areas[k..]) + later, at', lv.leCount) == goal
    {
      assert areas[k..][0] == areas[k] && areas[k..][1..] == areas[k + 1..];
      assert AreasOf(pv, areas[k..]) + later == [Placed(pv, areas[k])] + (AreasOf(pv, areas[k + 1..]) + later);
      at', cur' := TakeHead(lv, cur', i, at', AreasOf(pv, areas[k + 1..]) + later, goal, start, from, pvms, pvCount);
      if at' == lv.leCount {
        done := true;
        break;
      }
      k := k + 1;
    }
    if !done {
      assert AreasOf(pv, areas[k..]) + later == later;
    }
  }

  /** _alloc_simple, corrected: it succeeds exactly when the walk completes the LV. */
  method AllocSimple(lv: LogicalVolume, pvms: seq<PvAreas>, filled: nat, ghost pvCount: nat)
    returns (ok: bool, filled': nat, pvms': seq<PvAreas>)
    requires filled <= lv.leCount && MapOk(pvms, pvCount)
    modifies lv`segments
    ensures filled <= filled' <= lv.leCount && |pvms'| == |pvms|
    ensures Extended(old(lv.segments), lv.segments, filled, filled', 1, pvCount, pvms, pvms')
    ensures lv.segments == old(lv.segments) + LinearPlan(AllAreas(pvms), filled, lv.leCount)
    ensures ok <==> filled' == lv.leCount
    ensures ok <==> lv.leCount - filled <= PlacedTotal(AllAreas(pvms))
    ensures ok <==> lv.leCount - filled <= FreeTotal(pvms)
    ensures !ok ==> forall i :: 0 <= i < |pvms'| ==> pvms'[i].areas == []
  {
    filled', pvms' := FillSimple(lv, pvms, filled, pvCount);
    ok := filled' == lv.leCount;
    LinearPlanLen(AllAreas(pvms), filled, lv.leCount);
    AllAreasTotal(pvms);
  }

  /** _alloc_simple as written: the same walk, then failure whatever it achieved. */
  method AllocSimpleAsWritten(lv: LogicalVolume, pvms: seq<PvAreas>, filled: nat, ghost pvCount: nat)
    returns (ok: bool, filled': nat, pvms': seq<PvAreas>)
    requires filled <= lv.leCount && MapOk(pvms, pvCount)
    modifies lv`segments
    ensures Appended(old(lv.segments), lv.segments, filled, filled', pvCount)
    ensures !ok
  {
    filled', pvms' := FillSimple(lv, pvms, filled, pvCount);
    ok := false;
  }

  /** The head area of each of the first `n` maps that has one, in map order, as candidates of a round. */
  function HeadCands(pvms: seq<PvAreas>, n: nat): seq<Candidate>
    requires n <= |pvms|
  {
    if n == 0 then []
    else HeadCands(pvms, n - 1) + (if pvms[n - 1].areas != [] then [Candidate(n - 1, pvms[n - 1].areas[0])] else [])
  }

  /**
   * The candidates of the first `n` maps: one per map that has an area, each
   * the head area of its map, in increasing map order.
   */
  lemma {:induction false} HeadCandsFacts(pvms: seq<PvAreas>, n: nat)
    requires n <= |pvms|
    ensures var r := HeadCands(pvms, n);
            && |r| == NonEmptyCount(pvms[..n])
            && (forall k :: 0 <= k < |r| ==> IsHead(pvms, r[k]) && r[k].mi < n)
            && (forall k, l :: 0 <= k < l < |r| ==> r[k].mi < r[l].mi)
  {
    if n > 0 {
      HeadCandsFacts(pvms, n - 1);
      assert pvms[..n][..n - 1] == pvms[..n - 1];
    }
  }

  /** No map with an area is left out of a round's candidates. */
  lemma {:induction false} HeadCandsComplete(pvms: seq<PvAreas>, n: nat)
    requires n <= |pvms|
    ensures forall i :: 0 <= i < n && pvms[i].areas != [] ==> Candidate(i, pvms[i].areas[0]) in HeadCands(pvms, n)
  {
    if n > 0 {
      HeadCandsComplete(pvms, n - 1);
    }
  }

  /** The areas array of one striping round: the head area of each map that has one, in map order. */
  method CollectHeads(pvms: seq<PvAreas>) returns (cands: seq<Candidate>)
    ensures cands == HeadCands(pvms, |pvms|)
    ensures |cands| == NonEmptyCount(pvms)
    ensures forall k :: 0 <= k < |cands| ==> IsHead(pvms, cands[k])
    ensures forall k, l :: 0 <= k < l < |cands| ==> cands[k].mi < cands[l].mi
    ensures forall i :: 0 <= i < |pvms| && pvms[i].areas != [] ==> Candidate(i, pvms[i].areas[0]) in cands
  {
    cands := [];
    var i := 0;
    while i < |pvms|
      invariant 0 <= i <= |pvms|
      invariant cands == HeadCands(pvms, i)
    {
      if pvms[i].areas != [] {
        cands := cands + [Candidate(i, pvms[i].areas[0])];
      }
      i := i + 1;
    }
    assert pvms[..i] == pvms;
    HeadCandsFacts(pvms, |pvms|);
    HeadCandsComplete(pvms, |pvms|);
  }

  /** After `s` stripes of a round: what TakeStripes promises, for the first `s` candidates. */
  ghost predicate TakenSoFar(pvms: seq<PvAreas>, cur: seq<PvAreas>, sorted: seq<Candidate>, s: nat,
                             perArea: nat, areas: seq<StripeArea>, pvCount: nat)
  {
    && s <= |sorted| && |areas| == s && |cur| == |pvms| && MapOk(cur, pvCount)
    && (forall t :: 0 <= t < s ==>
          IsHead(pvms, sorted[t]) && areas[t] == StripeArea(pvms[sorted[t].mi].pv, sorted[t].area.start))
    && (forall t :: 0 <= t < s ==>
          IsHead(pvms, sorted[t]) && perArea <= sorted[t].area.count
          && cur[sorted[t].mi] == PvAreas(pvms[sorted[t].mi].pv, ConsumeArea(pvms[sorted[t].mi].areas, 0, perArea)))
    && (forall i :: 0 <= i < |pvms| && (forall t :: 0 <= t < s ==> sorted[t].mi != i) ==> cur[i] == pvms[i])
    && (forall p :: MapTotal(cur, p) + perArea * CountPv(areas, p) == MapTotal(pvms, p))
  }

  lemma TakeOneStripe(pvms: seq<PvAreas>, cur: seq<PvAreas>, sorted: seq<Candidate>, s: nat,
                      perArea: nat, areas: seq<StripeArea>, pvCount: nat)
    requires TakenSoFar(pvms, cur, sorted, s, perArea, areas, pvCount)
    requires s < |sorted| && DistinctMaps(sorted) && IsHead(pvms, sorted[s]) && perArea <= sorted[s].area.count
    ensures var c := sorted[s];
            && IsHead(cur, c) && cur[c.mi] == pvms[c.mi]
            && TakenSoFar(pvms, Consume(cur, c.mi, 0, perArea), sorted, s + 1, perArea,
                          areas + [StripeArea(cur[c.mi].pv, c.area.start)], pvCount)
  {
    var c := sorted[s];
    assert forall t :: 0 <= t < s ==> sorted[t].mi != c.mi;
    assert cur[c.mi] == pvms[c.mi];
    var stripe := StripeArea(cur[c.mi].pv, c.area.start);
    var next := Consume(cur, c.mi, 0, perArea);
    StripeTotals(pvms, cur, c.mi, perArea, areas, stripe);
    ConsumeOk(cur, c.mi, 0, perArea, pvCount);
    var areas' := areas + [stripe];
    forall t | 0 <= t < s + 1
      ensures IsHead(pvms, sorted[t]) && areas'[t] == StripeArea(pvms[sorted[t].mi].pv, sorted[t].area.start)
    {
      if t < s {
        assert areas'[t] == areas[t];
      }
    }
    forall t | 0 <= t < s + 1
      ensures IsHead(pvms, sorted[t]) && perArea <= sorted[t].area.count
              && next[sorted[t].mi] == PvAreas(pvms[sorted[t].mi].pv, ConsumeArea(pvms[sorted[t].mi].areas, 0, perArea))
    {
      if t < s {
        assert sorted[t].mi != c.mi;
      }
    }
    forall i | 0 <= i < |pvms| && (forall t :: 0 <= t < s + 1 ==> sorted[t].mi != i) ensures next[i] == pvms[i] {
      assert sorted[s].mi != i;
    }
  }

  /** One more stripe on the head area of map `mi`: its extents move from the map to the segment. */
  lemma StripeTotals(pvms: seq<PvAreas>, cur: seq<PvAreas>, mi: nat, perArea: nat, areas: seq<StripeArea>, stripe: StripeArea)
    requires mi < |cur| && cur[mi].areas != [] && perArea <= cur[mi].areas[0].count && stripe.pv == cur[mi].pv
    requires forall p :: MapTotal(cur, p) + perArea * CountPv(areas, p) == MapTotal(pvms, p)
    ensures forall p :: MapTotal(Consume(cur, mi, 0, perArea), p) + perArea * CountPv(areas + [stripe], p) == MapTotal(pvms, p)
  {
    forall p ensures MapTotal(Consume(cur, mi, 0, perArea), p) + perArea * CountPv(areas + [stripe], p) == MapTotal(pvms, p) {
      assert (areas + [stripe])[..|areas|] == areas;
      MulSucc(perArea, CountPv(areas, p));
      ConsumeTotal(cur, mi, 0, perArea, p);
    }
  }

  /**
   * The stripe loop of _alloc_stripe_area: stripe `s` goes on the head area
   * of candidate `s`, and `perArea` extents leave that area; maps of
   * candidates not chosen are untouched.
   */
  method TakeStripes(pvms: seq<PvAreas>, sorted: seq<Candidate>, stripes: nat, perArea: nat, ghost pvCount: nat)
    returns (areas: seq<StripeArea>, pvms': seq<PvAreas>)
    requires 1 <= stripes <= |sorted| && DistinctMaps(sorted) && MapOk(pvms, pvCount)
    requires forall k :: 0 <= k < |sorted| ==> IsHead(pvms, sorted[k])
    requires forall s :: 0 <= s < stripes ==> perArea <= sorted[s].area.count
    ensures areas == RoundAreas(pvms, sorted, stripes) && pvms' == RoundRest(pvms, sorted, stripes, perArea)
  {
    areas := [];
    pvms' := pvms;
    var s := 0;
    while s < stripes
      invariant s <= stripes
      invariant areas == RoundAreas(pvms, sorted, s) && pvms' == RoundRest(pvms, sorted, s, perArea)
    {
      RoundNext(pvms, pvms', sorted, s, perArea, areas, pvCount);
      areas := areas + [StripeArea(pvms'[sorted[s].mi].pv, sorted[s].area.start)];
      pvms' := Consume(pvms', sorted[s].mi, 0, perArea);
      s := s + 1;
    }
  }

  /** Following the round for `s` candidates takes what TakenSoFar describes. */
  lemma {:induction false} RoundTaken(pvms: seq<PvAreas>, sorted: seq<Candidate>, s: nat, perArea: nat, pvCount: nat)
    requires s <= |sorted| && DistinctMaps(sorted) && MapOk(pvms, pvCount)
    requires forall k :: 0 <= k < |sorted| ==> IsHead(pvms, sorted[k])
    requires forall t :: 0 <= t < s ==> perArea <= sorted[t].area.count
    ensures TakenSoFar(pvms, RoundRest(pvms, sorted, s, perArea), sorted, s, perArea, RoundAreas(pvms, sorted, s), pvCount)
  {
    if s > 0 {
      var k := s - 1;
      RoundTaken(pvms, sorted, k, perArea, pvCount);
      var cur, areas := RoundRest(pvms, sorted, k, perArea), RoundAreas(pvms, sorted, k);
      TakeOneStripe(pvms, cur, sorted, k, perArea, areas, pvCount);
      RoundStep(pvms, cur, sorted, k, perArea, areas);
      var c := sorted[k];
      assert Consume(cur, c.mi, 0, perArea) == RoundRest(pvms, sorted, s, perArea);
      assert areas + [StripeArea(cur[c.mi].pv, c.area.start)] == RoundAreas(pvms, sorted, s);
    }
  }

  /** The next candidate of a round still finds its head area in place. */
  lemma RoundHead(pvms: seq<PvAreas>, sorted: seq<Candidate>, s: nat, perArea: nat, pvCount: nat)
    requires s < |sorted| && DistinctMaps(sorted) && MapOk(pvms, pvCount)
    requires forall k :: 0 <= k < |sorted| ==> IsHead(pvms, sorted[k])
    requires forall t :: 0 <= t <= s ==> perArea <= sorted[t].area.count
    ensures IsHead(RoundRest(pvms, sorted, s, perArea), sorted[s])
    ensures IsHead(pvms, sorted[s]) && RoundRest(pvms, sorted, s, perArea)[sorted[s].mi] == pvms[sorted[s].mi]
  {
    RoundTaken(pvms, sorted, s, perArea, pvCount);
    TakeOneStripe(pvms, RoundRest(pvms, sorted, s, perArea), sorted, s, perArea, RoundAreas(pvms, sorted, s), pvCount);
  }

  /** One more pass of the stripe loop is one more candidate of the round. */
  lemma RoundStep(pvms: seq<PvAreas>, cur: seq<PvAreas>, sorted: seq<Candidate>, s: nat, perArea: nat, areas: seq<StripeArea>)
    requires s < |sorted| && forall k :: 0 <= k < |sorted| ==> IsHead(pvms, sorted[k])
    requires areas == RoundAreas(pvms, sorted, s) && cur == RoundRest(pvms, sorted, s, perArea)
    requires IsHead(cur, sorted[s]) && cur[sorted[s].mi] == pvms[sorted[s].mi] && perArea <= sorted[s].area.count
    ensures areas + [StripeArea(cur[sorted[s].mi].pv, sorted[s].area.start)] == RoundAreas(pvms, sorted, s + 1)
    ensures Consume(cur, sorted[s].mi, 0, perArea) == RoundRest(pvms, sorted, s + 1, perArea)
  {
  }

  /** The stripe loop can take its next stripe from the head area of candidate `s`, and doing so follows the round. */
  lemma RoundNext(pvms: seq<PvAreas>, cur: seq<PvAreas>, sorted: seq<Candidate>, s: nat, perArea: nat, areas: seq<StripeArea>, pvCount: nat)
    requires s < |sorted| && DistinctMaps(sorted) && MapOk(pvms, pvCount)
    requires forall k :: 0 <= k < |sorted| ==> IsHead(pvms, sorted[k])
    requires forall t :: 0 <= t <= s ==> perArea <= sorted[t].area.count
    requires areas == RoundAreas(pvms, sorted, s) && cur == RoundRest(pvms, sorted, s, perArea)
    ensures sorted[s].mi < |cur| && cur[sorted[s].mi].areas != [] && perArea <= cur[sorted[s].mi].areas[0].count
    ensures areas + [StripeArea(cur[sorted[s].mi].pv, sorted[s].area.start)] == RoundAreas(pvms, sorted, s + 1)
    ensures Consume(cur, sorted[s].mi, 0, perArea) == RoundRest(pvms, sorted, s + 1, perArea)
  {
    RoundHead(pvms, sorted, s, perArea, pvCount);
    RoundStep(pvms, cur, sorted, s, perArea, areas);
  }

  /** The segment of one striping round is well formed and reserves on each PV exactly what left the map. */
  lemma StripedSegmentOk(seg: Segment, perArea: nat, pvms: seq<PvAreas>, sorted: seq<Candidate>, pvCount: nat)
    requires 1 <= seg.stripes <= |sorted| && DistinctMaps(sorted) && MapOk(pvms, pvCount)
    requires forall k :: 0 <= k < |sorted| ==> IsHead(pvms, sorted[k])
    requires forall t :: 0 <= t < seg.stripes ==> perArea <= sorted[t].area.count
    requires seg.len == perArea * seg.stripes && seg.areas == RoundAreas(pvms, sorted, seg.stripes)
    ensures Width(seg) == perArea && WellFormed(seg, pvCount)
    ensures var cur := RoundRest(pvms, sorted, seg.stripes, perArea);
            && |cur| == |pvms| && MapOk(cur, pvCount)
            && (forall p :: SegUsage(seg, p) + MapTotal(cur, p) == MapTotal(pvms, p))
            && (forall t :: 0 <= t < seg.stripes ==>
                  IsHead(pvms, sorted[t]) && seg.areas[t] == StripeArea(pvms[sorted[t].mi].pv, sorted[t].area.start))
            && (forall t :: 0 <= t < seg.stripes ==>
                  && IsHead(pvms, sorted[t]) && perArea <= sorted[t].area.count
                  && cur[sorted[t].mi] == PvAreas(pvms[sorted[t].mi].pv, ConsumeArea(pvms[sorted[t].mi].areas, 0, perArea)))
            && (forall i :: 0 <= i < |pvms| && (forall t :: 0 <= t < seg.stripes ==> sorted[t].mi != i) ==> cur[i] == pvms[i])
  {
    RoundTaken(pvms, sorted, seg.stripes, perArea, pvCount);
    MulDivCancel(perArea, seg.stripes);
  }

  /**
   * _alloc_stripe_area: one segment of `stripes` stripes at `index`, each
   * stripe of the width StripeWidth gives, on the head areas of the first
   * `stripes` candidates (RoundAreas), which lose that width (RoundRest);
   * StripedSegmentOk spells out what that segment and map are.
   */
  method AllocStripeArea(lv: LogicalVolume, stripes: nat, sorted: seq<Candidate>, pvms: seq<PvAreas>, index: nat, ghost pvCount: nat)
    returns (index': nat, pvms': seq<PvAreas>)
    requires 1 <= stripes <= |sorted| && DistinctMaps(sorted)
    requires forall k :: 0 <= k < |sorted| ==> IsHead(pvms, sorted[k])
    requires index <= lv.leCount && MapOk(pvms, pvCount)
    requires forall s :: 0 <= s < stripes ==> StripeWidth(sorted, stripes, lv.leCount - index) <= sorted[s].area.count
    modifies lv`segments
    ensures index' == index + StripeWidth(sorted, stripes, lv.leCount - index) * stripes <= lv.leCount
    ensures lv.segments == old(lv.segments)
              + [Segment(index, StripeWidth(sorted, stripes, lv.leCount - index) * stripes, stripes, RoundAreas(pvms, sorted, stripes))]
    ensures pvms' == RoundRest(pvms, sorted, stripes, StripeWidth(sorted, stripes, lv.leCount - index))
  {
    var perArea := StripeWidth(sorted, stripes, lv.leCount - index);
    PerAreaFits(lv.leCount - index, stripes, sorted[stripes - 1].area.count);
    MulMono(stripes, 0, perArea);
    var areas;
    areas, pvms' := TakeStripes(pvms, sorted, stripes, perArea, pvCount);
    var seg := Segment(index, perArea * stripes, stripes, areas);
    lv.segments := lv.segments + [seg];
    index' := index + seg.len;
  }

  /**
   * The candidates of a striping round in the order qsort leaves them with
   * the comparator reversed: one head area per map that has one, biggest
   * first.
   */
  function RoundOrder(pvms: seq<PvAreas>): (r: seq<Candidate>)
    ensures |r| == NonEmptyCount(pvms)
    ensures forall k :: 0 <= k < |r| ==> IsHead(pvms, r[k])
  {
    var cands := HeadCands(pvms, |pvms|);
    HeadCandsFacts(pvms, |pvms|);
    assert pvms[..|pvms|] == pvms;
    SortedHeads(pvms, cands, true);
    SortSorted(cands, true);
    var r := SortByCount(cands, true);
    assert |r| == |multiset(r)| == |multiset(cands)| == |cands|;
    r
  }

  /** The candidates of a round are ordered biggest first, one per map. */
  lemma RoundOrderSorted(pvms: seq<PvAreas>)
    ensures SortedBy(RoundOrder(pvms), true) && DistinctMaps(RoundOrder(pvms))
  {
    var cands := HeadCands(pvms, |pvms|);
    HeadCandsFacts(pvms, |pvms|);
    assert pvms[..|pvms|] == pvms;
    SortKeepsDistinct(cands, true);
    SortSorted(cands, true);
  }

  /** Sorting loses no candidate: every map with an area offers its head area to the round. */
  lemma RoundOrderComplete(pvms: seq<PvAreas>)
    ensures forall i :: 0 <= i < |pvms| && pvms[i].areas != [] ==> Candidate(i, pvms[i].areas[0]) in RoundOrder(pvms)
  {
    var cands := HeadCands(pvms, |pvms|);
    HeadCandsComplete(pvms, |pvms|);
    SortSorted(cands, true);
    assert pvms[..|pvms|] == pvms;
    assert forall c :: c in cands ==> c in multiset(RoundOrder(pvms));
  }

  /**
   * The candidates of one striping round, ordered by qsort with the
   * comparator reversed: one head area per map that has one, biggest first.
   */
  method RoundCandidates(pvms: seq<PvAreas>) returns (sorted: seq<Candidate>)
    ensures sorted == RoundOrder(pvms)
    ensures |sorted| == NonEmptyCount(pvms)
    ensures SortedBy(sorted, true) && DistinctMaps(sorted)
    ensures forall k :: 0 <= k < |sorted| ==> IsHead(pvms, sorted[k])
  {
    var cands := CollectHeads(pvms);
    sorted := SortByCount(cands, true);
    RoundOrderSorted(pvms);
  }

  /**
   * The biggest-first order makes a round take the biggest head areas: a map
   * whose head area is left out has none bigger than any chosen one.
   */
  lemma RoundTakesBiggest(pvms: seq<PvAreas>, stripes: nat, t: nat, i: nat)
    requires t < stripes <= |RoundOrder(pvms)| && i < |pvms| && pvms[i].areas != []
    requires !Chosen(RoundOrder(pvms), stripes, i)
    ensures pvms[i].areas[0].count <= RoundOrder(pvms)[t].area.count
  {
    var sorted := RoundOrder(pvms);
    RoundOrderComplete(pvms);
    RoundOrderSorted(pvms);
    var k :| 0 <= k < |sorted| && sorted[k] == Candidate(i, pvms[i].areas[0]);
    assert k >= stripes;
    assert Precedes(sorted[t], sorted[k], true);
  }

  /** What one striping round does: give up, or append `seg` and leave `rest` of the map. */
  datatype Round = GiveUp | Advance(seg: Segment, rest: seq<PvAreas>)

  /** Map `i` is one of the first `stripes` candidates of a round. */
  ghost predicate Chosen(sorted: seq<Candidate>, stripes: nat, i: nat)
    requires stripes <= |sorted|
  {
    exists t :: 0 <= t < stripes && sorted[t].mi == i
  }

  /** The stripes of a round's first `s` candidates: stripe `t` at the start of the head area of candidate `t`. */
  function RoundAreas(pvms: seq<PvAreas>, sorted: seq<Candidate>, s: nat): seq<StripeArea>
    requires s <= |sorted| && forall k :: 0 <= k < |sorted| ==> IsHead(pvms, sorted[k])
  {
    if s == 0 then []
    else
      assert IsHead(pvms, sorted[s - 1]);
      RoundAreas(pvms, sorted, s - 1) + [StripeArea(pvms[sorted[s - 1].mi].pv, sorted[s - 1].area.start)]
  }

  /**
   * The map after a round's first `s` candidates each gave `w` extents from
   * the head area of their map, one after the other as consume_pv_area does.
   */
  function RoundRest(pvms: seq<PvAreas>, sorted: seq<Candidate>, s: nat, w: nat): seq<PvAreas>
    requires s <= |sorted|
  {
    if s == 0 then pvms
    else
      var cur := RoundRest(pvms, sorted, s - 1, w);
      var mi := sorted[s - 1].mi;
      if mi < |cur| && cur[mi].areas != [] && w <= cur[mi].areas[0].count
      then Consume(cur, mi, 0, w)
      else cur
  }

  /** Stripe `t` of a round lies at the head area of candidate `t`. */
  lemma {:induction false} RoundAreasAt(pvms: seq<PvAreas>, sorted: seq<Candidate>, s: nat)
    requires s <= |sorted| && forall k :: 0 <= k < |sorted| ==> IsHead(pvms, sorted[k])
    ensures |RoundAreas(pvms, sorted, s)| == s
    ensures forall t :: 0 <= t < s ==> RoundAreas(pvms, sorted, s)[t] == StripeArea(pvms[sorted[t].mi].pv, sorted[t].area.start)
  {
    if s > 0 {
      RoundAreasAt(pvms, sorted, s - 1);
    }
  }

  /** A round keeps one map per map, each on its PV. */
  lemma {:induction false} RoundRestKeepsPvs(pvms: seq<PvAreas>, sorted: seq<Candidate>, s: nat, w: nat)
    requires s <= |sorted|
    ensures |RoundRest(pvms, sorted, s, w)| == |pvms|
    ensures forall i :: 0 <= i < |pvms| ==> RoundRest(pvms, sorted, s, w)[i].pv == pvms[i].pv
  {
    if s > 0 {
      RoundRestKeepsPvs(pvms, sorted, s - 1, w);
    }
  }

  /**
   * One round of _alloc_striped (with the corrected order and stop): over
   * the head areas biggest first, give up when fewer maps than stripes have
   * one, or when the width comes out zero; otherwise one segment at `at`
   * whose stripe `t` lies on the head area of candidate `t`, each stripe as
   * wide as StripeWidth says, and the chosen areas lose that width.
   */
  ghost function StripedRoundOf(pvms: seq<PvAreas>, at: nat, end: nat, stripes: nat): Round
    requires 1 <= stripes && at <= end
  {
    var sorted := RoundOrder(pvms);
    if |sorted| < stripes then GiveUp
    else
      var w := StripeWidth(sorted, stripes, end - at);
      if w == 0 then GiveUp
      else
        MulMono(stripes, 0, w);
        Advance(Segment(at, w * stripes, stripes, RoundAreas(pvms, sorted, stripes)), RoundRest(pvms, sorted, stripes, w))
  }

  /**
   * A round that goes ahead appends one segment at `at` of `stripes` stripes,
   * a positive multiple of the stripes long and within the LV, and keeps one
   * map per map.
   */
  lemma RoundShape(pvms: seq<PvAreas>, at: nat, end: nat, stripes: nat)
    requires 1 <= stripes && at <= end
    ensures var r := StripedRoundOf(pvms, at, end, stripes);
            r.Advance? ==>
              && r.seg.le == at && r.seg.stripes == stripes && |r.seg.areas| == stripes
              && 0 < r.seg.len <= end - at && r.seg.len % stripes == 0 && |r.rest| == |pvms|
  {
    var sorted := RoundOrder(pvms);
    if |sorted| >= stripes {
      var w := StripeWidth(sorted, stripes, end - at);
      if w > 0 {
        var len := w * stripes;
        assert StripedRoundOf(pvms, at, end, stripes).seg.len == len;
        PerAreaFits(end - at, stripes, sorted[stripes - 1].area.count);
        assert len <= end - at;
        MulDivCancel(w, stripes);
        MulMono(stripes, 1, w);
        RoundAreasAt(pvms, sorted, stripes);
        RoundRestKeepsPvs(pvms, sorted, stripes, w);
      }
    }
  }

  /**
   * A round that goes ahead builds a well-formed segment and moves exactly
   * its extents from the map to the segment.
   */
  lemma RoundKeeps(pvms: seq<PvAreas>, at: nat, end: nat, stripes: nat, pvCount: nat)
    requires 1 <= stripes && at <= end && MapOk(pvms, pvCount)
    ensures var r := StripedRoundOf(pvms, at, end, stripes);
            r.Advance? ==>
              && WellFormed(r.seg, pvCount) && MapOk(r.rest, pvCount)
              && forall p :: SegUsage(r.seg, p) + MapTotal(r.rest, p) == MapTotal(pvms, p)
  {
    var sorted := RoundOrder(pvms);
    if |sorted| >= stripes {
      var w := StripeWidth(sorted, stripes, end - at);
      if w > 0 {
        RoundOrderSorted(pvms);
        WidthFitsChosenAreas(sorted, stripes, end - at);
        MulMono(stripes, 0, w);
        StripedSegmentOk(Segment(at, w * stripes, stripes, RoundAreas(pvms, sorted, stripes)), w, pvms, sorted, pvCount);
      }
    }
  }

  /**
   * A round gives up exactly when the guard of _alloc_striped stops the
   * loop: fewer maps with a free area than stripes, or fewer extents still
   * wanted than stripes.
   */
  lemma RoundGivesUp(pvms: seq<PvAreas>, at: nat, end: nat, stripes: nat, pvCount: nat)
    requires 1 <= stripes && at <= end && MapOk(pvms, pvCount)
    ensures StripedRoundOf(pvms, at, end, stripes).GiveUp? <==> NonEmptyCount(pvms) < stripes || end - at < stripes
  {
    var sorted := RoundOrder(pvms);
    DivZero(end - at, stripes);
    if |sorted| >= stripes {
      assert IsHead(pvms, sorted[stripes - 1]);
      assert sorted[stripes - 1].area.count > 0;
    }
  }

  /** The segments the striped rounds append from `at` on, until a round gives up. */
  ghost function StripedPlan(pvms: seq<PvAreas>, at: nat, end: nat, stripes: nat): (r: seq<Segment>)
    requires 1 <= stripes && at <= end
    ensures DistinctPvs(pvms) ==> AllOnDistinctPvs(r)
    decreases end - at
  {
    match StripedRoundOf(pvms, at, end, stripes)
    case GiveUp => []
    case Advance(seg, rest) =>
      RoundShape(pvms, at, end, stripes);
      RoundPvsDistinct(pvms, at, end, stripes);
      var tail := StripedPlan(rest, at + seg.len, end, stripes);
      ConsDistinctPvs(seg, tail);
      [seg] + tail
  }

  /** One round of the plan: nothing when the round gives up, else its segment and the plan over what it leaves. */
  lemma StripedPlanStep(pvms: seq<PvAreas>, at: nat, end: nat, stripes: nat)
    requires 1 <= stripes && at <= end
    ensures var r := StripedRoundOf(pvms, at, end, stripes);
            && (r.GiveUp? ==> StripedPlan(pvms, at, end, stripes) == [])
            && (r.Advance? ==>
                  && 0 < r.seg.len && at + r.seg.len <= end
                  && StripedPlan(pvms, at, end, stripes) == [r.seg] + StripedPlan(r.rest, at + r.seg.len, end, stripes))
  {
    RoundShape(pvms, at, end, stripes);
  }

  /** A striped allocation of the extents `at` .. `end` - 1 can succeed: its rounds cover them all. */
  ghost predicate StripedFits(pvms: seq<PvAreas>, at: nat, end: nat, stripes: nat)
    requires 1 <= stripes && at <= end
  {
    TotalLen(StripedPlan(pvms, at, end, stripes)) == end - at
  }

  /** Nothing is left to stripe once the LV is complete. */
  lemma StripedPlanDone(pvms: seq<PvAreas>, end: nat, stripes: nat)
    requires 1 <= stripes
    ensures StripedPlan(pvms, end, end, stripes) == []
  {
    if NonEmptyCount(pvms) >= stripes {
      assert StripeWidth(RoundOrder(pvms), stripes, 0) == 0;
    }
  }

  /**
   * Head areas of 10, 7 and 5 extents on PVs 0, 1 and 2, three stripes and 30
   * extents wanted: the first round puts one 5-extent stripe at the start of
   * each area, the width capped by the smallest; only two maps keep an area
   * after it, so the rounds stop at 15 extents and the allocation fails.
   */
  lemma StripedPlanExample()
    ensures var pvms := [PvAreas(0, [Area(0, 10)]), PvAreas(1, [Area(0, 7)]), PvAreas(2, [Area(0, 5)])];
            && StripedPlan(pvms, 0, 30, 3) == [Segment(0, 15, 3, [StripeArea(0, 0), StripeArea(1, 0), StripeArea(2, 0)])]
            && !StripedFits(pvms, 0, 30, 3)
  {
    var pvms := [PvAreas(0, [Area(0, 10)]), PvAreas(1, [Area(0, 7)]), PvAreas(2, [Area(0, 5)])];
    var seg := Segment(0, 15, 3, [StripeArea(0, 0), StripeArea(1, 0), StripeArea(2, 0)]);
    var rest := [PvAreas(0, [Area(5, 5)]), PvAreas(1, [Area(5, 2)]), PvAreas(2, [])];
    ExampleFirstRound(pvms, seg, rest);
    ExampleSecondRound(rest);
    assert StripedPlan(rest, 15, 30, 3) == [];
    assert StripedPlan(pvms, 0, 30, 3) == [seg];
    assert TotalLen([seg]) == 15 by { assert [seg][..0] == []; }
  }

  /** The first round of the example: biggest first, width 5, one stripe per area. */
  lemma ExampleFirstRound(pvms: seq<PvAreas>, seg: Segment, rest: seq<PvAreas>)
    requires pvms == [PvAreas(0, [Area(0, 10)]), PvAreas(1, [Area(0, 7)]), PvAreas(2, [Area(0, 5)])]
    requires seg == Segment(0, 15, 3, [StripeArea(0, 0), StripeArea(1, 0), StripeArea(2, 0)])
    requires rest == [PvAreas(0, [Area(5, 5)]), PvAreas(1, [Area(5, 2)]), PvAreas(2, [])]
    ensures StripedRoundOf(pvms, 0, 30, 3) == Advance(seg, rest)
  {
    var a, b, c := Candidate(0, Area(0, 10)), Candidate(1, Area(0, 7)), Candidate(2, Area(0, 5));
    var sorted := RoundOrder(pvms);
    ExampleOrder(pvms, a, b, c);
    assert StripeWidth(sorted, 3, 30) == 5;
    assert RoundAreas(pvms, sorted, 3) == seg.areas by {
      assert RoundAreas(pvms, sorted, 1) == [StripeArea(0, 0)];
      assert RoundAreas(pvms, sorted, 2) == [StripeArea(0, 0), StripeArea(1, 0)];
    }
    assert RoundRest(pvms, sorted, 3, 5) == rest by {
      assert RoundRest(pvms, sorted, 0, 5) == pvms;
      assert ConsumeArea([Area(0, 10)], 0, 5) == [Area(5, 5)];
      assert RoundRest(pvms, sorted, 1, 5) == [PvAreas(0, [Area(5, 5)]), PvAreas(1, [Area(0, 7)]), PvAreas(2, [Area(0, 5)])];
      assert ConsumeArea([Area(0, 7)], 0, 5) == [Area(5, 2)];
      assert RoundRest(pvms, sorted, 2, 5) == [PvAreas(0, [Area(5, 5)]), PvAreas(1, [Area(5, 2)]), PvAreas(2, [Area(0, 5)])];
      assert ConsumeArea([Area(0, 5)], 0, 5) == [];
    }
  }

  /** The head areas of the example, biggest first. */
  lemma ExampleOrder(pvms: seq<PvAreas>, a: Candidate, b: Candidate, c: Candidate)
    requires pvms == [PvAreas(0, [Area(0, 10)]), PvAreas(1, [Area(0, 7)]), PvAreas(2, [Area(0, 5)])]
    requires a == Candidate(0, Area(0, 10)) && b == Candidate(1, Area(0, 7)) && c == Candidate(2, Area(0, 5))
    ensures RoundOrder(pvms) == [a, b, c]
  {
    assert HeadCands(pvms, 3) == [a, b, c] by {
      assert HeadCands(pvms, 1) == [a];
      assert HeadCands(pvms, 2) == [a, b];
    }
    assert pvms[..|pvms|] == pvms;
    assert SortByCount([c], true) == [c];
    assert SortByCount([b, c], true) == [b, c] by { assert [b, c][1..] == [c]; }
    assert SortByCount([a, b, c], true) == [a, b, c] by { assert [a, b, c][1..] == [b, c]; }
  }

  /** After the first round of the example only two maps hold an area: the next round gives up. */
  lemma ExampleSecondRound(rest: seq<PvAreas>)
    requires rest == [PvAreas(0, [Area(5, 5)]), PvAreas(1, [Area(5, 2)]), PvAreas(2, [])]
    ensures StripedRoundOf(rest, 15, 30, 3) == GiveUp
  {
    var r1, r2 := [PvAreas(0, [Area(5, 5)])], [PvAreas(0, [Area(5, 5)]), PvAreas(1, [Area(5, 2)])];
    assert r1[..0] == [];
    assert NonEmptyCount(r1) == 1;
    assert r2[..1] == r1;
    assert NonEmptyCount(r2) == 2;
    assert rest[..2] == r2;
    assert NonEmptyCount(rest) == 2;
  }

  /** No two stripes of `seg` are on the same PV. */
  ghost predicate StripesOnDistinctPvs(seg: Segment)
  {
    forall s, t :: 0 <= s < t < |seg.areas| ==> seg.areas[s].pv != seg.areas[t].pv
  }

  /** No segment of `segs` has two stripes on the same PV. */
  ghost predicate AllOnDistinctPvs(segs: seq<Segment>)
  {
    forall k :: 0 <= k < |segs| ==> StripesOnDistinctPvs(segs[k])
  }

  /** A round never puts two stripes of its segment on one PV, when the maps are for distinct PVs. */
  lemma RoundPvsDistinct(pvms: seq<PvAreas>, at: nat, end: nat, stripes: nat)
    requires 1 <= stripes && at <= end
    ensures var r := StripedRoundOf(pvms, at, end, stripes);
            r.Advance? && DistinctPvs(pvms) ==>
              StripesOnDistinctPvs(r.seg) && DistinctPvs(r.rest) && |r.rest| == |pvms| && forall i :: 0 <= i < |pvms| ==> r.rest[i].pv == pvms[i].pv
  {
    var r := StripedRoundOf(pvms, at, end, stripes);
    if r.Advance? && DistinctPvs(pvms) {
      var sorted := RoundOrder(pvms);
      var w := StripeWidth(sorted, stripes, end - at);
      RoundOrderSorted(pvms);
      RoundAreasAt(pvms, sorted, stripes);
      RoundRestKeepsPvs(pvms, sorted, stripes, w);
      forall s, t | 0 <= s < t < |r.seg.areas| ensures r.seg.areas[s].pv != r.seg.areas[t].pv {
        var a, b := sorted[s].mi, sorted[t].mi;
        assert a != b;
        if a < b { assert pvms[a].pv != pvms[b].pv; } else { assert pvms[b].pv != pvms[a].pv; }
      }
      forall i, j | 0 <= i < j < |r.rest| ensures r.rest[i].pv != r.rest[j].pv {
        assert r.rest[i].pv == pvms[i].pv && r.rest[j].pv == pvms[j].pv;
      }
    }
  }

  /**
   * One area per PV per round: over maps for distinct PVs, no segment the
   * striped rounds append has two stripes on the same PV.
   */
  lemma ConsDistinctPvs(seg: Segment, tail: seq<Segment>)
    ensures StripesOnDistinctPvs(seg) && AllOnDistinctPvs(tail) ==> AllOnDistinctPvs([seg] + tail)
  {
    if StripesOnDistinctPvs(seg) && AllOnDistinctPvs(tail) {
    var plan := [seg] + tail;
    forall k | 0 <= k < |plan| ensures StripesOnDistinctPvs(plan[k]) {
      if k > 0 { assert plan[k] == tail[k - 1]; }
    }
    }
  }

  /**
   * One pass of the loop of _alloc_striped: collect the head areas, give up
   * when fewer than `stripes` maps have one or (corrected) when less than one
   * extent per stripe is still needed, otherwise sort them biggest first and
   * append one striped segment. A round that goes ahead always advances.
   */
  method StripedRound(lv: LogicalVolume, pvms: seq<PvAreas>, index: nat, stripes: nat, ghost pvCount: nat)
    returns (ok: bool, index': nat, pvms': seq<PvAreas>)
    requires stripes > 1 && index < lv.leCount && MapOk(pvms, pvCount)
    modifies lv`segments
    ensures !ok ==> lv.segments == old(lv.segments) && index' == index && pvms' == pvms
    ensures !ok <==> StripedRoundOf(pvms, index, lv.leCount, stripes).GiveUp?
    ensures ok ==> && lv.segments == old(lv.segments) + [StripedRoundOf(pvms, index, lv.leCount, stripes).seg]
                   && index' == index + StripedRoundOf(pvms, index, lv.leCount, stripes).seg.len
                   && pvms' == StripedRoundOf(pvms, index, lv.leCount, stripes).rest
  {
    var sorted := RoundCandidates(pvms);
    if |sorted| < stripes || lv.leCount - index < stripes {
      RoundDecides(pvms, sorted, index, lv.leCount, stripes, pvCount);
      ok, index', pvms' := false, index, pvms;
    } else {
      index', pvms' := RoundAhead(lv, stripes, sorted, pvms, index, pvCount);
      ok := true;
    }
  }

  /**
   * The rest of a round its guard lets go ahead: the candidates, already in
   * round order, go to _alloc_stripe_area, which appends the round's segment
   * and leaves the round's rest of the map.
   */
  method RoundAhead(lv: LogicalVolume, stripes: nat, sorted: seq<Candidate>, pvms: seq<PvAreas>, index: nat, ghost pvCount: nat)
    returns (index': nat, pvms': seq<PvAreas>)
    requires sorted == RoundOrder(pvms) && DistinctMaps(sorted) && forall k :: 0 <= k < |sorted| ==> IsHead(pvms, sorted[k])
    requires 1 <= stripes <= |sorted| && index <= lv.leCount && stripes <= lv.leCount - index && MapOk(pvms, pvCount)
    modifies lv`segments
    ensures StripedRoundOf(pvms, index, lv.leCount, stripes).Advance?
    ensures && lv.segments == old(lv.segments) + [StripedRoundOf(pvms, index, lv.leCount, stripes).seg]
            && index' == index + StripedRoundOf(pvms, index, lv.leCount, stripes).seg.len
            && pvms' == StripedRoundOf(pvms, index, lv.leCount, stripes).rest
  {
    RoundOrderSorted(pvms);
    WidthFitsChosenAreas(sorted, stripes, lv.leCount - index);
    ghost var before := lv.segments;
    index', pvms' := AllocStripeArea(lv, stripes, sorted, pvms, index, pvCount);
    AheadIsRound(pvms, sorted, index, lv.leCount, stripes, pvCount, before, lv.segments, index', pvms');
  }

  /** The segment and map AllocStripeArea leaves, over the round order, are those of the round. */
  lemma AheadIsRound(pvms: seq<PvAreas>, sorted: seq<Candidate>, at: nat, end: nat, stripes: nat, pvCount: nat,
                     segs: seq<Segment>, segs': seq<Segment>, at': nat, rest: seq<PvAreas>)
    requires sorted == RoundOrder(pvms) && MapOk(pvms, pvCount)
    requires 1 <= stripes <= |sorted| && at <= end && stripes <= end - at
    requires && segs' == segs + [Segment(at, StripeWidth(sorted, stripes, end - at) * stripes, stripes, RoundAreas(pvms, sorted, stripes))]
             && at' == at + StripeWidth(sorted, stripes, end - at) * stripes
             && rest == RoundRest(pvms, sorted, stripes, StripeWidth(sorted, stripes, end - at))
    ensures StripedRoundOf(pvms, at, end, stripes).Advance?
    ensures && segs' == segs + [StripedRoundOf(pvms, at, end, stripes).seg]
            && at' == at + StripedRoundOf(pvms, at, end, stripes).seg.len
            && rest == StripedRoundOf(pvms, at, end, stripes).rest
  {
    RoundDecides(pvms, sorted, at, end, stripes, pvCount);
  }

  /**
   * The guard of a round decides it: it gives up exactly when fewer maps
   * than stripes have a free area or less than one extent per stripe is
   * still wanted; otherwise the width fits every chosen area and the
   * segment AllocStripeArea builds is the one the round appends.
   */
  lemma RoundDecides(pvms: seq<PvAreas>, sorted: seq<Candidate>, at: nat, end: nat, stripes: nat, pvCount: nat)
    requires sorted == RoundOrder(pvms) && 1 <= stripes && at <= end && MapOk(pvms, pvCount)
    ensures StripedRoundOf(pvms, at, end, stripes).GiveUp? <==> |sorted| < stripes || end - at < stripes
    ensures |sorted| >= stripes && end - at >= stripes ==>
              && (forall s :: 0 <= s < stripes ==> StripeWidth(sorted, stripes, end - at) <= sorted[s].area.count)
              && StripedRoundOf(pvms, at, end, stripes)
                 == Advance(Segment(at, StripeWidth(sorted, stripes, end - at) * stripes, stripes, RoundAreas(pvms, sorted, stripes)),
                            RoundRest(pvms, sorted, stripes, StripeWidth(sorted, stripes, end - at)))
  {
    DivZero(end - at, stripes);
    if |sorted| >= stripes {
      var w := StripeWidth(sorted, stripes, end - at);
      assert IsHead(pvms, sorted[stripes - 1]);
      RoundOrderSorted(pvms);
      WidthFitsChosenAreas(sorted, stripes, end - at);
    }
  }

  /**
   * What the loop of _alloc_striped keeps: the segments appended to `start`
   * so far cover [filled, at) in whole rounds taken from `pvms`, leaving
   * `cur`, and followed by the rounds still to come they make up `goal`.
   * Nothing was appended while `at` is still `filled`, and the first round
   * went ahead only if enough maps had a free area.
   */
  ghost predicate Striping(start: seq<Segment>, segs: seq<Segment>, goal: seq<Segment>, filled: nat, at: nat, end: nat,
                           stripes: nat, pvCount: nat, pvms: seq<PvAreas>, cur: seq<PvAreas>)
  {
    && 1 <= stripes && filled <= at <= end && |cur| == |pvms|
    && Extended(start, segs, filled, at, stripes, pvCount, pvms, cur)
    && (at - filled) % stripes == 0
    && (at == filled ==> cur == pvms && segs == start)
    && (at > filled ==> NonEmptyCount(pvms) >= stripes)
    && segs + StripedPlan(cur, at, end, stripes) == goal
  }

  /**
   * _alloc_striped, corrected: rounds of StripedRound until the LV is
   * complete. Success needs what was still wanted to be a multiple of the
   * stripe count, since every round advances by one.
   */
  method AllocStriped(lv: LogicalVolume, pvms: seq<PvAreas>, filled: nat, stripes: nat, ghost pvCount: nat)
    returns (ok: bool, filled': nat, pvms': seq<PvAreas>)
    requires stripes > 1 && filled <= lv.leCount && MapOk(pvms, pvCount)
    modifies lv`segments
    ensures filled <= filled' <= lv.leCount && |pvms'| == |pvms|
    ensures Extended(old(lv.segments), lv.segments, filled, filled', stripes, pvCount, pvms, pvms')
    ensures ok <==> filled' == lv.leCount
    ensures ok ==> (lv.leCount - filled) % stripes == 0
    ensures filled < lv.leCount && NonEmptyCount(pvms) < stripes ==> !ok && lv.segments == old(lv.segments)
    ensures !ok ==> NonEmptyCount(pvms') < stripes || lv.leCount - filled' < stripes
    ensures lv.segments == old(lv.segments) + StripedPlan(pvms, filled, lv.leCount, stripes)
    ensures ok <==> StripedFits(pvms, filled, lv.leCount, stripes)
  {
    ghost var start := lv.segments;
    var end := lv.leCount;
    ghost var goal := start + StripedPlan(pvms, filled, end, stripes);
    pvms' := pvms;
    filled' := filled;
    assert lv.segments[|start|..] == [];
    while filled' != end
      invariant Striping(start, lv.segments, goal, filled, filled', end, stripes, pvCount, pvms, pvms')
      decreases end - filled'
    {
      ghost var segs, mid, at := lv.segments, pvms', filled';
      var advanced;
      advanced, filled', pvms' := StripedRound(lv, pvms', filled', stripes, pvCount);
      if !advanced {
        StripedExit(start, lv.segments, goal, filled, filled', end, stripes, pvCount, pvms, pvms');
        return false, filled', pvms';
      }
      StripedStep(start, segs, lv.segments, goal, filled, at, filled', end, stripes, pvCount, pvms, mid, pvms');
    }
    StripedExit(start, lv.segments, goal, filled, filled', end, stripes, pvCount, pvms, pvms');
    ok := true;
  }

  /** A round that goes ahead keeps what the striped loop maintains, and moves its segment from the plan onto the LV. */
  lemma StripedStep(start: seq<Segment>, segs: seq<Segment>, segs': seq<Segment>, goal: seq<Segment>,
                    filled: nat, at: nat, at': nat, end: nat, stripes: nat, pvCount: nat,
                    pvms: seq<PvAreas>, mid: seq<PvAreas>, next: seq<PvAreas>)
    requires Striping(start, segs, goal, filled, at, end, stripes, pvCount, pvms, mid)
    requires StripedRoundOf(mid, at, end, stripes).Advance?
    requires && segs' == segs + [StripedRoundOf(mid, at, end, stripes).seg]
             && at' == at + StripedRoundOf(mid, at, end, stripes).seg.len
             && next == StripedRoundOf(mid, at, end, stripes).rest
    ensures at < at'
    ensures Striping(start, segs', goal, filled, at', end, stripes, pvCount, pvms, next)
  {
    var seg := StripedRoundOf(mid, at, end, stripes).seg;
    assert StripedRoundOf(mid, at, end, stripes) == Advance(seg, next);
    RoundGivesUp(mid, at, end, stripes, pvCount);
    RoundExtends(start, segs, filled, at, end, stripes, pvCount, pvms, mid, seg, next);
    assert segs' == segs + [seg] && at' == at + seg.len;
    ModStep(filled, at, seg.len, at', stripes);
    PlanAdvance(segs, segs', seg, mid, next, at, at', end, stripes, goal);
  }

  /** The segment of a round that goes ahead extends the LV by a positive multiple of the stripes, taken from the map. */
  lemma RoundExtends(start: seq<Segment>, segs: seq<Segment>, filled: nat, at: nat, end: nat, stripes: nat, pvCount: nat,
                     pvms: seq<PvAreas>, mid: seq<PvAreas>, seg: Segment, next: seq<PvAreas>)
    requires 1 <= stripes && at <= end
    requires Extended(start, segs, filled, at, stripes, pvCount, pvms, mid)
    requires StripedRoundOf(mid, at, end, stripes) == Advance(seg, next)
    ensures 0 < seg.len && at + seg.len <= end && seg.len % stripes == 0 && |next| == |mid|
    ensures Extended(start, segs + [seg], filled, at + seg.len, stripes, pvCount, pvms, next)
  {
    RoundShape(mid, at, end, stripes);
    RoundKeeps(mid, at, end, stripes, pvCount);
    ExtendByOne(start, segs, seg, filled, at, stripes, pvCount, pvms, mid, next);
  }

  /** A round that goes ahead moves its segment from the plan onto the segments appended so far. */
  lemma PlanAdvance(segs: seq<Segment>, segs': seq<Segment>, seg: Segment, mid: seq<PvAreas>, next: seq<PvAreas>,
                    at: nat, at': nat, end: nat, stripes: nat, goal: seq<Segment>)
    requires 1 <= stripes && at <= end
    requires StripedRoundOf(mid, at, end, stripes) == Advance(seg, next)
    requires segs + StripedPlan(mid, at, end, stripes) == goal
    requires segs' == segs + [seg] && at' == at + seg.len
    ensures at' <= end
    ensures segs' + StripedPlan(next, at', end, stripes) == goal
  {
    StripedPlanStep(mid, at, end, stripes);
    MoveHead(segs, seg, StripedPlan(next, at', end, stripes), StripedPlan(mid, at, end, stripes), goal);
  }

  lemma MoveHead(segs: seq<Segment>, seg: Segment, tail: seq<Segment>, plan: seq<Segment>, goal: seq<Segment>)
    requires plan == [seg] + tail && segs + plan == goal
    ensures (segs + [seg]) + tail == goal
  {
    assert (segs + [seg]) + tail == segs + ([seg] + tail);
  }

  /**
   * The striped loop stops when the LV is complete or a round gives up;
   * either way no round is left in the plan, so the segments appended are
   * the whole plan, and the plan fits exactly when the LV is complete. A
   * round gives up only for want of maps with a free area or of extents for
   * one more round, and with too few maps at the start nothing is appended.
   */
  lemma StripedExit(start: seq<Segment>, segs: seq<Segment>, goal: seq<Segment>, filled: nat, at: nat, end: nat,
                    stripes: nat, pvCount: nat, pvms: seq<PvAreas>, cur: seq<PvAreas>)
    requires Striping(start, segs, goal, filled, at, end, stripes, pvCount, pvms, cur)
    requires goal == start + StripedPlan(pvms, filled, end, stripes)
    requires at == end || StripedRoundOf(cur, at, end, stripes).GiveUp?
    ensures filled <= at <= end && |cur| == |pvms|
    ensures Extended(start, segs, filled, at, stripes, pvCount, pvms, cur)
    ensures at == end ==> (end - filled) % stripes == 0
    ensures filled < end && NonEmptyCount(pvms) < stripes ==> at != end && segs == start
    ensures at != end ==> NonEmptyCount(cur) < stripes || end - at < stripes
    ensures segs == start + StripedPlan(pvms, filled, end, stripes)
    ensures at == end <==> StripedFits(pvms, filled, end, stripes)
  {
    if at == end {
      StripedPlanDone(cur, end, stripes);
    } else {
      StripedPlanStep(cur, at, end, stripes);
      RoundGivesUp(cur, at, end, stripes, pvCount);
    }
    assert segs == goal;
    assert segs[|start|..] == StripedPlan(pvms, filled, end, stripes);
  }

  /** The places the linear policy of `status` offers: the head areas for contiguous, every area for simple. */
  function LinearPlaces(status: set<StatusFlag>, pvms: seq<PvAreas>): seq<Placed>
  {
    if ContiguousAlloc in status then Heads(pvms)
    else if SimpleAlloc in status then AllAreas(pvms)
    else []
  }

  /** A linear allocation of `need` extents can succeed: the LV has a policy flag, and its places hold enough. */
  ghost predicate LinearFits(status: set<StatusFlag>, pvms: seq<PvAreas>, need: nat)
  {
    (ContiguousAlloc in status || SimpleAlloc in status) && need <= PlacedTotal(LinearPlaces(status, pvms))
  }

  /**
   * Why an allocation of `need` extents, of which `got` were placed before
   * it stopped, failed: striping ran out of maps with a free area or of
   * whole rounds still to fill, and a linear policy found too little in the
   * places it offers (or the LV has no policy flag).
   */
  ghost predicate GaveUp(status: set<StatusFlag>, stripes: nat, pvms: seq<PvAreas>, need: nat, got: nat, rest: seq<PvAreas>)
  {
    if stripes > 1 then NonEmptyCount(rest) < stripes || need < got + stripes
    else !LinearFits(status, pvms, need)
  }

  /**
   * The segments the policy of _allocate appends for the extents `at` ..
   * `end` - 1: the striped rounds when `stripes > 1`, else the linear walk
   * over the places of the LV's contiguous or simple policy.
   */
  ghost function PolicyPlan(status: set<StatusFlag>, stripes: nat, pvms: seq<PvAreas>, at: nat, end: nat): seq<Segment>
    requires at <= end
  {
    if stripes > 1 then StripedPlan(pvms, at, end, stripes) else LinearPlan(LinearPlaces(status, pvms), at, end)
  }

  /** The policy of _allocate can place all of the extents `at` .. `end` - 1. */
  ghost predicate PolicyFits(status: set<StatusFlag>, stripes: nat, pvms: seq<PvAreas>, at: nat, end: nat)
    requires at <= end
  {
    if stripes > 1 then StripedFits(pvms, at, end, stripes) else LinearFits(status, pvms, end - at)
  }

  /**
   * The policy choice of _allocate: striped rounds when `stripes > 1`, else
   * the contiguous or the simple policy as the LV's status asks; with neither
   * flag set nothing is allocated. The caller puts the segment list back on
   * failure. `reached` is where the appended segments end, `rest` what is
   * left of the map.
   */
  method AllocateWithPolicy(lv: LogicalVolume, pvms: seq<PvAreas>, filled: nat, stripes: nat, ghost pvCount: nat)
    returns (ok: bool, reached: nat, rest: seq<PvAreas>)
    requires filled <= lv.leCount && MapOk(pvms, pvCount)
    modifies lv`segments
    ensures filled <= reached <= lv.leCount
    ensures Extended(old(lv.segments), lv.segments, filled, reached, if stripes > 1 then stripes else 1, pvCount, pvms, rest)
    ensures ok <==> reached == lv.leCount && (stripes > 1 || ContiguousAlloc in lv.status || SimpleAlloc in lv.status)
    ensures ok && stripes > 1 ==> (lv.leCount - filled) % stripes == 0
    ensures ok && stripes <= 1 && ContiguousAlloc in lv.status ==> |lv.segments| - |old(lv.segments)| <= |pvms|
    ensures lv.segments == old(lv.segments) + PolicyPlan(lv.status, stripes, pvms, filled, lv.leCount)
    ensures ok <==> PolicyFits(lv.status, stripes, pvms, filled, lv.leCount)
    ensures stripes > 1 && DistinctPvs(pvms) ==> AllOnDistinctPvs(lv.segments[|old(lv.segments)|..])
    ensures !ok ==> GaveUp(lv.status, stripes, pvms, lv.leCount - filled, reached - filled, rest)
  {
    if stripes > 1 {
      ghost var before := lv.segments;
      ok, reached, rest := AllocStriped(lv, pvms, filled, stripes, pvCount);
      assert lv.segments[|before|..] == StripedPlan(pvms, filled, lv.leCount, stripes);
    } else if ContiguousAlloc in lv.status {
      ok, reached, rest := AllocContiguous(lv, pvms, filled, pvCount);
    } else if SimpleAlloc in lv.status {
      ok, reached, rest := AllocSimple(lv, pvms, filled, pvCount);
    } else {
      assert lv.segments[|lv.segments|..] == [];
      ok, reached, rest := false, filled, pvms;
    }
  }
}

=== FILE: lv_manip.dfy ===
/**
 * The volume group side of lib/metadata/lv_manip.c: per-PV extent counters,
 * the free-extent count, and the logical volumes, kept consistent by
 * _get_extents/_put_extents, _allocate, lv_create, lv_extend, lv_reduce and
 * lv_remove.
 */
module LvManip {
  import opened Wrappers
  import opened Segments
  import opened Chains
  import opened PvMap
  import opened AreaSort
  import opened LvNames
  import opened LvAlloc

  /** The size, in sectors, of `le` extents of `extentSize` sectors each, one extent at a time. */
  function Sectors(le: nat, extentSize: nat): nat
  {
    if le == 0 then 0 else Sectors(le - 1, extentSize) + extentSize
  }

  /** Growing by `more` extents grows the size by `more` times the extent size. */
  lemma {:induction false} SectorsGrow(le: nat, more: nat, extentSize: nat)
    ensures Sectors(le + more, extentSize) == Sectors(le, extentSize) + more * extentSize
  {
    if more > 0 {
      SectorsGrow(le, more - 1, extentSize);
      assert (more - 1) * extentSize + extentSize == more * extentSize;
    }
  }

  /** le_count * extent_size, the size in sectors that lv_reduce stores: the same as counting extent by extent. */
  function SizeOf(le: nat, extentSize: nat): (s: nat)
    ensures s == Sectors(le, extentSize)
  {
    SectorsGrow(0, le, extentSize);
    le * extentSize
  }

  /**
   * A logical volume's segment chain covers its extents 0 .. leCount - 1 in
   * order with well-formed segments, and its size matches its extent count.
   */
  ghost predicate ChainOk(segs: seq<Segment>, leCount: nat, size: nat, extentSize: nat, pvCount: nat)
  {
    && ChainFrom(segs, 0)
    && TotalLen(segs) == leCount
    && size == Sectors(leCount, extentSize)
    && AllWellFormed(segs, pvCount)
  }

  /** The names of `lvs`, in list order. */
  function Names(lvs: seq<LogicalVolume>): seq<string>
  {
    seq(|lvs|, i requires 0 <= i < |lvs| => lvs[i].name)
  }

  /**
   * The name lv_create gives a volume: the one asked for, else a generated
   * "lvol<N>" name that no volume in `taken` has, numbered one above the
   * highest "lvol<N>" there.
   */
  predicate NamedAsAsked(lvName: Option<string>, name: string, taken: seq<string>)
  {
    if lvName.Some? then name == lvName.value
    else name !in taken && ParseLvol(name) == Some(MaxIndex(LvolIndices(taken)) + 1)
  }

  /** lv_create cannot name the volume: none was given, and the next "lvol<N>" name does not fit the name buffer. */
  predicate NameBlocked(lvName: Option<string>, taken: seq<string>)
  {
    lvName.None? && |LvolName(MaxIndex(LvolIndices(taken)) + 1)| >= NameBufferSize
  }

  /** `now` is `start` with what `segs` reserve on each PV given back. */
  ghost predicate GaveBack(now: seq<nat>, start: seq<nat>, segs: seq<Segment>)
  {
    |now| == |start| && forall p :: 0 <= p < |start| ==> now[p] + Usage(segs, p) == start[p]
  }

  /** The PV counters went from `start` to `now` as a chain went from `before` to `after`. */
  ghost predicate Moved(now: seq<nat>, start: seq<nat>, before: seq<Segment>, after: seq<Segment>)
  {
    |now| == |start| && forall p :: 0 <= p < |start| ==> now[p] + Usage(before, p) == start[p] + Usage(after, p)
  }

  /** Why lv_create gave no logical volume, or the one it made. */
  datatype CreateOutcome =
    | Created(lv: LogicalVolume)
    | NoExtents
    | InsufficientFree
    | TooManyLvs
    | NameUnavailable
    | AllocationFailed

  /** The free counters cover the charges of segments taken from a map that fits them. */
  lemma ChargeFits(peCount: seq<nat>, peAllocated: seq<nat>, freeCount: nat,
                   pvms: seq<PvAreas>, rest: seq<PvAreas>, added: seq<Segment>)
    requires |peAllocated| == |peCount| && freeCount + Sum(peAllocated) == Sum(peCount)
    requires Fits(pvms, peCount, peAllocated)
    requires Conserves(added, pvms, rest) && AllWellFormed(added, |peCount|)
    ensures forall p :: 0 <= p < |peCount| ==> AllCharged(peAllocated, added)[p] <= peCount[p]
    ensures Sum(AllCharged(peAllocated, added)) == Sum(peAllocated) + TotalLen(added)
    ensures TotalLen(added) <= freeCount
  {
    AllChargedSum(peAllocated, added);
    forall p | 0 <= p < |peCount| ensures AllCharged(peAllocated, added)[p] <= peCount[p] {
      assert Usage(added, p) + MapTotal(rest, p) == MapTotal(pvms, p);
    }
    SumMono(AllCharged(peAllocated, added), peCount);
  }

  class VolumeGroup {
    const name: string
    const extentSize: nat
    const maxLv: nat
    /** Physical extents of each PV, by PV index. */
    const peCount: seq<nat>
    /** Extents of each PV reserved by some segment. */
    var peAllocated: seq<nat>
    var freeCount: nat
    var lvCount: nat
    var lvs: seq<LogicalVolume>
    /** The segment chain of each logical volume, in list order. */
    ghost var chains: seq<seq<Segment>>

    /** The counters agree: nothing over-allocated, and free plus allocated is everything. */
    ghost predicate Accounting()
      reads this
    {
      && |peAllocated| == |peCount|
      && (forall p :: 0 <= p < |peCount| ==> peAllocated[p] <= peCount[p])
      && freeCount + Sum(peAllocated) == Sum(peCount)
    }


    ghost predicate Valid()
      reads this, lvs
    {
      && Accounting()
      && lvCount == |lvs| == |chains| && |lvs| <= maxLv
      && (forall i, j :: 0 <= i < j < |lvs| ==> lvs[i] != lvs[j])
      && (forall i :: 0 <= i < |lvs| ==> lvs[i].segments == chains[i] && ChainOk(chains[i], lvs[i].leCount, lvs[i].size, extentSize, |peCount|))
      && (forall p {:trigger LvsUsage(chains, p)} :: 0 <= p < |peCount| ==> peAllocated[p] == LvsUsage(chains, p))
    }

    /** A volume group with no logical volumes and every extent free. */
    constructor (name: string, extentSize: nat, maxLv: nat, peCount: seq<nat>)
      ensures Valid()
      ensures this.name == name && this.extentSize == extentSize && this.maxLv == maxLv && this.peCount == peCount
      ensures lvs == [] && freeCount == Sum(peCount)
    {
      this.name := name;
      this.extentSize := extentSize;
      this.maxLv := maxLv;
      this.peCount := peCount;
      peAllocated := seq(|peCount|, _ => 0);
      freeCount := Sum(peCount);
      lvCount := 0;
      lvs := [];
      chains := [];
      new;
      SumZeros(|peCount|);
    }

    /** _get_extents: every stripe of `seg` charges its PV with the segment's width. */
    method GetExtents(seg: Segment)
      requires |seg.areas| == seg.stripes
      requires forall s :: 0 <= s < |seg.areas| ==> seg.areas[s].pv < |peAllocated|
      modifies this`peAllocated
      ensures peAllocated == Charged(old(peAllocated), seg.areas, Width(seg))
    {
      var s := 0;
      assert Charged(peAllocated, seg.areas[..0], Width(seg)) == peAllocated;
      while s < seg.stripes
        invariant 0 <= s <= seg.stripes
        invariant peAllocated == Charged(old(peAllocated), seg.areas[..s], Width(seg))
      {
        ModBelow(s, seg.stripes);
        var pv := seg.areas[s % seg.stripes].pv;
        var count := seg.len / seg.stripes;
        assert count == Width(seg);
        assert seg.areas[..s + 1][..s] == seg.areas[..s];
        ChargedStep(old(peAllocated), seg.areas[..s + 1], Width(seg));
        peAllocated := peAllocated[pv := peAllocated[pv] + count];
        s := s + 1;
      }
      assert seg.areas[..s] == seg.areas;
    }

    /**
     * _put_extents: every stripe of `seg` gives its width back to its PV; the
     * counters must hold at least that much, as the source asserts.
     */
    method PutExtents(seg: Segment)
      requires |seg.areas| == seg.stripes
      requires forall s :: 0 <= s < |seg.areas| ==> seg.areas[s].pv < |peAllocated|
      requires forall p :: 0 <= p < |peAllocated| ==> peAllocated[p] >= Width(seg) * CountPv(seg.areas, p)
      modifies this`peAllocated
      ensures peAllocated == Uncharged(old(peAllocated), seg.areas, Width(seg))
    {
      ghost var w := Width(seg);
      ghost var start := peAllocated;
      var s := 0;
      assert Uncharged(start, seg.areas[..0], w) == start;
      while s < seg.stripes
        invariant 0 <= s <= seg.stripes
        invariant forall p :: 0 <= p < |start| ==> start[p] >= w * CountPv(seg.areas[..s], p)
        invariant peAllocated == Uncharged(start, seg.areas[..s], w)
      {
        ModBelow(s, seg.stripes);
        var pv := seg.areas[s % seg.stripes].pv;
        var count := seg.len / seg.stripes;
        assert count == w;
        var prefix := seg.areas[..s + 1];
        assert prefix[..s] == seg.areas[..s];
        UnchargePrefix(start, seg.areas, s + 1, w);
        UnchargedStep(start, prefix, w);
        LowerAt(peAllocated, Uncharged(start, prefix, w), pv, w);
        peAllocated := peAllocated[pv := peAllocated[pv] - count];
        s := s + 1;
      }
      assert seg.areas[..s] == seg.areas;
    }

    /** The loop of _allocate over the new segments `segs[from..]`, last to first, charging each. */
    method ChargeSegments(segs: seq<Segment>, from: nat)
      requires from <= |segs| && AllWellFormed(segs[from..], |peAllocated|)
      modifies this`peAllocated
      ensures peAllocated == AllCharged(old(peAllocated), segs[from..])
    {
      var i := |segs|;
      assert segs[i..] == [];
      assert AllCharged(peAllocated, []) == peAllocated;
      while i > from
        invariant from <= i <= |segs|
        invariant peAllocated == AllCharged(old(peAllocated), segs[i..])
      {
        i := i - 1;
        var seg := segs[i];
        assert seg == segs[from..][i - from];
        assert segs[i..] == [seg] + segs[i + 1..];
        AllChargedPrepend(old(peAllocated), seg, segs[i + 1..]);
        GetExtents(seg);
      }
    }

    /** The loop of lv_remove: every segment of the chain, in order, gives its extents back. */
    method PutSegments(segs: seq<Segment>)
      requires AllWellFormed(segs, |peAllocated|)
      requires forall p :: 0 <= p < |peAllocated| ==> peAllocated[p] >= Usage(segs, p)
      modifies this`peAllocated
      ensures GaveBack(peAllocated, old(peAllocated), segs)
      ensures Sum(peAllocated) + TotalLen(segs) == Sum(old(peAllocated))
    {
      var i := 0;
      assert segs[..0] == [];
      while i < |segs|
        invariant 0 <= i <= |segs|
        invariant GaveBack(peAllocated, old(peAllocated), segs[..i])
        invariant Sum(peAllocated) + TotalLen(segs[..i]) == Sum(old(peAllocated))
      {
        var seg := segs[i];
        assert WellFormed(seg, |peAllocated|);
        forall p | 0 <= p < |peAllocated| ensures peAllocated[p] >= SegUsage(seg, p) {
          UsagePrefix(segs, i + 1, p);
          GaveBackStep(peAllocated, old(peAllocated), segs, i, p);
        }
        WidthTimesStripes(seg);
        UnchargedSum(peAllocated, seg.areas, Width(seg));
        GaveBackNext(peAllocated, old(peAllocated), segs, i);
        PutExtents(seg);
        i := i + 1;
      }
      assert segs[..i] == segs;
    }

    /**
     * The success branch of _allocate: the free count drops by the `count`
     * new extents and every new segment `segs[from..]` is charged to its PVs.
     */
    method ChargeNew(segs: seq<Segment>, from: nat, count: nat, ghost pvms: seq<PvAreas>, ghost rest: seq<PvAreas>)
      requires Accounting() && Fits(pvms, peCount, peAllocated) && from <= |segs|
      requires Conserves(segs[from..], pvms, rest) && AllWellFormed(segs[from..], |peCount|) && TotalLen(segs[from..]) == count
      modifies this`peAllocated, this`freeCount
      ensures Accounting()
      ensures peAllocated == AllCharged(old(peAllocated), segs[from..])
      ensures freeCount + count == old(freeCount)
    {
      ChargeFits(peCount, peAllocated, freeCount, pvms, rest, segs[from..]);
      freeCount := freeCount - count;
      ChargeSegments(segs, from);
    }

    /**
     * _allocate: extend the segments of `lv` from logical extent `filled` to
     * its end, by striping when `stripes > 1`, else by its contiguous or
     * simple policy. On success the new segments are charged to their PVs
     * and to the free count; on failure the segment list is put back, and
     * `reached` and `rest` say how far the policy got and what it left of
     * the map when it gave up.
     */
    method Allocate(lv: LogicalVolume, pvms: seq<PvAreas>, filled: nat, stripes: nat)
      returns (ok: bool, ghost reached: nat, ghost rest: seq<PvAreas>)
      requires Accounting() && Fits(pvms, peCount, peAllocated)
      requires filled <= lv.leCount
      modifies this`peAllocated, this`freeCount, lv`segments
      ensures Accounting() && filled <= reached <= lv.leCount
      ensures ok ==> Appended(old(lv.segments), lv.segments, filled, lv.leCount, |peCount|)
      ensures ok ==> peAllocated == AllCharged(old(peAllocated), lv.segments[|old(lv.segments)|..])
      ensures ok ==> freeCount + lv.leCount == old(freeCount) + filled
      ensures ok ==> AllStripes(lv.segments[|old(lv.segments)|..], if stripes > 1 then stripes else 1)
      ensures ok && stripes > 1 ==> (lv.leCount - filled) % stripes == 0
      ensures ok && stripes <= 1 ==> ContiguousAlloc in lv.status || SimpleAlloc in lv.status
      ensures ok && stripes <= 1 && ContiguousAlloc in lv.status ==> |lv.segments| - |old(lv.segments)| <= |pvms|
      ensures ok ==> lv.segments == old(lv.segments) + PolicyPlan(lv.status, stripes, pvms, filled, lv.leCount)
      ensures ok && stripes > 1 ==> AllOnDistinctPvs(lv.segments[|old(lv.segments)|..])
      ensures ok <==> PolicyFits(lv.status, stripes, pvms, filled, lv.leCount)
      ensures !ok ==> GaveUp(lv.status, stripes, pvms, lv.leCount - filled, reached - filled, rest)
      ensures !ok ==> lv.segments == old(lv.segments) && peAllocated == old(peAllocated) && freeCount == old(freeCount)
    {
      var before := lv.segments;
      var r, at, left := AllocateWithPolicy(lv, pvms, filled, stripes, |peCount|);
      reached, rest := at, left;
      if r {
        ChargeNew(lv.segments, |before|, lv.leCount - filled, pvms, left);
      } else {
        lv.segments := before;
      }
      ok := r;
    }

    /**
     * _generate_lv_name: "lvol" and one more than the highest number any
     * "lvol<N>" name of the group carries; nothing when that does not fit the
     * 32-byte name buffer.
     */
    method GenerateLvName() returns (generated: Option<string>)
      ensures generated.Some? ==> generated.value !in Names(lvs)
      ensures generated.Some? ==> ParseLvol(generated.value) == Some(MaxIndex(LvolIndices(Names(lvs))) + 1)
      ensures generated.None? <==> |LvolName(MaxIndex(LvolIndices(Names(lvs))) + 1)| >= NameBufferSize
    {
      var names := Names(lvs);
      ghost var indices := LvolIndices(names);
      var high := -1;
      var i := 0;
      while i < |names|
        invariant 0 <= i <= |names|
        invariant high == MaxIndex(indices[..i])
      {
        MaxIndexStep(indices, i);
        var parsed := ParseLvol(names[i]);
        if parsed.Some? && parsed.value > high {
          high := parsed.value;
        }
        i := i + 1;
      }
      assert indices[..i] == indices;
      var candidate := LvolName(high + 1);
      if |candidate| >= NameBufferSize {
        return None;
      }
      GeneratedNameFresh(names);
      ParseLvolName(high + 1);
      generated := Some(candidate);
    }

    /**
     * lv_create: refuse zero extents, more extents than are free, and a full
     * group; name the volume (generating a name when none is given); then
     * allocate all its extents and add it to the group. When the allocation
     * fails, `got` and `rest` say how far it got and what it left of the map.
     */
    method LvCreate(lvName: Option<string>, status: set<StatusFlag>, stripes: nat, extents: nat, pvms: seq<PvAreas>)
      returns (result: CreateOutcome, ghost got: nat, ghost rest: seq<PvAreas>)
      requires Valid() && Fits(pvms, peCount, peAllocated)
      modifies this
      ensures Valid()
      ensures result == NoExtents <==> extents == 0
      ensures result == InsufficientFree <==> 0 < extents && old(freeCount) < extents
      ensures result == TooManyLvs <==> 0 < extents <= old(freeCount) && old(lvCount) == maxLv
      ensures result == NameUnavailable <==>
        0 < extents <= old(freeCount) && old(lvCount) < maxLv && NameBlocked(lvName, Names(old(lvs)))
      ensures result == AllocationFailed ==> GaveUp(status, stripes, pvms, extents, got, rest)
      ensures 0 < extents <= old(freeCount) && old(lvCount) < maxLv && !NameBlocked(lvName, Names(old(lvs))) ==>
        (result.Created? <==> PolicyFits(status, stripes, pvms, 0, extents))
      ensures result.Created? ==>
        && fresh(result.lv) && lvs == old(lvs) + [result.lv] && lvCount == old(lvCount) + 1
        && result.lv.leCount == extents && result.lv.size == extents * extentSize && result.lv.status == status
        && freeCount == old(freeCount) - extents
        && Appended([], result.lv.segments, 0, extents, |peCount|)
        && peAllocated == AllCharged(old(peAllocated), result.lv.segments)
        && NamedAsAsked(lvName, result.lv.name, Names(old(lvs)))
        && result.lv.segments == PolicyPlan(status, stripes, pvms, 0, extents)
      ensures !result.Created? ==>
        lvs == old(lvs) && lvCount == old(lvCount) && freeCount == old(freeCount) && peAllocated == old(peAllocated)
    {
      got, rest := 0, pvms;
      if extents == 0 {
        return NoExtents, got, rest;
      }
      if freeCount < extents {
        return InsufficientFree, got, rest;
      }
      if maxLv == lvCount {
        return TooManyLvs, got, rest;
      }
      result, got, rest := NameAndCreate(lvName, status, stripes, extents, pvms);
    }

    /** The rest of lv_create once the checks pass: name the volume, then make it. */
    method NameAndCreate(lvName: Option<string>, status: set<StatusFlag>, stripes: nat, extents: nat, pvms: seq<PvAreas>)
      returns (result: CreateOutcome, ghost got: nat, ghost rest: seq<PvAreas>)
      requires Valid() && Fits(pvms, peCount, peAllocated) && lvCount < maxLv
      modifies this
      ensures Valid()
      ensures result.Created? || result == NameUnavailable || result == AllocationFailed
      ensures result == NameUnavailable <==> NameBlocked(lvName, Names(old(lvs)))
      ensures result == AllocationFailed ==> GaveUp(status, stripes, pvms, extents, got, rest)
      ensures !NameBlocked(lvName, Names(old(lvs))) ==> (result.Created? <==> PolicyFits(status, stripes, pvms, 0, extents))
      ensures result.Created? ==>
        && fresh(result.lv) && lvs == old(lvs) + [result.lv] && lvCount == old(lvCount) + 1
        && result.lv.leCount == extents && result.lv.size == extents * extentSize && result.lv.status == status
        && freeCount == old(freeCount) - extents
        && Appended([], result.lv.segments, 0, extents, |peCount|)
        && peAllocated == AllCharged(old(peAllocated), result.lv.segments)
        && NamedAsAsked(lvName, result.lv.name, Names(old(lvs)))
        && result.lv.segments == PolicyPlan(status, stripes, pvms, 0, extents)
      ensures !result.Created? ==>
        lvs == old(lvs) && lvCount == old(lvCount) && freeCount == old(freeCount) && peAllocated == old(peAllocated)
    {
      got, rest := 0, pvms;
      var chosen := ChooseName(lvName);
      if chosen.None? {
        return NameUnavailable, got, rest;
      }
      result, got, rest := CreateNamed(chosen.value, status, stripes, extents, pvms);
    }

    /** The naming step of lv_create: the name given, else a generated "lvol<N>" name, else nothing. */
    method ChooseName(lvName: Option<string>) returns (chosen: Option<string>)
      ensures lvName.Some? ==> chosen == lvName
      ensures chosen.Some? ==> NamedAsAsked(lvName, chosen.value, Names(lvs))
      ensures chosen.None? <==> NameBlocked(lvName, Names(lvs))
    {
      if lvName.Some? {
        chosen := lvName;
      } else {
        chosen := GenerateLvName();
      }
    }

    /**
     * The second half of lv_create: make the volume, allocate all its extents
     * and add it to the group; when the allocation fails nothing changes.
     */
    method CreateNamed(chosen: string, status: set<StatusFlag>, stripes: nat, extents: nat, pvms: seq<PvAreas>)
      returns (result: CreateOutcome, ghost got: nat, ghost rest: seq<PvAreas>)
      requires Valid() && Fits(pvms, peCount, peAllocated) && lvCount < maxLv
      modifies this
      ensures Valid()
      ensures result.Created? || result == AllocationFailed
      ensures result == AllocationFailed ==> GaveUp(status, stripes, pvms, extents, got, rest)
      ensures result.Created? <==> PolicyFits(status, stripes, pvms, 0, extents)
      ensures result.Created? ==>
        && fresh(result.lv) && lvs == old(lvs) + [result.lv] && lvCount == old(lvCount) + 1
        && result.lv.leCount == extents && result.lv.size == extents * extentSize && result.lv.status == status
        && result.lv.name == chosen
        && freeCount == old(freeCount) - extents
        && Appended([], result.lv.segments, 0, extents, |peCount|)
        && peAllocated == AllCharged(old(peAllocated), result.lv.segments)
        && result.lv.segments == PolicyPlan(status, stripes, pvms, 0, extents)
      ensures !result.Created? ==>
        lvs == old(lvs) && lvCount == old(lvCount) && freeCount == old(freeCount) && peAllocated == old(peAllocated)
    {
      var lv := new LogicalVolume(chosen, status, extents, SizeOf(extents, extentSize));
      var ok;
      ok, got, rest := Allocate(lv, pvms, 0, stripes);
      if !ok {
        return AllocationFailed, got, rest;
      }
      assert lv.segments[0..] == lv.segments;
      assert ChainOk(lv.segments, lv.leCount, lv.size, extentSize, |peCount|);
      forall i | 0 <= i < |lvs|
        ensures lvs[i].segments == chains[i] && ChainOk(chains[i], lvs[i].leCount, lvs[i].size, extentSize, |peCount|)
      {
        assert lvs[i] != lv;
      }
      forall p | 0 <= p < |peCount| ensures peAllocated[p] == LvsUsage(chains, p) + Usage(lv.segments, p) {
      }
      AddLv(lv);
      result := Created(lv);
    }

    /** The tail of lv_create: count the new volume and add it at the end of the list. */
    method AddLv(lv: LogicalVolume)
      requires Accounting() && lvCount == |lvs| == |chains| && |lvs| < maxLv && lv !in lvs
      requires forall i, j :: 0 <= i < j < |lvs| ==> lvs[i] != lvs[j]
      requires forall i :: 0 <= i < |lvs| ==> lvs[i].segments == chains[i] && ChainOk(chains[i], lvs[i].leCount, lvs[i].size, extentSize, |peCount|)
      requires ChainOk(lv.segments, lv.leCount, lv.size, extentSize, |peCount|)
      requires forall p :: 0 <= p < |peCount| ==> peAllocated[p] == LvsUsage(chains, p) + Usage(lv.segments, p)
      modifies this`lvs, this`lvCount, this`chains
      ensures Valid() && lvs == old(lvs) + [lv] && lvCount == old(lvCount) + 1
    {
      forall p | 0 <= p < |peCount| ensures peAllocated[p] == LvsUsage(chains + [lv.segments], p) {
        LvsUsageConcat(chains, [lv.segments], p);
        assert [lv.segments][..0] == [];
      }
      lvCount := lvCount + 1;
      lvs := lvs + [lv];
      chains := chains + [lv.segments];
    }

    /**
     * The body of lv_extend: grow the extent count and size of `lv` by
     * `extents` and allocate the new tail; when the allocation fails, size
     * and extent count go back to what they were.
     */
    method GrowLv(lv: LogicalVolume, stripes: nat, extents: nat, pvms: seq<PvAreas>)
      returns (ok: bool, ghost got: nat, ghost rest: seq<PvAreas>)
      requires Accounting() && Fits(pvms, peCount, peAllocated)
      requires TotalLen(lv.segments) == lv.leCount
      modifies this`peAllocated, this`freeCount, lv`segments, lv`leCount, lv`size
      ensures Accounting()
      ensures ok ==>
        && lv.leCount == old(lv.leCount) + extents && lv.size == old(lv.size) + extents * extentSize
        && Appended(old(lv.segments), lv.segments, old(lv.leCount), lv.leCount, |peCount|)
        && freeCount == old(freeCount) - extents
        && peAllocated == AllCharged(old(peAllocated), lv.segments[|old(lv.segments)|..])
        && lv.segments == old(lv.segments) + PolicyPlan(lv.status, stripes, pvms, old(lv.leCount), lv.leCount)
      ensures ok <==> PolicyFits(lv.status, stripes, pvms, old(lv.leCount), old(lv.leCount) + extents)
      ensures !ok ==> GaveUp(lv.status, stripes, pvms, extents, got, rest)
      ensures !ok ==>
        && lv.leCount == old(lv.leCount) && lv.size == old(lv.size) && lv.segments == old(lv.segments)
        && peAllocated == old(peAllocated) && freeCount == old(freeCount)
    {
      var oldLeCount := lv.leCount;
      var oldSize := lv.size;
      lv.leCount := lv.leCount + extents;
      lv.size := lv.size + extents * extentSize;
      ghost var reached;
      ok, reached, rest := Allocate(lv, pvms, oldLeCount, stripes);
      got := reached - oldLeCount;
      if !ok {
        lv.leCount := oldLeCount;
        lv.size := oldSize;
      }
    }

    /**
     * The bookkeeping after a successful lv_extend: volume `k` now holds the
     * longer chain, and the group is consistent again.
     */
    ghost method CommitGrowth(lv: LogicalVolume, k: nat, before: seq<Segment>, oldLeCount: nat, more: nat, oldSize: nat, oldAllocated: seq<nat>)
      requires Accounting() && lvCount == |lvs| == |chains| && |lvs| <= maxLv
      requires forall i, j :: 0 <= i < j < |lvs| ==> lvs[i] != lvs[j]
      requires k < |lvs| && lvs[k] == lv && chains[k] == before
      requires forall i :: 0 <= i < |lvs| && i != k ==>
        lvs[i].segments == chains[i] && ChainOk(chains[i], lvs[i].leCount, lvs[i].size, extentSize, |peCount|)
      requires ChainOk(before, oldLeCount, oldSize, extentSize, |peCount|)
      requires lv.leCount == oldLeCount + more && Appended(before, lv.segments, oldLeCount, lv.leCount, |peCount|)
      requires lv.size == oldSize + more * extentSize
      requires forall p :: 0 <= p < |oldAllocated| ==> oldAllocated[p] == LvsUsage(chains, p)
      requires peAllocated == AllCharged(oldAllocated, lv.segments[|before|..])
      modifies this`chains
      ensures Valid() && chains == old(chains)[k := lv.segments]
    {
      var added := lv.segments[|before|..];
      assert lv.segments == before + added;
      ExtendedLvOk(before, added, oldLeCount, more, |peCount|);
      SectorsGrow(oldLeCount, more, extentSize);
      assert ChainOk(lv.segments, lv.leCount, lv.size, extentSize, |peCount|);
      ExtendUsage(chains, k, added, oldAllocated, peAllocated);
      chains := chains[k := lv.segments];
      forall i | 0 <= i < |lvs|
        ensures lvs[i].segments == chains[i] && ChainOk(chains[i], lvs[i].leCount, lvs[i].size, extentSize, |peCount|)
      {
      }
    }

    /**
     * lv_extend: the volume grows by `extents` at its end, or stays as it
     * was; `got` and `rest` say how far a failed allocation got.
     */
    method LvExtend(lv: LogicalVolume, stripes: nat, extents: nat, pvms: seq<PvAreas>)
      returns (ok: bool, ghost got: nat, ghost rest: seq<PvAreas>)
      requires Valid() && lv in lvs && Fits(pvms, peCount, peAllocated)
      modifies this, lv
      ensures Valid() && lvs == old(lvs) && lvCount == old(lvCount)
      ensures ok ==>
        && lv.leCount == old(lv.leCount) + extents && lv.size == old(lv.size) + extents * extentSize
        && |old(lv.segments)| <= |lv.segments| && lv.segments[..|old(lv.segments)|] == old(lv.segments)
        && freeCount == old(freeCount) - extents
        && peAllocated == AllCharged(old(peAllocated), lv.segments[|old(lv.segments)|..])
        && lv.segments == old(lv.segments) + PolicyPlan(lv.status, stripes, pvms, old(lv.leCount), lv.leCount)
      ensures ok <==> PolicyFits(lv.status, stripes, pvms, old(lv.leCount), old(lv.leCount) + extents)
      ensures !ok ==> GaveUp(lv.status, stripes, pvms, extents, got, rest)
      ensures !ok ==>
        && lv.leCount == old(lv.leCount) && lv.size == old(lv.size) && lv.segments == old(lv.segments)
        && peAllocated == old(peAllocated) && freeCount == old(freeCount)
    {
      ghost var k :| 0 <= k < |lvs| && lvs[k] == lv;
      ghost var before := lv.segments;
      ghost var oldLeCount := lv.leCount;
      ghost var oldSize := lv.size;
      ok, got, rest := GrowLv(lv, stripes, extents, pvms);
      if ok {
        forall i | 0 <= i < |lvs| && i != k
          ensures lvs[i].segments == chains[i] && ChainOk(chains[i], lvs[i].leCount, lvs[i].size, extentSize, |peCount|)
        {
          assert lvs[i] != lv;
        }
        CommitGrowth(lv, k, before, oldLeCount, extents, oldSize, old(peAllocated));
      }
    }

    /**
     * One pass of the loop of lv_reduce, on the last segment: drop it when it
     * fits in what is still to be cut, else shorten it; either way its
     * extents go back to its PVs first (and the shortened part is charged
     * again).
     */
    method TrimLast(lv: LogicalVolume, count: nat) returns (count': nat)
      requires |peAllocated| == |peCount| && count > 0 && lv.segments != []
      requires ChainFrom(lv.segments, 0) && AllWellFormed(lv.segments, |peCount|)
      requires count <= TotalLen(lv.segments) && ReduceAligned(lv.segments, count)
      requires forall p :: 0 <= p < |peCount| ==> peAllocated[p] >= Usage(lv.segments, p)
      modifies this`peAllocated, lv`segments
      ensures Trim(lv.segments, count') == Trim(old(lv.segments), count)
      ensures ChainFrom(lv.segments, 0) && AllWellFormed(lv.segments, |peCount|)
      ensures count' <= TotalLen(lv.segments) && ReduceAligned(lv.segments, count')
      ensures |lv.segments| + (if count' > 0 then 1 else 0) < |old(lv.segments)| + 1
      ensures |peAllocated| == |peCount|
      ensures Moved(peAllocated, old(peAllocated), old(lv.segments), lv.segments)
      ensures Sum(peAllocated) + (count - count') == Sum(old(peAllocated))
    {
      var last := |lv.segments| - 1;
      var seg := lv.segments[last];
      ghost var init := lv.segments[..last];
      assert lv.segments == init + [seg];
      if seg.len <= count {
        count' := count - seg.len;
        DropLastSegment(lv);
        DropLastKeepsChain(init, seg, count, |peCount|);
      } else {
        assert count % seg.stripes == 0 && WellFormed(seg, |peCount|);
        ShrunkWellFormed(seg, count, |peCount|);
        ShrinkLastSegment(lv, count);
        ShrinkKeepsChain(init, seg, count, |peCount|);
        count' := 0;
      }
    }

    /** lv_reduce on a last segment no longer than what is left to cut: its extents go back and it goes. */
    method DropLastSegment(lv: LogicalVolume)
      requires |peAllocated| == |peCount| && lv.segments != [] && AllWellFormed(lv.segments, |peCount|)
      requires forall p :: 0 <= p < |peCount| ==> peAllocated[p] >= Usage(lv.segments, p)
      modifies this`peAllocated, lv`segments
      ensures lv.segments == old(lv.segments)[..|old(lv.segments)| - 1]
      ensures Moved(peAllocated, old(peAllocated), old(lv.segments), lv.segments)
      ensures forall p :: 0 <= p < |peCount| ==> peAllocated[p] >= Usage(lv.segments, p)
      ensures Sum(peAllocated) + old(lv.segments)[|old(lv.segments)| - 1].len == Sum(old(peAllocated))
    {
      var last := |lv.segments| - 1;
      var seg := lv.segments[last];
      ghost var init := lv.segments[..last];
      assert WellFormed(seg, |peCount|);
      forall p | 0 <= p < |peCount| ensures peAllocated[p] >= SegUsage(seg, p) {
        assert Usage(lv.segments, p) == Usage(init, p) + SegUsage(seg, p);
      }
      WidthTimesStripes(seg);
      UnchargedSum(peAllocated, seg.areas, Width(seg));
      PutExtents(seg);
      lv.segments := lv.segments[..last];
      forall p | 0 <= p < |peCount|
        ensures peAllocated[p] + Usage(old(lv.segments), p) == old(peAllocated)[p] + Usage(lv.segments, p)
      {
        assert Usage(old(lv.segments), p) == Usage(init, p) + SegUsage(seg, p);
      }
    }

    /**
     * lv_reduce on a last segment longer than what is left to cut: its
     * extents go back, it shrinks by `count`, and the shrunk segment's
     * extents are taken again.
     */
    method ShrinkLastSegment(lv: LogicalVolume, count: nat)
      requires |peAllocated| == |peCount| && lv.segments != [] && AllWellFormed(lv.segments, |peCount|)
      requires var seg := lv.segments[|lv.segments| - 1];
        count < seg.len && WellFormed(seg.(len := seg.len - count), |peCount|)
      requires forall p :: 0 <= p < |peCount| ==> peAllocated[p] >= Usage(lv.segments, p)
      modifies this`peAllocated, lv`segments
      ensures var last := |old(lv.segments)| - 1;
        lv.segments == old(lv.segments)[..last] + [old(lv.segments)[last].(len := old(lv.segments)[last].len - count)]
      ensures Moved(peAllocated, old(peAllocated), old(lv.segments), lv.segments)
      ensures forall p :: 0 <= p < |peCount| ==> peAllocated[p] >= Usage(lv.segments, p)
      ensures Sum(peAllocated) + count == Sum(old(peAllocated))
    {
      var last := |lv.segments| - 1;
      var seg := lv.segments[last];
      ghost var init := lv.segments[..last];
      ghost var segsBefore := lv.segments;
      assert WellFormed(seg, |peCount|);
      forall p | 0 <= p < |peCount| ensures peAllocated[p] >= SegUsage(seg, p) {
        assert Usage(lv.segments, p) == Usage(init, p) + SegUsage(seg, p);
      }
      WidthTimesStripes(seg);
      UnchargedSum(peAllocated, seg.areas, Width(seg));
      PutExtents(seg);
      var shrunk := seg.(len := seg.len - count);
      WidthTimesStripes(shrunk);
      ChargedSum(peAllocated, shrunk.areas, Width(shrunk));
      GetExtents(shrunk);
      lv.segments := lv.segments[..last] + [shrunk];
      assert lv.segments == segsBefore[..last] + [segsBefore[last].(len := segsBefore[last].len - count)];
      forall p | 0 <= p < |peCount|
        ensures peAllocated[p] + Usage(old(lv.segments), p) == old(peAllocated)[p] + Usage(lv.segments, p)
             && peAllocated[p] >= Usage(lv.segments, p)
      {
        assert Usage(old(lv.segments), p) == Usage(init, p) + SegUsage(seg, p);
        assert (init + [shrunk])[..last] == init;
        assert Usage(lv.segments, p) == Usage(init, p) + SegUsage(shrunk, p);
      }
    }

    /**
     * The loop of lv_reduce: from the last segment back, drop whole segments
     * while they fit in what is still to be cut, then shorten one; every
     * segment touched gives its extents back to its PVs.
     */
    method TrimSegments(lv: LogicalVolume, extents: nat)
      requires |peAllocated| == |peCount|
      requires ChainFrom(lv.segments, 0) && AllWellFormed(lv.segments, |peCount|)
      requires extents <= TotalLen(lv.segments) && ReduceAligned(lv.segments, extents)
      requires forall p :: 0 <= p < |peCount| ==> peAllocated[p] >= Usage(lv.segments, p)
      modifies this`peAllocated, lv`segments
      ensures lv.segments == Trim(old(lv.segments), extents)
      ensures |peAllocated| == |peCount|
      ensures Moved(peAllocated, old(peAllocated), old(lv.segments), lv.segments)
      ensures Sum(peAllocated) + extents == Sum(old(peAllocated))
    {
      var count: nat := extents;
      while count > 0 && |lv.segments| > 0
        invariant Trim(lv.segments, count) == Trim(old(lv.segments), extents)
        invariant ChainFrom(lv.segments, 0) && AllWellFormed(lv.segments, |peCount|)
        invariant count <= TotalLen(lv.segments) && ReduceAligned(lv.segments, count)
        invariant |peAllocated| == |peCount|
        invariant Moved(peAllocated, old(peAllocated), old(lv.segments), lv.segments)
        invariant forall p :: 0 <= p < |peCount| ==> peAllocated[p] >= Usage(lv.segments, p)
        invariant Sum(peAllocated) + (extents - count) == Sum(old(peAllocated))
        decreases |lv.segments| + (if count > 0 then 1 else 0)
      {
        count := TrimLast(lv, count);
      }
      TrimNothing(lv.segments, count);
    }

    /**
     * The bookkeeping after the loop of lv_reduce: the trimmed volume's chain
     * replaces its old one, and the group is consistent again.
     */
    ghost method CommitTrim(lv: LogicalVolume, k: nat, before: seq<Segment>, extents: nat, oldAllocated: seq<nat>)
      requires |peAllocated| == |peCount| && freeCount + Sum(peAllocated) == Sum(peCount)
      requires lvCount == |lvs| == |chains| && |lvs| <= maxLv
      requires forall i, j :: 0 <= i < j < |lvs| ==> lvs[i] != lvs[j]
      requires k < |lvs| && lvs[k] == lv && chains[k] == before
      requires forall i :: 0 <= i < |lvs| && i != k ==>
        lvs[i].segments == chains[i] && ChainOk(chains[i], lvs[i].leCount, lvs[i].size, extentSize, |peCount|)
      requires ChainFrom(before, 0) && AllWellFormed(before, |peCount|)
      requires extents <= TotalLen(before) && ReduceAligned(before, extents)
      requires lv.segments == Trim(before, extents)
      requires lv.leCount + extents == TotalLen(before) && lv.size == SizeOf(lv.leCount, extentSize)
      requires |oldAllocated| == |peCount|
      requires forall p :: 0 <= p < |peCount| ==> oldAllocated[p] == LvsUsage(chains, p) && oldAllocated[p] <= peCount[p]
      requires Moved(peAllocated, oldAllocated, before, lv.segments)
      modifies this`chains
      ensures Valid() && chains == old(chains)[k := lv.segments]
    {
      TrimKeepsChain(before, extents, 0, |peCount|);
      assert ChainOk(lv.segments, lv.leCount, lv.size, extentSize, |peCount|);
      forall p | 0 <= p < |peCount|
        ensures peAllocated[p] == LvsUsage(chains[k := lv.segments], p) && peAllocated[p] <= peCount[p]
      {
        LvsUsageUpdate(chains, k, lv.segments, p);
        TrimUsage(before, extents, p);
      }
      chains := chains[k := lv.segments];
      forall i | 0 <= i < |lvs|
        ensures lvs[i].segments == chains[i] && ChainOk(chains[i], lvs[i].leCount, lvs[i].size, extentSize, |peCount|)
      {
      }
    }

    /**
     * lv_reduce, corrected: cut `extents` off the end of `lv`, give them back
     * to the PVs and to the group's free count, and shrink the size to match.
     */
    method LvReduce(lv: LogicalVolume, extents: nat) returns (ok: bool)
      requires Valid() && lv in lvs
      requires extents <= lv.leCount && ReduceAligned(lv.segments, extents)
      modifies this, lv
      ensures Valid() && lvs == old(lvs) && lvCount == old(lvCount) && ok
      ensures lv.segments == Trim(old(lv.segments), extents)
      ensures lv.leCount == old(lv.leCount) - extents && lv.size == SizeOf(lv.leCount, extentSize)
      ensures freeCount == old(freeCount) + extents
      ensures Moved(peAllocated, old(peAllocated), old(lv.segments), lv.segments)
    {
      ghost var k :| 0 <= k < |lvs| && lvs[k] == lv;
      ghost var before := lv.segments;
      assert chains[k] == before;
      forall p | 0 <= p < |peCount| ensures peAllocated[p] >= Usage(lv.segments, p) {
        LvsUsageRemove(chains, k, p);
      }
      TrimSegments(lv, extents);
      lv.leCount := lv.leCount - extents;
      lv.size := SizeOf(lv.leCount, extentSize);
      freeCount := freeCount + extents;
      ok := true;
      forall i | 0 <= i < |lvs| && i != k
        ensures lvs[i].segments == chains[i] && ChainOk(chains[i], lvs[i].leCount, lvs[i].size, extentSize, |peCount|)
      {
        assert lvs[i] != lv;
      }
      CommitTrim(lv, k, before, extents, old(peAllocated));
    }

    /**
     * lv_reduce as written: the same cut, but the free count is left alone,
     * so after any real cut the group's counters no longer add up.
     */
    method LvReduceAsWritten(lv: LogicalVolume, extents: nat) returns (ok: bool)
      requires Valid() && lv in lvs
      requires extents <= lv.leCount && ReduceAligned(lv.segments, extents)
      modifies this, lv
      ensures lv.segments == Trim(old(lv.segments), extents)
      ensures lv.leCount == old(lv.leCount) - extents && freeCount == old(freeCount)
      ensures extents > 0 ==> !Accounting()
      ensures ok
    {
      ghost var k :| 0 <= k < |lvs| && lvs[k] == lv;
      assert chains[k] == lv.segments;
      forall p | 0 <= p < |peCount| ensures peAllocated[p] >= Usage(lv.segments, p) {
        LvsUsageRemove(chains, k, p);
      }
      TrimSegments(lv, extents);
      lv.leCount := lv.leCount - extents;
      lv.size := SizeOf(lv.leCount, extentSize);
      ok := true;
    }

    /**
     * lv_remove: give back the extents of every segment of `lv`, return its
     * extent count to the free count and take it out of the group.
     */
    method LvRemove(lv: LogicalVolume) returns (ok: bool)
      requires Valid() && lv in lvs
      modifies this
      ensures Valid() && ok
      ensures exists k :: 0 <= k < |old(lvs)| && old(lvs)[k] == lv && lvs == old(lvs)[..k] + old(lvs)[k + 1..]
      ensures lv !in lvs
      ensures lvCount == old(lvCount) - 1 && freeCount == old(freeCount) + lv.leCount
      ensures GaveBack(peAllocated, old(peAllocated), lv.segments)
    {
      var k :| 0 <= k < |lvs| && lvs[k] == lv;
      assert chains[k] == lv.segments;
      forall p | 0 <= p < |peCount| ensures peAllocated[p] >= Usage(lv.segments, p) {
        LvsUsageRemove(chains, k, p);
      }
      PutSegments(lv.segments);
      forall p | 0 <= p < |peCount| ensures peAllocated[p] == LvsUsage(chains[..k] + chains[k + 1..], p) {
        LvsUsageRemove(chains, k, p);
      }
      freeCount := freeCount + lv.leCount;
      DropLv(k);
      ok := true;
    }

    /** The tail of lv_remove: uncount volume `k` and take it out of the list. */
    method DropLv(k: nat)
      requires Accounting() && lvCount == |lvs| == |chains| && |lvs| <= maxLv && k < |lvs|
      requires forall i, j :: 0 <= i < j < |lvs| ==> lvs[i] != lvs[j]
      requires forall i :: 0 <= i < |lvs| ==> lvs[i].segments == chains[i] && ChainOk(chains[i], lvs[i].leCount, lvs[i].size, extentSize, |peCount|)
      requires forall p :: 0 <= p < |peCount| ==> peAllocated[p] == LvsUsage(chains[..k] + chains[k + 1..], p)
      modifies this`lvs, this`lvCount, this`chains
      ensures Valid() && lvs == old(lvs)[..k] + old(lvs)[k + 1..] && old(lvs)[k] !in lvs && lvCount == old(lvCount) - 1
    {
      RemoveKeepsRest(lvs, chains, k);
      lvCount := lvCount - 1;
      lvs := lvs[..k] + lvs[k + 1..];
      chains := chains[..k] + chains[k + 1..];
      forall i | 0 <= i < |lvs|
        ensures lvs[i].segments == chains[i] && ChainOk(chains[i], lvs[i].leCount, lvs[i].size, extentSize, |peCount|)
      {
        if i >= k {
          assert lvs[i] == old(lvs)[i + 1];
        }
      }
    }
  }

  /** An LV whose chain was extended by a chain that starts where it ended is still well formed. */
  lemma ExtendedLvOk(before: seq<Segment>, added: seq<Segment>, oldLeCount: nat, extents: nat, pvCount: nat)
    requires ChainFrom(before, 0) && TotalLen(before) == oldLeCount && AllWellFormed(before, pvCount)
    requires Appended(before, before + added, oldLeCount, oldLeCount + extents, pvCount)
    ensures ChainFrom(before + added, 0) && TotalLen(before + added) == oldLeCount + extents
    ensures AllWellFormed(before + added, pvCount)
  {
    assert (before + added)[|before|..] == added;
    ChainConcat(before, added, 0);
    TotalLenConcat(before, added);
    forall i | 0 <= i < |before + added| ensures WellFormed((before + added)[i], pvCount) {
      if i >= |before| {
        assert (before + added)[i] == added[i - |before|];
      }
    }
  }

  /** What the first `i + 1` segments reserve is what the first `i` do plus segment `i`. */
  lemma GaveBackStep(now: seq<nat>, start: seq<nat>, segs: seq<Segment>, i: nat, p: nat)
    requires i < |segs| && GaveBack(now, start, segs[..i]) && p < |start|
    ensures now[p] + Usage(segs[..i + 1], p) == start[p] + SegUsage(segs[i], p)
  {
    assert segs[..i + 1][..i] == segs[..i];
  }

  /** Giving back segment `i` extends what has been given back from `segs[..i]` to `segs[..i + 1]`. */
  lemma GaveBackNext(now: seq<nat>, start: seq<nat>, segs: seq<Segment>, i: nat)
    requires i < |segs| && GaveBack(now, start, segs[..i])
    requires forall p :: 0 <= p < |now| ==> now[p] >= Width(segs[i]) * CountPv(segs[i].areas, p)
    ensures GaveBack(Uncharged(now, segs[i].areas, Width(segs[i])), start, segs[..i + 1])
    ensures TotalLen(segs[..i + 1]) == TotalLen(segs[..i]) + segs[i].len
  {
    forall p | 0 <= p < |start|
      ensures Uncharged(now, segs[i].areas, Width(segs[i]))[p] + Usage(segs[..i + 1], p) == start[p]
    {
      GaveBackStep(now, start, segs, i, p);
    }
    assert segs[..i + 1][..i] == segs[..i];
  }

  /** A prefix of a chain reserves no more of a PV than the whole chain. */
  lemma UsagePrefix(segs: seq<Segment>, i: nat, p: nat)
    requires i <= |segs|
    ensures Usage(segs[..i], p) <= Usage(segs, p)
  {
    assert segs == segs[..i] + segs[i..];
    UsageConcat(segs[..i], segs[i..], p);
  }

  /** Shortening the last segment by a multiple of its stripe count keeps it well formed. */
  lemma ShrunkWellFormed(seg: Segment, count: nat, pvCount: nat)
    requires WellFormed(seg, pvCount) && count < seg.len && count % seg.stripes == 0
    ensures WellFormed(seg.(len := seg.len - count), pvCount)
  {
    ModSub(seg.len, count, seg.stripes);
  }

  /** Replacing the last segment by its shortened form is what Trim does for a cut inside it. */
  lemma ShrinkKeepsChain(init: seq<Segment>, seg: Segment, count: nat, pvCount: nat)
    requires 0 < count < seg.len
    requires ChainFrom(init + [seg], 0) && AllWellFormed(init, pvCount)
    requires WellFormed(seg.(len := seg.len - count), pvCount)
    ensures Trim(init + [seg], count) == init + [seg.(len := seg.len - count)]
    ensures Trim(init + [seg.(len := seg.len - count)], 0) == init + [seg.(len := seg.len - count)]
    ensures ChainFrom(init + [seg.(len := seg.len - count)], 0)
    ensures AllWellFormed(init + [seg.(len := seg.len - count)], pvCount)
  {
    var shrunk := seg.(len := seg.len - count);
    assert (init + [seg])[..|init|] == init;
    assert (init + [shrunk])[..|init|] == init;
    forall i | 0 <= i < |init + [shrunk]| ensures WellFormed((init + [shrunk])[i], pvCount) {
      if i < |init| {
        assert (init + [shrunk])[i] == init[i];
      }
    }
  }

  /** Dropping the last segment when it fits in the cut is what Trim does first. */
  lemma DropLastKeepsChain(init: seq<Segment>, seg: Segment, count: nat, pvCount: nat)
    requires 0 < count && seg.len <= count
    requires ChainFrom(init + [seg], 0) && AllWellFormed(init + [seg], pvCount)
    requires count <= TotalLen(init + [seg]) && ReduceAligned(init + [seg], count)
    ensures Trim(init, count - seg.len) == Trim(init + [seg], count)
    ensures ChainFrom(init, 0) && AllWellFormed(init, pvCount)
    ensures count - seg.len <= TotalLen(init) && ReduceAligned(init, count - seg.len)
  {
    assert (init + [seg])[..|init|] == init;
    forall i | 0 <= i < |init| ensures WellFormed(init[i], pvCount) {
      assert init[i] == (init + [seg])[i];
    }
  }

  lemma TrimNothing(segs: seq<Segment>, count: nat)
    requires count == 0 || segs == []
    ensures Trim(segs, count) == segs
  {
  }

  /** Charging the segments appended to volume `k` keeps the counters equal to the group's usage. */
  lemma ExtendUsage(segss: seq<seq<Segment>>, k: nat, added: seq<Segment>, before: seq<nat>, after: seq<nat>)
    requires k < |segss|
    requires forall p :: 0 <= p < |before| ==> before[p] == LvsUsage(segss, p)
    requires after == AllCharged(before, added)
    ensures forall p :: 0 <= p < |after| ==> after[p] == LvsUsage(segss[k := segss[k] + added], p)
  {
    forall p | 0 <= p < |after| ensures after[p] == LvsUsage(segss[k := segss[k] + added], p) {
      LvsUsageUpdate(segss, k, segss[k] + added, p);
      UsageConcat(segss[k], added, p);
    }
  }

  /** Removing entry `k` keeps the other entries, in order, and no longer holds the removed one. */
  lemma RemoveKeepsRest(lvs: seq<LogicalVolume>, chains: seq<seq<Segment>>, k: nat)
    requires k < |lvs| == |chains|
    requires forall i, j :: 0 <= i < j < |lvs| ==> lvs[i] != lvs[j]
    ensures var rest := lvs[..k] + lvs[k + 1..];
      && lvs[k] !in rest
      && (forall i, j :: 0 <= i < j < |rest| ==> rest[i] != rest[j])
    ensures var rest, restChains := lvs[..k] + lvs[k + 1..], chains[..k] + chains[k + 1..];
      && (forall i :: 0 <= i < k ==> rest[i] == lvs[i] && restChains[i] == chains[i])
      && (forall i :: k <= i < |rest| ==> rest[i] == lvs[i + 1] && restChains[i] == chains[i + 1])
  {
  }

  lemma ModBelow(s: nat, n: nat)
    requires s < n
    ensures s % n == s
  {
  }

  lemma {:induction false} SumZeros(n: nat)
    ensures Sum(seq(n, _ => 0)) == 0
  {
    if n > 0 {
      assert seq(n, _ => 0)[..n - 1] == seq(n - 1, _ => 0);
      SumZeros(n - 1);
    }
  }
}

=== FILE: lv_names.dfy ===
/**
 * Default logical-volume names of _generate_lv_name: "lvol" followed by one
 * more than the highest number any existing "lvol<N>" name carries.
 */
module LvNames {
  import opened Wrappers

  /** The size of the name buffer the default name is printed into. */
  const NameBufferSize: nat := 32

  predicate IsDigit(c: char)
  {
    '0' <= c <= '9'
  }

  /** The characters isspace accepts in the C locale. */
  predicate IsSpace(c: char)
  {
    c == ' ' || c == '\t' || c == '\n' || c == '\r' || c == '\U{000B}' || c == '\U{000C}'
  }

  function SkipSpaces(s: string): (r: string)
    ensures |r| <= |s| && r == s[|s| - |r|..]
    ensures r != [] ==> !IsSpace(r[0])
  {
    if s != [] && IsSpace(s[0]) then SkipSpaces(s[1..]) else s
  }

  /** Length of the run of decimal digits at the front of `s`. */
  function DigitRun(s: string): (n: nat)
    ensures n <= |s|
    ensures forall i :: 0 <= i < n ==> IsDigit(s[i])
    ensures n < |s| ==> !IsDigit(s[n])
  {
    if s != [] && IsDigit(s[0]) then 1 + DigitRun(s[1..]) else 0
  }

  function DigitsValue(d: string): nat
    requires forall i :: 0 <= i < |d| ==> IsDigit(d[i])
  {
    if d == [] then 0
    else
      assert IsDigit(d[|d| - 1]);
      DigitsValue(d[..|d| - 1]) * 10 + (d[|d| - 1] as int - '0' as int)
  }

  /** The digits at the front of `u` as a number, if there is at least one. */
  function ScanUnsigned(u: string): (r: Option<nat>)
    ensures r.Some? <==> u != [] && IsDigit(u[0])
  {
    var n := DigitRun(u);
    if n == 0 then None else Some(DigitsValue(u[..n]))
  }

  /**
   * The "%d" conversion of sscanf: optional white space, an optional sign and
   * at least one digit; whatever follows the digits is not looked at.
   */
  function ScanInt(s: string): (r: Option<int>)
    ensures r.Some? <==>
      var t := SkipSpaces(s);
      var u := if t != [] && (t[0] == '-' || t[0] == '+') then t[1..] else t;
      u != [] && IsDigit(u[0])
  {
    var t := SkipSpaces(s);
    if t != [] && t[0] == '-' then
      match ScanUnsigned(t[1..])
      case Some(v) => Some(-(v as int))
      case None => None
    else if t != [] && t[0] == '+' then
      match ScanUnsigned(t[1..])
      case Some(v) => Some(v)
      case None => None
    else
      match ScanUnsigned(t)
      case Some(v) => Some(v)
      case None => None
  }

  /** sscanf(name, "lvol%d", &i): the number after a leading "lvol", if any. */
  function ParseLvol(name: string): (r: Option<int>)
    ensures r.Some? ==> |name| > 4 && name[..4] == "lvol"
  {
    if |name| >= 4 && name[..4] == "lvol" then ScanInt(name[4..]) else None
  }

  function DigitChar(d: nat): (c: char)
    requires d < 10
    ensures IsDigit(c) && c as int - '0' as int == d
  {
    "0123456789"[d]
  }

  /** The decimal digits of `n`, as "%d" prints a non-negative number. */
  function Decimal(n: nat): (s: string)
    ensures s != [] && forall i :: 0 <= i < |s| ==> IsDigit(s[i])
  {
    if n < 10 then [DigitChar(n)] else Decimal(n / 10) + [DigitChar(n % 10)]
  }

  /** "lvol%d" printed with `n`. */
  function LvolName(n: nat): (name: string)
    ensures |name| > 4 && name[..4] == "lvol"
    ensures forall i :: 4 <= i < |name| ==> IsDigit(name[i])
  {
    "lvol" + Decimal(n)
  }

  /** What ParseLvol makes of each of `names`. */
  function LvolIndices(names: seq<string>): (r: seq<Option<int>>)
    ensures |r| == |names| && forall k :: 0 <= k < |names| ==> r[k] == ParseLvol(names[k])
  {
    seq(|names|, k requires 0 <= k < |names| => ParseLvol(names[k]))
  }

  /**
   * The highest of the numbers in `indices`, or -1 when there is none: the
   * value `high` holds after the scan over the volume group's LVs.
   */
  function MaxIndex(indices: seq<Option<int>>): (high: int)
    ensures high >= -1
  {
    if indices == [] then -1
    else
      var high := MaxIndex(indices[..|indices| - 1]);
      match indices[|indices| - 1]
      case Some(i) => if i > high then i else high
      case None => high
  }

  /** One more entry of the scan: MaxIndex keeps the higher of the old maximum and the new number. */
  lemma MaxIndexStep(indices: seq<Option<int>>, i: nat)
    requires i < |indices|
    ensures indices[i].Some? && indices[i].value > MaxIndex(indices[..i]) ==> MaxIndex(indices[..i + 1]) == indices[i].value
    ensures !(indices[i].Some? && indices[i].value > MaxIndex(indices[..i])) ==> MaxIndex(indices[..i + 1]) == MaxIndex(indices[..i])
  {
    assert indices[..i + 1][..i] == indices[..i];
  }

  /** Reading back the digits "%d" printed gives the number. */
  lemma {:induction false} DecimalValue(n: nat)
    ensures DigitsValue(Decimal(n)) == n
  {
    if n >= 10 {
      var s := Decimal(n);
      assert s[..|s| - 1] == Decimal(n / 10);
      DecimalValue(n / 10);
    }
  }

  lemma {:induction false} DigitRunAll(s: string)
    requires forall i :: 0 <= i < |s| ==> IsDigit(s[i])
    ensures DigitRun(s) == |s|
  {
    if s != [] {
      DigitRunAll(s[1..]);
    }
  }

  /** "%d" reads a run of digits back as the number they spell. */
  lemma ScanDigits(d: string)
    requires d != [] && forall i :: 0 <= i < |d| ==> IsDigit(d[i])
    ensures ScanInt(d) == Some(DigitsValue(d))
  {
    assert !IsSpace(d[0]);
    assert SkipSpaces(d) == d;
    assert ScanUnsigned(d) == Some(DigitsValue(d)) by {
      DigitRunAll(d);
      assert d[..|d|] == d;
    }
  }

  /** Round trip: the number a generated name is printed with is the number it parses to. */
  lemma ParseLvolName(n: nat)
    ensures ParseLvol(LvolName(n)) == Some(n)
  {
    var name := LvolName(n);
    var d := Decimal(n);
    assert name[..4] == "lvol" && name[4..] == d;
    ScanDigits(d);
    DecimalValue(n);
  }

  /** No entry exceeds MaxIndex, which is -1 or one of the entries. */
  lemma {:induction false} MaxIndexBound(indices: seq<Option<int>>)
    ensures forall k :: 0 <= k < |indices| && indices[k].Some? ==> indices[k].value <= MaxIndex(indices)
    ensures MaxIndex(indices) == -1 || Some(MaxIndex(indices)) in indices
  {
    if indices != [] {
      var init := indices[..|indices| - 1];
      MaxIndexBound(init);
      assert forall k :: 0 <= k < |init| ==> indices[k] == init[k];
      if Some(MaxIndex(init)) in init {
        var k :| 0 <= k < |init| && init[k] == Some(MaxIndex(init));
        assert indices[k] == init[k];
      }
    }
  }

  /** The name made from one more than the highest number any name carries is not already taken. */
  lemma GeneratedNameFresh(names: seq<string>)
    ensures MaxIndex(LvolIndices(names)) + 1 >= 0
    ensures LvolName(MaxIndex(LvolIndices(names)) + 1) !in names
  {
    var indices := LvolIndices(names);
    MaxIndexBound(indices);
    var n := MaxIndex(indices) + 1;
    ParseLvolName(n);
    AboveAllNotTaken(names, indices, LvolName(n), n);
  }

  lemma AboveAllNotTaken(names: seq<string>, indices: seq<Option<int>>, x: string, n: int)
    requires |indices| == |names|
    requires forall k :: 0 <= k < |names| && names[k] == x ==> indices[k] == Some(n)
    requires forall k :: 0 <= k < |indices| && indices[k].Some? ==> indices[k].value < n
    ensures x !in names
  {
  }
}

=== FILE: pv_map.dfy ===
/**
 * The free-area map an allocation attempt works on: per candidate PV, its
 * runs of free extents. Building the map (create_pv_maps) is not part of this
 * model; consuming from an area (consume_pv_area) is specified here by what it
 * does to the area: it shrinks from the front, or disappears once exhausted.
 */
module PvMap {

  /** A run of `count` free extents starting at physical extent `start`. */
  datatype Area = Area(start: nat, count: nat)

  /** The free areas of PV `pv`, in list order (the first one is the largest when built). */
  datatype PvAreas = PvAreas(pv: nat, areas: seq<Area>)

  /** Every map names a known PV and holds no empty area. */
  ghost predicate MapOk(pvms: seq<PvAreas>, pvCount: nat)
  {
    forall i :: 0 <= i < |pvms| ==>
      && pvms[i].pv < pvCount
      && (forall j :: 0 <= j < |pvms[i].areas| ==> pvms[i].areas[j].count > 0)
  }

  /** No two maps are for the same PV: create_pv_maps builds one map per PV of the group. */
  ghost predicate DistinctPvs(pvms: seq<PvAreas>)
  {
    forall i, j :: 0 <= i < j < |pvms| ==> pvms[i].pv != pvms[j].pv
  }

  function AreasTotal(areas: seq<Area>): nat
  {
    if areas == [] then 0 else AreasTotal(areas[..|areas| - 1]) + areas[|areas| - 1].count
  }

  /** Free extents of PV `p` that the map still offers. */
  function MapTotal(pvms: seq<PvAreas>, p: nat): nat
  {
    if pvms == [] then 0
    else MapTotal(pvms[..|pvms| - 1], p)
         + (if pvms[|pvms| - 1].pv == p then AreasTotal(pvms[|pvms| - 1].areas) else 0)
  }

  /** Number of maps that still hold a free area. */
  function NonEmptyCount(pvms: seq<PvAreas>): nat
  {
    if pvms == [] then 0
    else NonEmptyCount(pvms[..|pvms| - 1]) + (if pvms[|pvms| - 1].areas != [] then 1 else 0)
  }

  /**
   * The map offers no more than what the counters say is free on each PV: what
   * create_pv_maps guarantees when it derives the areas from the PVs.
   */
  ghost predicate Fits(pvms: seq<PvAreas>, peCount: seq<nat>, peAllocated: seq<nat>)
  {
    && |peCount| == |peAllocated|
    && MapOk(pvms, |peCount|) && DistinctPvs(pvms)
    && forall p {:trigger MapTotal(pvms, p)} :: 0 <= p < |peCount| ==> peAllocated[p] + MapTotal(pvms, p) <= peCount[p]
  }

  /** The areas after taking `n` extents from the front of area `ai`. */
  function ConsumeArea(areas: seq<Area>, ai: nat, n: nat): (r: seq<Area>)
    requires ai < |areas| && n <= areas[ai].count
    ensures AreasTotal(r) + n == AreasTotal(areas)
    ensures n < areas[ai].count ==> |r| == |areas| && r[ai] == Area(areas[ai].start + n, areas[ai].count - n)
    ensures n == areas[ai].count ==> r == areas[..ai] + areas[ai + 1..]
  {
    AreasSplit(areas, ai);
    if n == areas[ai].count then
      AreasConcat(areas[..ai], areas[ai + 1..]);
      areas[..ai] + areas[ai + 1..]
    else
      var r := areas[ai := Area(areas[ai].start + n, areas[ai].count - n)];
      AreasSplit(r, ai);
      assert r[..ai] == areas[..ai] && r[ai + 1..] == areas[ai + 1..];
      r
  }

  /** The map after consume_pv_area took `n` extents from area `ai` of map `mi`. */
  function Consume(pvms: seq<PvAreas>, mi: nat, ai: nat, n: nat): (r: seq<PvAreas>)
    requires mi < |pvms| && ai < |pvms[mi].areas| && n <= pvms[mi].areas[ai].count
    ensures |r| == |pvms| && r[mi].pv == pvms[mi].pv
    ensures forall i :: 0 <= i < |pvms| && i != mi ==> r[i] == pvms[i]
  {
    pvms[mi := PvAreas(pvms[mi].pv, ConsumeArea(pvms[mi].areas, ai, n))]
  }

  lemma {:induction false} AreasConcat(a: seq<Area>, b: seq<Area>)
    ensures AreasTotal(a + b) == AreasTotal(a) + AreasTotal(b)
  {
    if b == [] {
      assert a + b == a;
    } else {
      assert (a + b)[..|a + b| - 1] == a + b[..|b| - 1];
      AreasConcat(a, b[..|b| - 1]);
    }
  }

  lemma AreasSplit(a: seq<Area>, i: nat)
    requires i < |a|
    ensures AreasTotal(a) == AreasTotal(a[..i]) + a[i].count + AreasTotal(a[i + 1..])
  {
    assert a == a[..i] + [a[i]] + a[i + 1..];
    AreasConcat(a[..i] + [a[i]], a[i + 1..]);
    AreasConcat(a[..i], [a[i]]);
    assert [a[i]][..0] == [];
  }

  /** Replacing one PV's areas changes only that PV's total, by the difference. */
  lemma {:induction false} MapTotalUpdate(pvms: seq<PvAreas>, mi: nat, m: PvAreas, p: nat)
    requires mi < |pvms| && m.pv == pvms[mi].pv
    ensures MapTotal(pvms[mi := m], p) + (if m.pv == p then AreasTotal(pvms[mi].areas) else 0)
         == MapTotal(pvms, p) + (if m.pv == p then AreasTotal(m.areas) else 0)
  {
    var r := pvms[mi := m];
    if mi == |pvms| - 1 {
      assert r[..|r| - 1] == pvms[..|pvms| - 1];
    } else {
      assert r[..|r| - 1] == pvms[..|pvms| - 1][mi := m];
      MapTotalUpdate(pvms[..|pvms| - 1], mi, m, p);
    }
  }

  /** Consuming `n` extents lowers the consumed PV's free total by `n` and no other's. */
  lemma ConsumeTotal(pvms: seq<PvAreas>, mi: nat, ai: nat, n: nat, p: nat)
    requires mi < |pvms| && ai < |pvms[mi].areas| && n <= pvms[mi].areas[ai].count
    ensures MapTotal(Consume(pvms, mi, ai, n), p) + (if pvms[mi].pv == p then n else 0)
         == MapTotal(pvms, p)
  {
    MapTotalUpdate(pvms, mi, PvAreas(pvms[mi].pv, ConsumeArea(pvms[mi].areas, ai, n)), p);
  }

  /** Consuming never creates an empty area and never changes which PV a map is for. */
  lemma ConsumeOk(pvms: seq<PvAreas>, mi: nat, ai: nat, n: nat, pvCount: nat)
    requires MapOk(pvms, pvCount)
    requires mi < |pvms| && ai < |pvms[mi].areas| && n <= pvms[mi].areas[ai].count
    ensures MapOk(Consume(pvms, mi, ai, n), pvCount)
  {
    var areas := pvms[mi].areas;
    var r := ConsumeArea(areas, ai, n);
    if n == areas[ai].count {
      forall j | 0 <= j < |r| ensures r[j].count > 0 {
        if j < ai { assert r[j] == areas[j]; } else { assert r[j] == areas[j + 1]; }
      }
    }
  }

  /** Consuming keeps every map on its PV, so the maps stay on distinct PVs. */
  lemma ConsumeKeepsDistinct(pvms: seq<PvAreas>, mi: nat, ai: nat, n: nat)
    requires DistinctPvs(pvms)
    requires mi < |pvms| && ai < |pvms[mi].areas| && n <= pvms[mi].areas[ai].count
    ensures DistinctPvs(Consume(pvms, mi, ai, n))
  {
    var r := Consume(pvms, mi, ai, n);
    forall i, j | 0 <= i < j < |r| ensures r[i].pv != r[j].pv {
      assert r[i].pv == pvms[i].pv && r[j].pv == pvms[j].pv;
    }
  }
}

=== FILE: report_options.dfy ===
/**
 * The field list of an lvm reporting command: the comma-separated -o/--options
 * strings, edited group by group ("+" appends, "-" deletes, "#" collects the
 * fields to compact, anything else replaces), with deletion matching a field
 * name with or without the report type's field prefix.
 */
module ReportOptions {
  import opened Wrappers

  /** One field name in a list: not empty and free of the ',' delimiter. */
  predicate IsItem(x: string)
  {
    x != [] && ',' !in x
  }

  /** The position of the first ',' of `s`, or |s| when there is none. */
  function FirstComma(s: string): (i: nat)
    ensures i <= |s|
    ensures i < |s| ==> s[i] == ','
    ensures forall j :: 0 <= j < i ==> s[j] != ','
  {
    if s == [] || s[0] == ',' then 0 else 1 + FirstComma(s[1..])
  }

  /**
   * str_to_str_list with "," as the delimiter and repeated delimiters
   * ignored: the non-empty pieces between commas, in order.
   */
  function Split(s: string): (items: seq<string>)
    ensures forall k :: 0 <= k < |items| ==> IsItem(items[k])
    decreases |s|
  {
    if s == [] then []
    else
      var i := FirstComma(s);
      var head := if i == 0 then [] else [s[..i]];
      if i == |s| then head else head + Split(s[i + 1..])
  }

  /** str_list_to_str with "," as the delimiter. */
  function Join(items: seq<string>): string
  {
    if items == [] then ""
    else if |items| == 1 then items[0]
    else items[0] + "," + Join(items[1..])
  }

  lemma FirstCommaAt(x: string, rest: string)
    requires ',' !in x && (rest == [] || rest[0] == ',')
    ensures FirstComma(x + rest) == |x|
  {
    var s := x + rest;
    assert forall j :: 0 <= j < |x| ==> s[j] == x[j];
    if rest != [] {
      assert s[|x|] == rest[0];
    }
  }

  /** Splitting a joined list of field names gives the list back. */
  lemma {:induction false} SplitJoin(items: seq<string>)
    requires forall k :: 0 <= k < |items| ==> IsItem(items[k])
    ensures Split(Join(items)) == items
  {
    if items == [] {
    } else if |items| == 1 {
      var x := items[0];
      FirstCommaAt(x, []);
      assert x + [] == x && x[..|x|] == x;
    } else {
      var x, tail := items[0], Join(items[1..]);
      var s := x + "," + tail;
      FirstCommaAt(x, "," + tail);
      assert x + ("," + tail) == s;
      assert s[..|x|] == x;
      assert s[|x| + 1..] == tail;
      SplitJoin(items[1..]);
      assert items == [x] + items[1..];
    }
  }

  /** Joining and splitting again changes nothing: a split list is already normal. */
  lemma SplitIsNormal(s: string)
    ensures Split(Join(Split(s))) == Split(s)
  {
    SplitJoin(Split(s));
  }

  /**
   * The cursor after the known-prefix test of _del_option_from_list: past the
   * first |prefix| - 1 characters of `s` when they agree with `prefix`, and
   * past one '_' after them.
   */
  function StripPrefix(prefix: string, s: string): (t: string)
    requires |prefix| >= 1
    ensures |t| <= |s|
  {
    var n := |prefix| - 1;
    if n <= |s| && s[..n] == prefix[..n] then
      var rest := s[n..];
      if rest != [] && rest[0] == '_' then rest[1..] else rest
    else s
  }

  /**
   * Stripping removes nothing, the known part of the prefix, or that part and
   * one '_'; it removes something only when `s` starts with that part.
   */
  lemma StripPrefixRemoves(prefix: string, s: string)
    requires |prefix| >= 1
    ensures var t, known := StripPrefix(prefix, s), prefix[..|prefix| - 1];
            (t == s || s == known + t || s == known + "_" + t)
            && (t != s ==> |known| <= |s| && s[..|known|] == known)
            && (known != [] && |known| <= |s| && s[..|known|] == known ==> |t| < |s|)
  {
    var n := |prefix| - 1;
    var known := prefix[..n];
    if n <= |s| && s[..n] == known {
      var rest := s[n..];
      assert s == known + rest;
      if rest != [] && rest[0] == '_' {
        assert rest == "_" + rest[1..];
        assert s == known + "_" + rest[1..];
      }
    }
  }

  /** `item` names the field `str` names: the same string, or the same once the prefix is stripped from both. */
  predicate Matches(prefix: string, str: string, item: string)
    requires |prefix| >= 1
  {
    str == item || StripPrefix(prefix, str) == StripPrefix(prefix, item)
  }

  /** The position of the last of the first `n` items of `list` that matches `str`: the list is walked from its tail. */
  function LastMatch(prefix: string, str: string, list: seq<string>, n: nat): (k: Option<nat>)
    requires |prefix| >= 1 && n <= |list|
    ensures k.Some? ==> k.value < n && Matches(prefix, str, list[k.value])
    ensures k.Some? ==> forall j :: k.value < j < n ==> !Matches(prefix, str, list[j])
    ensures k.None? ==> forall j :: 0 <= j < n ==> !Matches(prefix, str, list[j])
  {
    if n == 0 then None
    else if Matches(prefix, str, list[n - 1]) then Some(n - 1)
    else LastMatch(prefix, str, list, n - 1)
  }

  /** The list without its last item that matches `str`, or unchanged when none matches. */
  function DelOption(prefix: string, str: string, list: seq<string>): (r: seq<string>)
    requires |prefix| >= 1
    ensures |list| - 1 <= |r| <= |list|
  {
    match LastMatch(prefix, str, list, |list|)
    case None => list
    case Some(k) => list[..k] + list[k + 1..]
  }

  /**
   * Deleting removes exactly one item when some item matches, and none
   * otherwise; the removed item matches, no later item does, and the others
   * keep their order.
   */
  lemma DelOptionRemovesOne(prefix: string, str: string, list: seq<string>)
    requires |prefix| >= 1
    ensures var r := DelOption(prefix, str, list);
            (exists j :: 0 <= j < |list| && Matches(prefix, str, list[j])) <==> |r| == |list| - 1
    ensures var r := DelOption(prefix, str, list);
            r == list || exists k :: 0 <= k < |list| && r == list[..k] + list[k + 1..] && Matches(prefix, str, list[k])
                                   && forall j :: k < j < |list| ==> !Matches(prefix, str, list[j])
    ensures multiset(DelOption(prefix, str, list)) <= multiset(list)
  {
    var r := DelOption(prefix, str, list);
    match LastMatch(prefix, str, list, |list|)
    case None =>
    case Some(k) =>
      assert list == list[..k] + [list[k]] + list[k + 1..];
      assert multiset(list) == multiset(r) + multiset{list[k]};
  }

  /** A field given by its exact name is removed whenever the list holds it. */
  lemma ExactNameIsRemoved(prefix: string, str: string, list: seq<string>)
    requires |prefix| >= 1 && str in list
    ensures |DelOption(prefix, str, list)| == |list| - 1
  {
    var j :| 0 <= j < |list| && list[j] == str;
    assert Matches(prefix, str, list[j]);
    DelOptionRemovesOne(prefix, str, list);
  }

  /** The item at `i` matches and none after it does: that is the one deleted. */
  lemma DeletesAt(prefix: string, str: string, list: seq<string>, i: nat)
    requires |prefix| >= 1 && i < |list| && Matches(prefix, str, list[i])
    requires forall j :: i < j < |list| ==> !Matches(prefix, str, list[j])
    ensures DelOption(prefix, str, list) == list[..i] + list[i + 1..]
  {
    var k := LastMatch(prefix, str, list, |list|);
    assert k.Some? && k.value == i;
  }

  /** No item matches: nothing is deleted. */
  lemma DeletesNothing(prefix: string, str: string, list: seq<string>)
    requires |prefix| >= 1
    requires forall j :: 0 <= j < |list| ==> !Matches(prefix, str, list[j])
    ensures DelOption(prefix, str, list) == list
  {
    var k := LastMatch(prefix, str, list, |list|);
    assert k.None?;
  }

  /**
   * _del_option_from_list: walk the list from its tail and unlink the first
   * item met that matches `str`, exactly or with the prefix stripped from both.
   */
  method DelOptionFromList(list: seq<string>, prefix: string, str: string) returns (r: seq<string>)
    requires |prefix| >= 1
    ensures r == DelOption(prefix, str, list)
  {
    var a := StripPrefix(prefix, str);
    var i := |list|;
    while i > 0
      invariant 0 <= i <= |list|
      invariant forall j :: i <= j < |list| ==> !Matches(prefix, str, list[j])
    {
      i := i - 1;
      if str == list[i] {
        DeletesAt(prefix, str, list, i);
        return list[..i] + list[i + 1..];
      }
      var b := StripPrefix(prefix, list[i]);
      if a == b {
        DeletesAt(prefix, str, list, i);
        return list[..i] + list[i + 1..];
      }
    }
    DeletesNothing(prefix, str, list);
    return list;
  }

  /**
   * _del_option_from_list as written: the cursor into `str` is not reset
   * between items, so every item visited strips the known prefix from it once
   * more. `a` is the cursor when the item at the tail of `list` is visited.
   */
  function DelOptionAsWritten(prefix: string, a: string, str: string, list: seq<string>): (r: seq<string>)
    requires |prefix| >= 1
    ensures |list| - 1 <= |r| <= |list|
  {
    if list == [] then list
    else
      var last := list[|list| - 1];
      if str == last then list[..|list| - 1]
      else
        var a' := StripPrefix(prefix, a);
        if a' == StripPrefix(prefix, last) then list[..|list| - 1]
        else DelOptionAsWritten(prefix, a', str, list[..|list| - 1]) + [last]
  }

  /**
   * As written, deleting "lv_lv_name" from "lv_name,lv_size" under the LV
   * prefix "lv_" strips the prefix twice by the time "lv_name" is visited and
   * removes it; with the cursor reset, no item matches and the list is kept.
   */
  lemma CumulativeStripDeletesWrongOption()
    ensures DelOptionAsWritten("lv_", "lv_lv_name", "lv_lv_name", ["lv_name", "lv_size"]) == ["lv_size"]
    ensures DelOption("lv_", "lv_lv_name", ["lv_name", "lv_size"]) == ["lv_name", "lv_size"]
  {
    var list := ["lv_name", "lv_size"];
    assert StripPrefix("lv_", "lv_lv_name") == "lv_name" by {
      assert "lv_lv_name"[..2] == "lv" && "lv_lv_name"[2..] == "_lv_name";
    }
    assert StripPrefix("lv_", "lv_name") == "name" by {
      assert "lv_name"[..2] == "lv" && "lv_name"[2..] == "_name";
    }
    assert StripPrefix("lv_", "lv_size") == "size" by {
      assert "lv_size"[..2] == "lv" && "lv_size"[2..] == "_size";
    }
    assert list[..1] == ["lv_name"] && list[..1][..0] == [];
    assert !Matches("lv_", "lv_lv_name", list[1]);
    assert !Matches("lv_", "lv_lv_name", list[0]);
  }

  /** Every item of `items` deleted from `final` in turn, as the "-" group does. */
  function DelOptions(prefix: string, final: seq<string>, items: seq<string>): (r: seq<string>)
    requires |prefix| >= 1
    ensures |r| <= |final|
  {
    if items == [] then final
    else DelOptions(prefix, DelOption(prefix, items[0], final), items[1..])
  }

  /** A "-" group removes at most one field per item, and never adds one. */
  lemma {:induction false} DelOptionsShrinks(prefix: string, final: seq<string>, items: seq<string>)
    requires |prefix| >= 1
    ensures var r := DelOptions(prefix, final, items);
            multiset(r) <= multiset(final) && |final| - |items| <= |r| <= |final|
  {
    if items != [] {
      var next := DelOption(prefix, items[0], final);
      DelOptionRemovesOne(prefix, items[0], final);
      DelOptionsShrinks(prefix, next, items[1..]);
    }
  }

  /** The field list and the compact list as the groups are applied; `compact` is None while no "#" group was seen. */
  datatype Lists = Lists(final: seq<string>, compact: Option<seq<string>>)

  /** One option group, by its first character. */
  function ApplyGroup(prefix: string, st: Lists, opts: string): (r: Lists)
    requires |prefix| >= 1 && opts != []
    ensures opts[0] != '#' ==> r.compact == st.compact
    ensures opts[0] == '#' ==> r.final == st.final && r.compact.Some?
  {
    var items := Split(opts[1..]);
    if opts[0] == '+' then Lists(st.final + items, st.compact)
    else if opts[0] == '-' then Lists(DelOptions(prefix, st.final, items), st.compact)
    else if opts[0] == '#' then Lists(st.final, Some(if st.compact.None? then items else st.compact.value + items))
    else Lists(Split(opts), st.compact)
  }

  /** The groups applied in order; None when a group that is set is empty. */
  function ApplyGroups(prefix: string, st: Lists, groups: seq<Option<string>>): (r: Option<Lists>)
    requires |prefix| >= 1
    decreases |groups|
    ensures r.None? ==> Some([]) in groups
  {
    if groups == [] then Some(st)
    else if groups[0].None? then ApplyGroups(prefix, st, groups[1..])
    else if groups[0].value == [] then None
    else ApplyGroups(prefix, ApplyGroup(prefix, st, groups[0].value), groups[1..])
  }

  /** The only error of the loop: an options group that is set but empty. */
  lemma {:induction false} InvalidExactlyOnEmptyGroup(prefix: string, st: Lists, groups: seq<Option<string>>)
    requires |prefix| >= 1
    decreases |groups|
    ensures ApplyGroups(prefix, st, groups).None? <==> exists k :: 0 <= k < |groups| && groups[k] == Some([])
  {
    if groups != [] {
      var next := if groups[0].None? || groups[0].value == [] then st else ApplyGroup(prefix, st, groups[0].value);
      InvalidExactlyOnEmptyGroup(prefix, next, groups[1..]);
      if exists k :: 0 <= k < |groups[1..]| && groups[1..][k] == Some([]) {
        var k :| 0 <= k < |groups[1..]| && groups[1..][k] == Some([]);
        assert groups[k + 1] == Some([]);
      }
      if exists k :: 0 <= k < |groups| && groups[k] == Some([]) {
        var k :| 0 <= k < |groups| && groups[k] == Some([]);
        if k > 0 {
          assert groups[1..][k - 1] == Some([]);
        }
      }
    }
  }

  /** A group that is not "+", "-" or "#" replaces the field list, whatever came before it. */
  lemma ReplaceForgetsEarlier(prefix: string, st: Lists, opts: string)
    requires |prefix| >= 1 && opts != [] && opts[0] != '+' && opts[0] != '-' && opts[0] != '#'
    ensures ApplyGroup(prefix, st, opts) == Lists(Split(opts), st.compact)
  {
  }

  /** Only "#" groups touch the compact list, and they never touch the field list. */
  lemma {:induction false} CompactOnlyFromHashGroups(prefix: string, st: Lists, groups: seq<Option<string>>)
    requires |prefix| >= 1
    decreases |groups|
    requires forall k :: 0 <= k < |groups| && groups[k].Some? && groups[k].value != [] ==> groups[k].value[0] != '#'
    ensures ApplyGroups(prefix, st, groups).Some? ==> ApplyGroups(prefix, st, groups).value.compact == st.compact
  {
    if groups != [] && groups[0].Some? && groups[0].value != [] {
      assert groups[0].value[0] != '#';
      CompactOnlyFromHashGroups(prefix, ApplyGroup(prefix, st, groups[0].value), groups[1..]);
    } else if groups != [] && groups[0].None? {
      CompactOnlyFromHashGroups(prefix, st, groups[1..]);
    }
  }

  /** Adding a field with "+" and deleting it with "-" gives the lists back. */
  lemma AddThenDelete(prefix: string, st: Lists, x: string)
    requires |prefix| >= 1 && IsItem(x)
    ensures ApplyGroups(prefix, st, [Some("+" + x), Some("-" + x)]) == Some(st)
  {
    SplitJoin([x]);
    assert Split(x) == [x];
    var plus, minus := "+" + x, "-" + x;
    assert plus[1..] == x && plus[0] == '+';
    assert minus[1..] == x && minus[0] == '-';
    var added := st.final + [x];
    var afterPlus := ApplyGroup(prefix, st, plus);
    assert afterPlus == Lists(added, st.compact);
    assert Matches(prefix, x, added[|added| - 1]);
    assert LastMatch(prefix, x, added, |added|) == Some(|added| - 1);
    assert added[..|added| - 1] + added[|added|..] == st.final;
    assert DelOption(prefix, x, added) == st.final;
    assert [x][1..] == [];
    assert DelOptions(prefix, added, [x]) == st.final;
    assert ApplyGroup(prefix, afterPlus, minus) == st;
    var groups := [Some(plus), Some(minus)];
    assert groups[1..] == [Some(minus)] && groups[1..][1..] == [];
    assert ApplyGroups(prefix, st, groups) == ApplyGroups(prefix, afterPlus, [Some(minus)]);
    assert ApplyGroups(prefix, afterPlus, [Some(minus)]) == ApplyGroups(prefix, st, []);
  }

  /** The outcome of _get_report_options, apart from the failures of memory allocation. */
  datatype OptionsStatus = Processed | InvalidCmdLine

  /** The fields of the report arguments that the option groups edit. */
  class ReportArgs {
    var options: string
    var fieldsToCompact: Option<string>

    /**
     * The loop of _get_report_options over the option groups: every group that
     * is set is applied in order to the list split from `options`; an empty
     * group stops with an error and changes nothing, else the edited lists are
     * joined back into `options` and, when a "#" group was seen,
     * `fieldsToCompact`.
     */
    method GetReportOptions(prefix: string, groups: seq<Option<string>>) returns (r: OptionsStatus)
      requires |prefix| >= 1
      modifies this
      ensures var spec := ApplyGroups(prefix, Lists(Split(old(options)), None), groups);
              (r == InvalidCmdLine <==> spec.None?)
              && (spec.None? ==> options == old(options) && fieldsToCompact == old(fieldsToCompact))
              && (spec.Some? ==> options == Join(spec.value.final))
              && (spec.Some? && spec.value.compact.Some? ==> fieldsToCompact == Some(Join(spec.value.compact.value)))
              && (spec.Some? && spec.value.compact.None? ==> fieldsToCompact == old(fieldsToCompact))
    {
      ghost var spec := ApplyGroups(prefix, Lists(Split(options), None), groups);
      var final := Split(options);
      var compact: Option<seq<string>> := None;
      var i := 0;
      while i < |groups|
        invariant 0 <= i <= |groups|
        invariant spec == ApplyGroups(prefix, Lists(final, compact), groups[i..])
        invariant options == old(options) && fieldsToCompact == old(fieldsToCompact)
      {
        assert groups[i..][0] == groups[i] && groups[i..][1..] == groups[i + 1..];
        if groups[i].Some? {
          var opts := groups[i].value;
          if opts == [] {
            return InvalidCmdLine;
          }
          if opts[0] == '+' || opts[0] == '-' || opts[0] == '#' {
            var optsList := Split(opts[1..]);
            if opts[0] == '+' {
              final := final + optsList;
            } else if opts[0] == '-' {
              final := DeleteAll(final, prefix, optsList);
            } else {
              compact := if compact.None? then Some(optsList) else Some(compact.value + optsList);
            }
          } else {
            final := Split(opts);
          }
        }
        i := i + 1;
      }
      assert groups[i..] == [];
      options := Join(final);
      if compact.Some? {
        fieldsToCompact := Some(Join(compact.value));
      }
      r := Processed;
    }
  }

  /** The "-" branch: _del_option_from_list for every item of the group, in order. */
  method DeleteAll(final: seq<string>, prefix: string, items: seq<string>) returns (r: seq<string>)
    requires |prefix| >= 1
    ensures r == DelOptions(prefix, final, items)
  {
    r := final;
    var j := 0;
    while j < |items|
      invariant 0 <= j <= |items|
      invariant DelOptions(prefix, final, items) == DelOptions(prefix, r, items[j..])
    {
      assert items[j..][0] == items[j] && items[j..][1..] == items[j + 1..];
      r := DelOptionFromList(r, prefix, items[j]);
      j := j + 1;
    }
  }
}

=== FILE: report_type.dfy ===
/**
 * The report type of an lvm reporting command: a set of flags, one per kind of
 * object a field may come from, and _get_final_report_type, which checks the
 * flags are compatible and folds them into the single type the report walks.
 */
module ReportType {
  import opened Wrappers

  /**
   * The report_type_t flags the normalisation looks at; `Other` stands for
   * every further flag, which it carries through untouched.
   */
  datatype ReportTag =
    | Lvs | LvsInfo | LvsStatus | LvsInfoStatus
    | Pvs | Label | Vgs | Segs | PvSegs
    | Other(bit: nat)

  /** The three out-parameters: the two "needed" flags always, the final type only on success. */
  datatype ReportTypeResult = ReportTypeResult(
    lvInfoNeeded: bool,
    lvSegmentStatusNeeded: bool,
    finalType: Option<set<ReportTag>>)

  /** The flags that ask for LV fields: LVS and its three device-info variants. */
  predicate HasLvFlag(t: set<ReportTag>)
  {
    Lvs in t || LvsInfo in t || LvsStatus in t || LvsInfoStatus in t
  }

  /** The flags that ask for PV fields: PVS and LABEL. */
  predicate HasPvFlag(t: set<ReportTag>)
  {
    Pvs in t || Label in t
  }

  /** SEGS brings in LVS and PVSEGS brings in PVS. */
  function Implied(t: set<ReportTag>): (u: set<ReportTag>)
    ensures t <= u && u - t <= {Lvs, Pvs}
    ensures Lvs in u <==> Lvs in t || Segs in t
    ensures Pvs in u <==> Pvs in t || PvSegs in t
  {
    var withLvs := if Segs in t then t + {Lvs} else t;
    if PvSegs in withLvs then withLvs + {Pvs} else withLvs
  }

  /**
   * _get_final_report_type: the "needed" flags from the flags as given; then,
   * with the implied flags added, an error when LV and PV fields are mixed
   * without PV arguments, else the first of PVSEGS, PVS, SEGS and LVS that the
   * flags call for, or the flags unchanged when none does.
   */
  function GetFinalReportType(argsArePvs: bool, reportType: set<ReportTag>): (r: ReportTypeResult)
    ensures r.lvInfoNeeded <==> LvsInfo in reportType || LvsInfoStatus in reportType
    ensures r.lvSegmentStatusNeeded <==> LvsStatus in reportType || LvsInfoStatus in reportType
  {
    var lvInfoNeeded := LvsInfo in reportType || LvsInfoStatus in reportType;
    var lvSegmentStatusNeeded := LvsStatus in reportType || LvsInfoStatus in reportType;
    var t := Implied(reportType);
    if HasLvFlag(t) && HasPvFlag(t) && !argsArePvs then
      ReportTypeResult(lvInfoNeeded, lvSegmentStatusNeeded, None)
    else
      var final :=
        if PvSegs in t || (HasPvFlag(t) && HasLvFlag(t)) then {PvSegs}
        else if Pvs in t || (Label in t && Vgs in t) then {Pvs}
        else if Segs in t then {Segs}
        else if HasLvFlag(t) then {Lvs}
        else t;
      ReportTypeResult(lvInfoNeeded, lvSegmentStatusNeeded, Some(final))
  }

  /** Some flag, as given, asks for LV or segment fields. */
  predicate AsksLv(t: set<ReportTag>)
  {
    HasLvFlag(t) || Segs in t
  }

  /** Some flag, as given, asks for PV, label or PV-segment fields. */
  predicate AsksPv(t: set<ReportTag>)
  {
    HasPvFlag(t) || PvSegs in t
  }

  /**
   * The only failure: LV (or segment) fields mixed with PV (or label, or
   * PV-segment) fields when the arguments are not PVs.
   */
  lemma FailsExactlyOnMix(argsArePvs: bool, reportType: set<ReportTag>)
    ensures GetFinalReportType(argsArePvs, reportType).finalType.None?
            <==> AsksLv(reportType) && AsksPv(reportType) && !argsArePvs
  {
  }

  /**
   * On success the report walks one kind of object: PV segments, PVs,
   * segments or LVs; only flags that ask for none of these (nor a label with
   * a VG) pass through unchanged.
   */
  lemma FinalTypeChoice(argsArePvs: bool, reportType: set<ReportTag>)
    requires GetFinalReportType(argsArePvs, reportType).finalType.Some?
    ensures var f := GetFinalReportType(argsArePvs, reportType).finalType.value;
            (f == {PvSegs} <==> PvSegs in reportType || (AsksLv(reportType) && AsksPv(reportType)))
            && (f == {Pvs} <==> f != {PvSegs} && (Pvs in reportType || (Label in reportType && Vgs in reportType)))
            && (f == {Segs} <==> f != {PvSegs} && f != {Pvs} && Segs in reportType)
            && (f == {Lvs} <==> f != {PvSegs} && f != {Pvs} && f != {Segs} && AsksLv(reportType))
            && (f == reportType <== !AsksLv(reportType) && !AsksPv(reportType) && !(Label in reportType && Vgs in reportType))
  {
    var f := GetFinalReportType(argsArePvs, reportType).finalType.value;
    var t := Implied(reportType);
    assert PvSegs in {PvSegs} && Pvs !in {PvSegs} && Segs !in {PvSegs};
    assert Pvs in {Pvs} && PvSegs !in {Pvs} && Segs !in {Pvs};
    assert Segs in {Segs} && PvSegs !in {Segs} && Pvs !in {Segs};
    assert Lvs in {Lvs} && PvSegs !in {Lvs} && Pvs !in {Lvs} && Segs !in {Lvs};
  }

  /** With PVs as arguments every combination of flags is accepted. */
  lemma PvArgumentsNeverFail(reportType: set<ReportTag>)
    ensures GetFinalReportType(true, reportType).finalType.Some?
  {
  }

  /**
   * Normalising is idempotent: the final type, normalised again, is accepted
   * and left as it is.
   */
  lemma FinalTypeIsStable(argsArePvs: bool, reportType: set<ReportTag>)
    requires GetFinalReportType(argsArePvs, reportType).finalType.Some?
    ensures var f := GetFinalReportType(argsArePvs, reportType).finalType.value;
            GetFinalReportType(argsArePvs, f).finalType == Some(f)
  {
    var f := GetFinalReportType(argsArePvs, reportType).finalType.value;
    var t := Implied(reportType);
    if f == {PvSegs} {
      assert Implied(f) == {PvSegs, Pvs};
    } else if f == {Pvs} {
      assert Implied(f) == f;
    } else if f == {Segs} {
      assert Implied(f) == {Segs, Lvs};
    } else if f == {Lvs} {
      assert Implied(f) == f;
    } else {
      assert f == t && Implied(f) == f;
    }
  }
}

=== FILE: segments.dfy ===
/**
 * Segments of a logical volume and the per-PV extent accounting over them.
 *
 * A physical volume (PV) is named by its index in the volume group; the
 * allocated-extent counters of all PVs form one `seq<nat>` indexed by PV.
 */
module Segments {

  /** One stripe of a segment: the PV it lives on and its first physical extent. */
  datatype StripeArea = StripeArea(pv: nat, pe: nat)

  /** Logical extents [le, le + len) mapped onto `stripes` equal-width physical runs. */
  datatype Segment = Segment(le: nat, len: nat, stripes: nat, areas: seq<StripeArea>)

  /** Extents each stripe of `seg` reserves on its PV. */
  function Width(seg: Segment): nat
  {
    if seg.stripes == 0 then 0 else seg.len / seg.stripes
  }

  /** The shape every segment the allocator builds has. */
  ghost predicate WellFormed(seg: Segment, pvCount: nat)
  {
    && seg.stripes >= 1
    && |seg.areas| == seg.stripes
    && seg.len % seg.stripes == 0
    && (forall i :: 0 <= i < |seg.areas| ==> seg.areas[i].pv < pvCount)
  }

  ghost predicate AllWellFormed(segs: seq<Segment>, pvCount: nat)
  {
    forall i :: 0 <= i < |segs| ==> WellFormed(segs[i], pvCount)
  }

  /** Number of stripes of `areas` that live on PV `p`. */
  function CountPv(areas: seq<StripeArea>, p: nat): nat
  {
    if areas == [] then 0
    else CountPv(areas[..|areas| - 1], p) + (if areas[|areas| - 1].pv == p then 1 else 0)
  }

  /** Extents of PV `p` that `seg` reserves. */
  function SegUsage(seg: Segment, p: nat): nat
  {
    Width(seg) * CountPv(seg.areas, p)
  }

  /** Extents of PV `p` that the segments `segs` reserve together. */
  function Usage(segs: seq<Segment>, p: nat): nat
  {
    if segs == [] then 0
    else Usage(segs[..|segs| - 1], p) + SegUsage(segs[|segs| - 1], p)
  }

  /** Sum of the lengths of `segs`. */
  function TotalLen(segs: seq<Segment>): nat
  {
    if segs == [] then 0
    else TotalLen(segs[..|segs| - 1]) + segs[|segs| - 1].len
  }

  /** Each segment starts where the previous one ends, the first at `le`. */
  ghost predicate ChainFrom(segs: seq<Segment>, le: nat)
  {
    segs == [] ||
    (ChainFrom(segs[..|segs| - 1], le) && segs[|segs| - 1].le == le + TotalLen(segs[..|segs| - 1]))
  }

  function Sum(a: seq<nat>): nat
  {
    if a == [] then 0 else Sum(a[..|a| - 1]) + a[|a| - 1]
  }

  /** The PV counters after every stripe of `areas` has been charged `w` extents. */
  ghost function Charged(alloc: seq<nat>, areas: seq<StripeArea>, w: nat): (r: seq<nat>)
    ensures |r| == |alloc|
  {
    seq(|alloc|, p requires 0 <= p < |alloc| => alloc[p] + w * CountPv(areas, p))
  }

  /** The PV counters after every stripe of `areas` has given back `w` extents. */
  ghost function Uncharged(alloc: seq<nat>, areas: seq<StripeArea>, w: nat): (r: seq<nat>)
    requires forall p :: 0 <= p < |alloc| ==> alloc[p] >= w * CountPv(areas, p)
    ensures |r| == |alloc|
  {
    seq(|alloc|, p requires 0 <= p < |alloc| => alloc[p] - w * CountPv(areas, p))
  }

  /** The PV counters after every segment of `segs` has been charged. */
  ghost function AllCharged(alloc: seq<nat>, segs: seq<Segment>): (r: seq<nat>)
    ensures |r| == |alloc|
  {
    seq(|alloc|, p requires 0 <= p < |alloc| => alloc[p] + Usage(segs, p))
  }

  // ---------------------------------------------------------------------
  // Sums

  lemma {:induction false} SumUpdate(a: seq<nat>, q: nat, v: nat)
    requires q < |a|
    ensures Sum(a[q := v]) + a[q] == Sum(a) + v
  {
    var b := a[q := v];
    if q == |a| - 1 {
      assert b[..|b| - 1] == a[..|a| - 1];
    } else {
      assert b[..|b| - 1] == a[..|a| - 1][q := v];
      SumUpdate(a[..|a| - 1], q, v);
    }
  }

  lemma {:induction false} SumMono(a: seq<nat>, b: seq<nat>)
    requires |a| == |b|
    requires forall i :: 0 <= i < |a| ==> a[i] <= b[i]
    ensures Sum(a) <= Sum(b)
  {
    if a != [] {
      SumMono(a[..|a| - 1], b[..|b| - 1]);
    }
  }

  /** Charging the stripes of a segment raises the total of all counters by `w` per stripe. */
  lemma {:induction false} ChargedSum(alloc: seq<nat>, areas: seq<StripeArea>, w: nat)
    requires forall i :: 0 <= i < |areas| ==> areas[i].pv < |alloc|
    ensures Sum(Charged(alloc, areas, w)) == Sum(alloc) + w * |areas|
  {
    if areas != [] {
      var init := areas[..|areas| - 1];
      var q := areas[|areas| - 1].pv;
      assert forall i :: 0 <= i < |init| ==> init[i].pv < |alloc| by {
        forall i | 0 <= i < |init| ensures init[i].pv < |alloc| {
          assert init[i] == areas[i];
        }
      }
      ChargedSum(alloc, init, w);
      var before := Charged(alloc, init, w);
      ChargedStep(alloc, areas, w);
      SumUpdate(before, q, before[q] + w);
      MulSucc(w, |init|);
    } else {
      assert Charged(alloc, areas, w) == alloc;
    }
  }

  lemma MulSucc(w: nat, n: nat)
    ensures w * (n + 1) == w * n + w
  {
  }

  /** Charging one more stripe raises only its own PV's counter, by `w`. */
  lemma ChargedStep(alloc: seq<nat>, areas: seq<StripeArea>, w: nat)
    requires areas != [] && areas[|areas| - 1].pv < |alloc|
    ensures var before := Charged(alloc, areas[..|areas| - 1], w);
            var q := areas[|areas| - 1].pv;
            Charged(alloc, areas, w) == before[q := before[q] + w]
  {
    var init := areas[..|areas| - 1];
    var q := areas[|areas| - 1].pv;
    var before := Charged(alloc, init, w);
    forall p | 0 <= p < |alloc|
      ensures Charged(alloc, areas, w)[p] == before[q := before[q] + w][p]
    {
      var c := CountPv(init, p);
      if p == q {
        assert CountPv(areas, p) == c + 1;
        assert w * (c + 1) == w * c + w;
      } else {
        assert CountPv(areas, p) == c;
      }
    }
  }

  /** Giving back one more stripe lowers only its own PV's counter, by `w`. */
  lemma UnchargedStep(alloc: seq<nat>, areas: seq<StripeArea>, w: nat)
    requires areas != [] && areas[|areas| - 1].pv < |alloc|
    requires forall p :: 0 <= p < |alloc| ==> alloc[p] >= w * CountPv(areas, p)
    ensures forall p :: 0 <= p < |alloc| ==> alloc[p] >= w * CountPv(areas[..|areas| - 1], p)
    ensures var before := Uncharged(alloc, areas[..|areas| - 1], w);
            var after := Uncharged(alloc, areas, w);
            var q := areas[|areas| - 1].pv;
            forall p :: 0 <= p < |alloc| ==> before[p] == after[p] + (if p == q then w else 0)
  {
    var init := areas[..|areas| - 1];
    var q := areas[|areas| - 1].pv;
    forall p | 0 <= p < |alloc|
      ensures w * CountPv(areas, p) == w * CountPv(init, p) + (if p == q then w else 0)
    {
      MulSucc(w, CountPv(init, p));
    }
  }

  /** Counters that differ by `w` at `q` alone: the larger is the smaller with `w` added back at `q`. */
  lemma LowerAt(before: seq<nat>, after: seq<nat>, q: nat, w: nat)
    requires |before| == |after| && q < |before|
    requires forall p :: 0 <= p < |before| ==> before[p] == after[p] + (if p == q then w else 0)
    ensures before[q] >= w && after == before[q := before[q] - w]
  {
  }

  lemma MulMono(s: nat, x: nat, y: nat)
    requires x <= y
    ensures s * x <= s * y
  {
  }

  /** Counters that can give back all of `areas` can give back any prefix of it. */
  lemma UnchargePrefix(alloc: seq<nat>, areas: seq<StripeArea>, k: nat, w: nat)
    requires k <= |areas|
    requires forall p :: 0 <= p < |alloc| ==> alloc[p] >= w * CountPv(areas, p)
    ensures forall p :: 0 <= p < |alloc| ==> alloc[p] >= w * CountPv(areas[..k], p)
  {
    forall p | 0 <= p < |alloc| ensures alloc[p] >= w * CountPv(areas[..k], p) {
      CountPvPrefix(areas, k, p);
      MulMono(w, CountPv(areas[..k], p), CountPv(areas, p));
    }
  }

  /** Counting stripes on a prefix never finds more than on the whole. */
  lemma {:induction false} CountPvPrefix(areas: seq<StripeArea>, k: nat, p: nat)
    requires k <= |areas|
    ensures CountPv(areas[..k], p) <= CountPv(areas, p)
  {
    if k < |areas| {
      assert areas[..|areas| - 1][..k] == areas[..k];
      CountPvPrefix(areas[..|areas| - 1], k, p);
    } else {
      assert areas[..k] == areas;
    }
  }

  /** Giving back the stripes of a segment lowers the total of all counters by `w` per stripe. */
  lemma UnchargedSum(alloc: seq<nat>, areas: seq<StripeArea>, w: nat)
    requires forall i :: 0 <= i < |areas| ==> areas[i].pv < |alloc|
    requires forall p :: 0 <= p < |alloc| ==> alloc[p] >= w * CountPv(areas, p)
    ensures Sum(Uncharged(alloc, areas, w)) + w * |areas| == Sum(alloc)
  {
    var u := Uncharged(alloc, areas, w);
    assert Charged(u, areas, w) == alloc;
    ChargedSum(u, areas, w);
  }

  /** Charging a chain that starts with `seg` is charging the rest, then `seg`. */
  lemma AllChargedPrepend(alloc: seq<nat>, seg: Segment, rest: seq<Segment>)
    ensures AllCharged(alloc, [seg] + rest) == Charged(AllCharged(alloc, rest), seg.areas, Width(seg))
  {
    forall p | 0 <= p < |alloc|
      ensures AllCharged(alloc, [seg] + rest)[p] == Charged(AllCharged(alloc, rest), seg.areas, Width(seg))[p]
    {
      UsageConcat([seg], rest, p);
      assert [seg][..0] == [];
    }
  }

  /** Putting back what was just charged restores every counter (put after get). */
  lemma PutUndoesGet(alloc: seq<nat>, areas: seq<StripeArea>, w: nat)
    ensures Uncharged(Charged(alloc, areas, w), areas, w) == alloc
  {
  }

  lemma WidthTimesStripes(seg: Segment)
    requires seg.stripes >= 1 && seg.len % seg.stripes == 0
    ensures Width(seg) * seg.stripes == seg.len
  {
  }

  lemma {:induction false} UsageConcat(a: seq<Segment>, b: seq<Segment>, p: nat)
    ensures Usage(a + b, p) == Usage(a, p) + Usage(b, p)
  {
    if b == [] {
      assert a + b == a;
    } else {
      assert (a + b)[..|a + b| - 1] == a + b[..|b| - 1];
      UsageConcat(a, b[..|b| - 1], p);
    }
  }

  lemma {:induction false} TotalLenConcat(a: seq<Segment>, b: seq<Segment>)
    ensures TotalLen(a + b) == TotalLen(a) + TotalLen(b)
  {
    if b == [] {
      assert a + b == a;
    } else {
      assert (a + b)[..|a + b| - 1] == a + b[..|b| - 1];
      TotalLenConcat(a, b[..|b| - 1]);
    }
  }

  /** A chain from `le` followed by a chain from where it ends is one chain. */
  lemma {:induction false} ChainConcat(a: seq<Segment>, b: seq<Segment>, le: nat)
    requires ChainFrom(a, le)
    ensures ChainFrom(a + b, le) <==> ChainFrom(b, le + TotalLen(a))
  {
    if b == [] {
      assert a + b == a;
    } else {
      var b' := b[..|b| - 1];
      assert (a + b)[..|a + b| - 1] == a + b';
      ChainConcat(a, b', le);
      TotalLenConcat(a, b');
    }
  }

  /** Charging all of `segs` raises the total of all counters by their total length. */
  lemma {:induction false} AllChargedSum(alloc: seq<nat>, segs: seq<Segment>)
    requires AllWellFormed(segs, |alloc|)
    ensures Sum(AllCharged(alloc, segs)) == Sum(alloc) + TotalLen(segs)
  {
    if segs == [] {
      assert AllCharged(alloc, segs) == alloc;
    } else {
      var init := segs[..|segs| - 1];
      var last := segs[|segs| - 1];
      AllChargedSum(alloc, init);
      assert AllCharged(alloc, segs) == Charged(AllCharged(alloc, init), last.areas, Width(last));
      ChargedSum(AllCharged(alloc, init), last.areas, Width(last));
      WidthTimesStripes(last);
    }
  }
}

/**
 * Trimming a segment chain from its tail, as lv_reduce does, and the
 * accounting of all the logical volumes of a volume group together.
 */
module Chains {
  import opened Segments

  /** `segs` with `count` extents cut off the tail: whole segments while they fit, then one shrink. */
  function Trim(segs: seq<Segment>, count: nat): (r: seq<Segment>)
    ensures |r| <= |segs|
  {
    if count == 0 || segs == [] then segs
    else if segs[|segs| - 1].len <= count then
      Trim(segs[..|segs| - 1], count - segs[|segs| - 1].len)
    else
      segs[..|segs| - 1] + [segs[|segs| - 1].(len := segs[|segs| - 1].len - count)]
  }

  /** The cut made by `Trim(segs, count)` falls on a stripe boundary of the segment it shrinks. */
  ghost predicate ReduceAligned(segs: seq<Segment>, count: nat)
  {
    if count == 0 || segs == [] then true
    else if segs[|segs| - 1].len <= count then
      ReduceAligned(segs[..|segs| - 1], count - segs[|segs| - 1].len)
    else segs[|segs| - 1].stripes >= 1 && count % segs[|segs| - 1].stripes == 0
  }

  lemma ModSub(a: nat, b: nat, s: nat)
    requires s >= 1 && b <= a && a % s == 0 && b % s == 0
    ensures (a - b) % s == 0
  {
    var qa, qb := a / s, b / s;
    assert a == s * qa;
    assert b == s * qb;
    assert qb <= qa by {
      if qb > qa { MulMono(s, qa + 1, qb); }
    }
    MulDistSub(s, qa, qb);
    MulMod(s, qa - qb);
  }


  lemma MulDistSub(s: nat, x: nat, y: nat)
    requires y <= x
    ensures s * x - s * y == s * (x - y)
  {
  }

  lemma MulMod(s: nat, k: nat)
    requires s >= 1
    ensures (s * k) % s == 0
  {
    var a := s * k;
    var q, r := a / s, a % s;
    assert a == s * q + r && 0 <= r < s;
    var m: int := k - q;
    assert s * m == r by {
      assert s * m == s * k - s * q;
    }
  }

  /** Shrinking the last segment by a multiple of its stripes keeps the chain well formed and shortens it by that much. */
  lemma ShrinkLastKeepsChain(segs: seq<Segment>, count: nat, le: nat, pvCount: nat)
    requires ChainFrom(segs, le) && AllWellFormed(segs, pvCount) && segs != []
    requires count < segs[|segs| - 1].len && segs[|segs| - 1].stripes >= 1 && count % segs[|segs| - 1].stripes == 0
    ensures ChainFrom(Trim(segs, count), le) && AllWellFormed(Trim(segs, count), pvCount)
    ensures TotalLen(Trim(segs, count)) + count == TotalLen(segs)
  {
    var init, last := segs[..|segs| - 1], segs[|segs| - 1];
    var shrunk := last.(len := last.len - count);
    var r := init + [shrunk];
    assert r[..|r| - 1] == init;
    ModSub(last.len, count, last.stripes);
    assert WellFormed(shrunk, pvCount);
    assert AllWellFormed(r, pvCount) by {
      forall i | 0 <= i < |r| ensures WellFormed(r[i], pvCount) {
        if i < |init| { assert r[i] == segs[i]; }
      }
    }
  }

  /**
   * Trimming keeps a contiguous, well-formed chain and shortens it by exactly
   * `count` extents.
   */
  lemma {:induction false} TrimKeepsChain(segs: seq<Segment>, count: nat, le: nat, pvCount: nat)
    requires ChainFrom(segs, le) && AllWellFormed(segs, pvCount)
    requires count <= TotalLen(segs) && ReduceAligned(segs, count)
    ensures ChainFrom(Trim(segs, count), le) && AllWellFormed(Trim(segs, count), pvCount)
    ensures TotalLen(Trim(segs, count)) + count == TotalLen(segs)
  {
    if count == 0 || segs == [] {
    } else if segs[|segs| - 1].len <= count {
      var init := segs[..|segs| - 1];
      assert AllWellFormed(init, pvCount) by {
        forall i | 0 <= i < |init| ensures WellFormed(init[i], pvCount) {
          assert init[i] == segs[i];
        }
      }
      TrimKeepsChain(init, count - segs[|segs| - 1].len, le, pvCount);
    } else {
      ShrinkLastKeepsChain(segs, count, le, pvCount);
    }
  }

  /**
   * Reducing by exactly what an extension appended (segments of non-zero
   * length) gives back the segment chain the volume had before.
   */
  lemma {:induction false} TrimUndoesAppend(a: seq<Segment>, b: seq<Segment>)
    requires forall i :: 0 <= i < |b| ==> b[i].len > 0
    ensures Trim(a + b, TotalLen(b)) == a
    ensures ReduceAligned(a + b, TotalLen(b))
  {
    if b == [] {
      assert a + b == a;
    } else {
      var b' := b[..|b| - 1];
      assert (a + b)[..|a + b| - 1] == a + b';
      TrimUndoesAppend(a, b');
      if b' == [] {
        assert a + b' == a;
      }
    }
  }

  lemma DivMono(a: nat, b: nat, s: nat)
    requires s >= 1 && a <= b
    ensures a / s <= b / s
  {
    var qa, qb := a / s, b / s;
    assert s * qa <= a && b < s * qb + s;
    if qa > qb {
      MulMono(s, qb + 1, qa);
    }
  }

  /** Trimming never raises what a chain reserves on any PV. */
  lemma {:induction false} TrimUsage(segs: seq<Segment>, count: nat, p: nat)
    ensures Usage(Trim(segs, count), p) <= Usage(segs, p)
  {
    if count == 0 || segs == [] {
    } else {
      var init, last := segs[..|segs| - 1], segs[|segs| - 1];
      if last.len <= count {
        TrimUsage(init, count - last.len, p);
      } else {
        var shrunk := last.(len := last.len - count);
        var r := init + [shrunk];
        assert r[..|r| - 1] == init;
        assert Usage(r, p) == Usage(init, p) + SegUsage(shrunk, p);
        ShrinkUsage(last, count, p);
      }
    }
  }

  /** Shrinking a segment never raises what it reserves on a PV. */
  lemma ShrinkUsage(seg: Segment, count: nat, p: nat)
    requires count <= seg.len
    ensures SegUsage(seg.(len := seg.len - count), p) <= SegUsage(seg, p)
  {
    var shrunk := seg.(len := seg.len - count);
    var c := CountPv(seg.areas, p);
    assert CountPv(shrunk.areas, p) == c;
    if seg.stripes != 0 {
      DivMono(shrunk.len, seg.len, seg.stripes);
    }
    MulMono(c, Width(shrunk), Width(seg));
    assert SegUsage(shrunk, p) == c * Width(shrunk);
    assert SegUsage(seg, p) == c * Width(seg);
  }

  /** Extents of PV `p` reserved by the segment chains `ls` of several logical volumes. */
  function LvsUsage(ls: seq<seq<Segment>>, p: nat): nat
  {
    if ls == [] then 0 else LvsUsage(ls[..|ls| - 1], p) + Usage(ls[|ls| - 1], p)
  }

  lemma {:induction false} LvsUsageConcat(a: seq<seq<Segment>>, b: seq<seq<Segment>>, p: nat)
    ensures LvsUsage(a + b, p) == LvsUsage(a, p) + LvsUsage(b, p)
  {
    if b == [] {
      assert a + b == a;
    } else {
      assert (a + b)[..|a + b| - 1] == a + b[..|b| - 1];
      LvsUsageConcat(a, b[..|b| - 1], p);
    }
  }

  /** Replacing one volume's chain changes the group's usage by the difference of the two. */
  lemma LvsUsageUpdate(ls: seq<seq<Segment>>, k: nat, x: seq<Segment>, p: nat)
    requires k < |ls|
    ensures LvsUsage(ls[k := x], p) + Usage(ls[k], p) == LvsUsage(ls, p) + Usage(x, p)
  {
    assert ls == ls[..k] + [ls[k]] + ls[k + 1..];
    assert ls[k := x] == ls[..k] + [x] + ls[k + 1..];
    LvsUsageConcat(ls[..k] + [ls[k]], ls[k + 1..], p);
    LvsUsageConcat(ls[..k], [ls[k]], p);
    LvsUsageConcat(ls[..k] + [x], ls[k + 1..], p);
    LvsUsageConcat(ls[..k], [x], p);
    assert LvsUsage([x], p) == Usage(x, p) by { assert [x][..0] == []; }
    assert LvsUsage([ls[k]], p) == Usage(ls[k], p) by { assert [ls[k]][..0] == []; }
  }

  /** Dropping one volume's chain lowers the group's usage by exactly that chain's usage. */
  lemma LvsUsageRemove(ls: seq<seq<Segment>>, k: nat, p: nat)
    requires k < |ls|
    ensures LvsUsage(ls[..k] + ls[k + 1..], p) + Usage(ls[k], p) == LvsUsage(ls, p)
  {
    assert ls == ls[..k] + [ls[k]] + ls[k + 1..];
    LvsUsageConcat(ls[..k] + [ls[k]], ls[k + 1..], p);
    LvsUsageConcat(ls[..k], [ls[k]], p);
    LvsUsageConcat(ls[..k], ls[k + 1..], p);
    assert LvsUsage([ls[k]], p) == Usage(ls[k], p) by { assert [ls[k]][..0] == []; }
  }
}

=== FILE: wrappers.dfy ===
/** Optional values, for the results the source signals with a sentinel or a failed parse. */
module Wrappers {
  datatype Option<T> = None | Some(value: T)
}
